=== FILE: README.md ===
# Neobroker portfolio importer — a Dafny model of its core

The importer logs in to a neobroker's web app (Scalable Capital or Trade
Republic), scrapes the portfolio page and turns it into a table of positions.
Each position has the columns date, type, financial institution, asset name,
ISIN, shares and current value. This project models the part of the importer
that is not browser automation:

- the scraped-text normalisers: the `€…` suffix of a name, the `®` glyph,
  the amount after `€`, share counts, Trade Republic values, the ISIN in a
  logo path, the ISIN in a security link, and the portfolio id in the page URL;
- the detail URL the Scalable Capital importer builds for each ISIN, which the
  link normaliser inverts;
- the record reconciliation: the legacy left join of table rows onto
  (name, ISIN) rows after `drop_duplicates()`, and the left join of share
  counts onto holdings by ISIN;
- stamping the run's metadata, the fixed column order, and the sort by
  (date, institution, ISIN) with missing values last;
- the positional PIN entry, `zip(fields, password)`.

Scraped text is given as `string` parameters: the cell texts of the portfolio
table, the texts and attributes of list entries, and the current URL. The
security page of an ISIN is a function from URL to the share text it shows,
where `None` stands for a page on which "Shares" never appears. The run's date
is a parameter. Numbers stay normalised text, as the source has them before
`float(...)`.

Modules, one per file:

| file | module | what it holds |
|---|---|---|
| `wrappers.dfy` | `Wrappers` | `Option`, `Result` |
| `text.dfy` | `Text` | characters, occurrences, lines (`.*` stops at a line break), `re.sub` of one character, `str.strip()` |
| `ordering.dfy` | `Ordering` | Python's string order, `sort_values` with missing values last, a sort proved sorted and a permutation |
| `join.dfy` | `Join` | `drop_duplicates()`, `merge(how='left')` |
| `records.dfy` | `Records` | holdings, output positions, import errors |
| `normalise.dfy` | `Normalise` | name cleanup and the amount after `€` |
| `values.dfy` | `Values` | current values and share counts |
| `links.dfy` | `Links` | ISIN and portfolio id read from links, the detail URL |
| `positions.dfy` | `Positions` | metadata, column order, final sort |
| `pin.dfy` | `Pin` | PIN entry |
| `trade_republic.dfy` | `TradeRepublic` | the Trade Republic import |
| `scalable_capital.dfy` | `ScalableCapital` | the Scalable Capital import |
| `legacy_importer.dfy` | `LegacyImporter` | both imports of the earlier single script |

Regular expressions follow Python's `re` module. `.` matches any character
except a line break. `^` anchors at the start of the text. A greedy `^.*X`
takes the last place in the first line where `X` can match. A `$` after `.*`
can match at the end or before a final line break. Each regex of the importer
is one string function here; there is no general regex engine.

Behaviour of the source that the model keeps, and that a reader might not
expect:

- Every final sort is `sort_values` with the default `kind`, for which pandas
  promises no order among rows with equal keys (neobroker_portfolio_importer/trade_republic.py:150-153,
  neobroker_portfolio_importer/scalable_capital.py:188,
  neobroker-portfolio-importer.py:171 and 283). The model proves that the
  output is sorted and a permutation of the input, and
  `SortedPermutationsAgreeOnKeys` shows that this fixes every sort column of
  the output.
- The legacy join applies `drop_duplicates()` to whole (name, ISIN) rows
  (neobroker-portfolio-importer.py:169), so a name shown with two ISINs gives
  two output rows, and a name shown twice with one ISIN gives one
  (`LegacyImporter.ImportScalable`).
- Only the "Popular savings plans" teaser skips an import without error
  (neobroker_portfolio_importer/scalable_capital.py:119-120). An empty list
  otherwise ends the import with an error. In the Scalable Capital import,
  `del element, elements` (neobroker_portfolio_importer/scalable_capital.py:141)
  names a loop variable that an empty loop never bound; the model returns
  `Failure(UnboundName("element"))`. In the Trade Republic import the frame has
  no `isin_code` column to sort by
  (neobroker_portfolio_importer/trade_republic.py:150-153). In the legacy
  imports the frames have no `name` column to merge on
  (neobroker-portfolio-importer.py:169) and no `isin` column to sort by
  (neobroker-portfolio-importer.py:283). The model returns
  `Failure(MissingColumn(...))` in these three cases.
- The importers' amount pattern allows at most one thousands separator
  (neobroker-portfolio-importer.py:135,
  neobroker_portfolio_importer/scalable_capital.py:150). The legacy importer
  then removes every comma (neobroker-portfolio-importer.py:136), so
  "€1,234.56" reads as 1234.56. The current Scalable Capital importer removes
  only cells that are exactly "," (neobroker_portfolio_importer/scalable_capital.py:151),
  so "€1,234.56" reads as "1,234.56" (finding 1 below).

## Model

| member | source | states |
|---|---|---|
| Normalise.StripValueSuffix | neobroker-portfolio-importer.py:131 | a name with no `€` in its first line is unchanged; otherwise the result is the text before the last `€` of the first line, followed by the later lines |
| Normalise.StripValueSuffixOneLine | neobroker-portfolio-importer.py:131 | a one-line cell `name€tail`, with no `€` in the tail, gives exactly `name` |
| Normalise.StripValueSuffixNoEuro | neobroker-portfolio-importer.py:131 | a one-line name without `€` is returned unchanged |
| Normalise.StripRegistered | neobroker-portfolio-importer.py:132 | every `®` is removed; every other character keeps its count and order |
| Normalise.StripRegisteredIdempotent | neobroker-portfolio-importer.py:154 | removing `®` twice gives the same as once |
| Normalise.AmountEnd | neobroker-portfolio-importer.py:135 | a match of the corrected amount pattern `d+(,d+)*.d+` is an amount text that no digit follows |
| Normalise.AmountEndFinds | neobroker-portfolio-importer.py:135 | every amount text followed by a non-digit is found |
| Normalise.AmountEndAsWritten | neobroker-portfolio-importer.py:135 | the pattern as written, `d+,d+.d+` or `d+.d+`, matches only amounts with at most one thousands separator |
| Normalise.AmountEndAsWrittenFinds | neobroker-portfolio-importer.py:135 | every amount with at most one separator, followed by a non-digit, is found by the pattern as written |
| Normalise.AmountEndExtendsAsWritten | neobroker-portfolio-importer.py:135 | wherever the pattern as written matches, the corrected pattern matches the same text |
| Normalise.LastEuroBeforeAmount | neobroker-portfolio-importer.py:135 | the greedy `^.*€` stops at the last `€` of the first line that is followed by an amount |
| Normalise.ExtractAmount | neobroker-portfolio-importer.py:135 | without a `€` followed by an amount in the first line the text is unchanged; when the `€` at `j` is followed by an amount and no later `€` of that line is, the result is exactly the amount after `j`, followed by the later lines |
| Normalise.ExtractAmountAt | neobroker-portfolio-importer.py:135 | with an amount after the `€` at `j`, and no such `€` later, the result is that amount plus the later lines |
| Normalise.ExtractAmountOfDisplayedValue | neobroker-portfolio-importer.py:135 | `prefix€amount rest` on one line gives exactly `amount` |
| Normalise.ExtractAmountAsWritten | neobroker-portfolio-importer.py:135 | as written: without a `€` followed by an amount of at most one separator the text is unchanged; when the `€` at `j` is followed by such an amount and no later `€` of that line is, the result is exactly that amount, followed by the later lines |
| Normalise.ExtractAmountAsWrittenOfDisplayedValue | neobroker-portfolio-importer.py:135 | as written, an amount with at most one separator is read exactly |
| Normalise.ExtractAmountAsWrittenMissesMillions | neobroker-portfolio-importer.py:135 | as written, "€1,234,567.89" is left unchanged |
| Normalise.ExtractAmountReadsMillions | neobroker-portfolio-importer.py:135 | corrected, "€1,234,567.89" gives "1,234,567.89" |
| Normalise.ExtractAmountReadsThousands | neobroker-portfolio-importer.py:135 | "€1,234.56" gives "1,234.56" |
| Normalise.AmountChars | neobroker-portfolio-importer.py:135 | an amount text holds only digits, ',' and '.' |
| Values.RemoveCommasOfAmount | neobroker-portfolio-importer.py:136 | an amount without its commas is a plain decimal: digits, a point, digits |
| Values.CurrentValue | neobroker-portfolio-importer.py:135-136 | the result has no comma; text without a `€` before an amount only loses its commas |
| Values.CurrentValueOfDisplayedValue | neobroker-portfolio-importer.py:135-136 | `prefix€amount rest` gives the amount without commas, a plain decimal |
| Values.CurrentValueDropsSeparator | neobroker_portfolio_importer/scalable_capital.py:150-151 | "€1,234.56" gives "1234.56" |
| Values.CurrentValueAsWritten | neobroker-portfolio-importer.py:135-136 | the legacy cleanup as written: no comma is left, and text without a `€` before an amount of at most one separator only loses its commas |
| Values.CurrentValueAsWrittenOfDisplayedValue | neobroker-portfolio-importer.py:135-136 | as written, `prefix€amount rest` with at most one separator gives the amount without commas, a plain decimal |
| Values.CurrentValueAsWrittenKeepsEuro | neobroker-portfolio-importer.py:135-136 | as written, "€1,234,567.89" gives "€1234567.89", which is not a plain decimal |
| Values.ScalableValueAsWritten | neobroker_portfolio_importer/scalable_capital.py:150-151 | as written, no value is left as a lone ","; text without a `€` before an amount of at most one separator is unchanged unless it is exactly "," |
| Values.ScalableValueAsWrittenOfDisplayedValue | neobroker_portfolio_importer/scalable_capital.py:150-151 | as written, `prefix€amount rest` with at most one separator gives exactly the amount, its separator included |
| Values.ScalableValueAsWrittenKeepsSeparator | neobroker_portfolio_importer/scalable_capital.py:151 | as written, "€1,234.56" gives "1,234.56" with the comma kept |
| Values.CleanShares | neobroker_portfolio_importer/scalable_capital.py:169 | no comma is left; one `€` goes exactly when the text starts with it; every other character keeps its count and order |
| Values.CleanSharesOfAmount | neobroker_portfolio_importer/scalable_capital.py:169 | "€amount" and "amount" both give the amount without commas, a plain decimal |
| Values.CleanTradeRepublicValue | neobroker_portfolio_importer/trade_republic.py:124 | no comma is left, and the text does not grow |
| Values.CleanTradeRepublicValueSubsequence | neobroker_portfolio_importer/trade_republic.py:124 | the result is the input with some characters deleted |
| Values.CleanTradeRepublicValueCounts | neobroker_portfolio_importer/trade_republic.py:124 | commas may go; spaces and `€` go in equal numbers; every other character keeps its count |
| Values.CleanTradeRepublicValueAppend | neobroker_portfolio_importer/trade_republic.py:124 | text without a space loses only its commas, whatever follows it |
| Values.CleanTradeRepublicValueOfDisplayedValue | neobroker_portfolio_importer/trade_republic.py:124 | "amount €" gives the amount without commas, a plain decimal |
| Values.RemoveSpacedEuro | neobroker-portfolio-importer.py:274 | the text does not grow |
| Values.RemoveSpacedEuroSubsequence | neobroker-portfolio-importer.py:274 | the result is the input with some characters deleted |
| Values.RemoveSpacedEuroKeepsOthers | neobroker-portfolio-importer.py:274 | every character other than ' ' and `€` keeps its count |
| Values.RemoveSpacedEuroPairs | neobroker-portfolio-importer.py:274 | spaces and `€` go only in pairs: one of each per removed " €" |
| Values.RemoveSpacedEuroOfDisplayedValue | neobroker-portfolio-importer.py:274 | "number €" gives the number |
| Text.Strip | neobroker_portfolio_importer/scalable_capital.py:136-137 | `str.strip()` gives a contiguous piece of the text with only Python white space cut from either side of it, and neither end of the result is white space |
| Text.StripUnchanged | neobroker_portfolio_importer/scalable_capital.py:136-137 | `str.strip()` leaves text that neither starts nor ends with white space unchanged |
| Links.LastPerformanceMatch | neobroker-portfolio-importer.py:158 | the greedy `^.*/performance/` stops at the last `/performance/<ISIN>/` of the first line |
| Links.IsinFromImgSrc | neobroker-portfolio-importer.py:158 | a `src` without `/performance/<ISIN>/` in its first line is unchanged; with a match at `p` and none later in that line, the result is exactly the code at `p` followed by the later lines; any result of a match starts with an ISIN-shaped code that occurs as `/performance/<code>/` |
| Links.IsinFromImgSrcAt | neobroker-portfolio-importer.py:158 | the last match decides which code is returned |
| Links.IsinFromPerformanceSrc | neobroker-portfolio-importer.py:158 | a one-line `pre/performance/<ISIN>/post` gives exactly the ISIN |
| Links.BuildDetailUrl | neobroker_portfolio_importer/scalable_capital.py:163 | the URL is the security-page prefix, then exactly the ISIN, then `&portfolioId=`, then exactly the portfolio id |
| Links.IsinFromHref | neobroker_portfolio_importer/scalable_capital.py:144 | the cleaned link is never longer than the link |
| Links.StripHrefCopies | neobroker_portfolio_importer/scalable_capital.py:144 | where neither pattern starts, characters are copied unchanged |
| Links.IsinFromHrefUnchanged | neobroker_portfolio_importer/scalable_capital.py:144 | a link containing neither pattern is returned unchanged |
| Links.IsinFromDetailUrl | neobroker_portfolio_importer/scalable_capital.py:144 | the link cleanup inverts the URL builder: cleaning `BuildDetailUrl(isin, id)` gives `isin` back when the ISIN holds neither pattern and the id has no line break |
| Links.IsinFromDetailUrlOfIsin | neobroker_portfolio_importer/scalable_capital.py:163 | the round trip holds for every twelve-character ISIN |
| Links.LastPortfolioIdAt | neobroker_portfolio_importer/scalable_capital.py:115 | the greedy `^.*portfolioId=` stops at the last `portfolioId=` of the first line that starts a match |
| Links.PortfolioIdFromUrl | neobroker_portfolio_importer/scalable_capital.py:115 | a URL without a match is unchanged; with a match at `a` and none later in the first line, the result is exactly the value after `a` up to the next `&`, plus a final line break if the URL has one; any such value is non-empty and has no `&` |
| Links.PortfolioIdFromUrlAt | neobroker_portfolio_importer/scalable_capital.py:115 | the last match decides which value is returned |
| Links.PortfolioIdOfUrl | neobroker_portfolio_importer/scalable_capital.py:115 | a one-line `pre portfolioId=<id>&…` gives exactly the id |
| Ordering.SortBy | neobroker_portfolio_importer/trade_republic.py:150-153 | the result is a permutation of the rows, sorted by the key |
| Ordering.CellLtStrictTotal | neobroker-portfolio-importer.py:171 | the cell order, with missing values last, is a strict total order |
| Ordering.KeyLeTotalOrder | neobroker_portfolio_importer/scalable_capital.py:188 | the column-by-column row order is a total order |
| Ordering.SortBySortedIsIdentity | neobroker_portfolio_importer/scalable_capital.py:188 | rows already in order are returned as they are |
| Ordering.SortByIdempotent | neobroker_portfolio_importer/scalable_capital.py:188 | sorting twice gives the same as sorting once |
| Ordering.SortedPermutationsAgreeOnKeys | neobroker_portfolio_importer/trade_republic.py:150-153 | two sorted permutations of the same rows have equal keys at every position, so an unstable sort still fixes the key columns |
| Join.Dedup | neobroker-portfolio-importer.py:169 | `drop_duplicates()` keeps exactly the rows that occur, each once |
| Join.NoDuplicatesCardinality | neobroker-portfolio-importer.py:169 | a row list without duplicates has as many rows as distinct rows |
| Join.Matching | neobroker-portfolio-importer.py:169 | the right rows with a given key, each as often as it occurs |
| Join.MatchingUniqueKeys | neobroker_portfolio_importer/scalable_capital.py:177 | with unique right keys at most one row matches |
| Join.JoinBlock | neobroker-portfolio-importer.py:169 | a left row gives one output row per matching right row, each as often as that right row occurs, or one row without a match |
| Join.LeftJoin | neobroker-portfolio-importer.py:169 | every left row is kept, paired with every right row of equal key, or with a missing value when none has its key; nothing else is output; a matched pair occurs (left count) × (right count) times and an unmatched row as often as it occurs on the left |
| Join.LeftJoinUniqueKeys | neobroker_portfolio_importer/scalable_capital.py:177 | with unique right keys the join keeps the left rows one for one, in order |
| Positions.Stamp | neobroker_portfolio_importer/trade_republic.py:135-149 | a stamped row carries the run's date, type and institution, and unstamping it gives the holding back |
| Positions.Snapshot | neobroker_portfolio_importer/scalable_capital.py:183-188 | one row per holding, each with the run's metadata; the rows are the stamped holdings, permuted and sorted by (date, institution, ISIN) |
| Positions.SnapshotHoldings | neobroker_portfolio_importer/trade_republic.py:135-154 | the holding columns of the output are the holdings, each as often as given |
| Positions.SnapshotByIsin | neobroker_portfolio_importer/trade_republic.py:150-153 | within one run the rows ascend by ISIN |
| Positions.SnapshotSortIdempotent | neobroker_portfolio_importer/scalable_capital.py:188 | sorting the output again changes nothing |
| Pin.Zip | neobroker-portfolio-importer.py:235 | the k-th pair is (k-th field, k-th character), up to the shorter length |
| Pin.FirstNonDigit | neobroker-portfolio-importer.py:236 | finds the first character `int()` rejects, or none exactly when all are digits |
| Pin.EnterPin | neobroker_portfolio_importer/trade_republic.py:54-58 | keystrokes pair the k-th field with the k-th character, truncated to the shorter list; it fails exactly when a character of that prefix is not a digit, naming the first one |
| TradeRepublic.ReadItem | neobroker_portfolio_importer/trade_republic.py:104-127 | all fields come from one entry: the name text, the `id` as ISIN, the raw share text, and the value without commas |
| TradeRepublic.Import | neobroker_portfolio_importer/trade_republic.py:130-154 | fails with a missing `isin_code` exactly when the list is empty; otherwise one row per entry, each the stamped holding of an entry, every entry present, sorted |
| TradeRepublic.ImportKeepsEveryEntry | neobroker_portfolio_importer/trade_republic.py:130-154 | the holdings of the output are those of the entries, with multiplicity |
| TradeRepublic.ReadItemOfDisplayedValue | neobroker_portfolio_importer/trade_republic.py:123-125 | a value shown as "amount €" is read as the amount without commas |
| ScalableCapital.ReadItem | neobroker_portfolio_importer/scalable_capital.py:135-151 | name, value and ISIN come from one entry: the name is that entry's name text with white space cut from both ends, the value is the entry's value text cut the same way and then cleaned as written (never a lone ","), and the ISIN is read from the entry's link |
| ScalableCapital.ReadItemOfDisplayedName | neobroker_portfolio_importer/scalable_capital.py:136 | a name shown without white space at either end is read exactly as shown |
| ScalableCapital.ReadItemOfDisplayedValue | neobroker_portfolio_importer/scalable_capital.py:137-151 | a value shown as `prefix€amount rest` with at most one separator is read as exactly the amount, separator included |
| ScalableCapital.CollectShares | neobroker_portfolio_importer/scalable_capital.py:162-171 | succeeds exactly when every ISIN's page shows a share count, giving one cleaned count per ISIN in order; otherwise it fails with the first ISIN whose page timed out |
| ScalableCapital.SharesOfRows | neobroker_portfolio_importer/scalable_capital.py:162-174 | fails exactly when some row's page shows no count; otherwise the k-th count row is for the k-th row's ISIN |
| ScalableCapital.Assemble | neobroker_portfolio_importer/scalable_capital.py:177-188 | every output row is a portfolio row with the share count of its ISIN and the run's metadata; every portfolio row appears; sorted |
| ScalableCapital.Import | neobroker_portfolio_importer/scalable_capital.py:105-188 | the savings-plan teaser gives no rows; otherwise an empty list fails with the unbound `element`, and a timeout happens exactly when some entry's page shows no count; no other failure occurs; on success every row is an entry with the cleaned count of its ISIN, every entry is present, and the rows are sorted |
| ScalableCapital.ImportShowsItemValue | neobroker_portfolio_importer/scalable_capital.py:147-188 | every entry's value, as read, is the value of some output row |
| ScalableCapital.ReadItemKeepsSeparator | neobroker_portfolio_importer/scalable_capital.py:137-151 | an entry showing "€1,234.56" is read as "1,234.56" |
| ScalableCapital.ImportKeepsSeparator | neobroker_portfolio_importer/scalable_capital.py:147-188 | an entry showing "€1,234.56" reaches the output as "1,234.56", separator kept |
| ScalableCapital.ImportOneRowPerItem | neobroker_portfolio_importer/scalable_capital.py:177 | with distinct ISINs there is exactly one row per entry |
| LegacyImporter.ReadCell | neobroker-portfolio-importer.py:126-136 | the derived name has no `®`; the value, read with the one-separator pattern, has no comma |
| LegacyImporter.ReadCellOfDisplayedValue | neobroker-portfolio-importer.py:126-136 | a one-line cell `name€amount` with at most one separator gives the name and the amount without commas, a plain decimal |
| LegacyImporter.ReadElement | neobroker-portfolio-importer.py:153-158 | the anchor name is the span text with every `®` removed and every other character kept, in order and with its count |
| LegacyImporter.ReadElementOfPerformanceSrc | neobroker-portfolio-importer.py:157-158 | a logo path `<pre>/performance/<ISIN>/<post>` on one line gives the anchor exactly that twelve-character ISIN |
| LegacyImporter.Anchors | neobroker-portfolio-importer.py:164-169 | the deduplicated anchors are exactly those read from some element, each once |
| LegacyImporter.JoinedAssetsCounted | neobroker-portfolio-importer.py:169-170 | a table row paired with a name-to-ISIN row of its name is output (table count) × (anchor count) times; an unmatched table row as often as it occurs |
| LegacyImporter.JoinOnName | neobroker-portfolio-importer.py:169-170 | every table row is kept: paired with every anchor of its name, or once without an ISIN when no anchor has its name; nothing else is output; each pairing occurs (table count) × (anchor count) times, each unmatched row as often as in the table |
| LegacyImporter.Reconcile | neobroker-portfolio-importer.py:169-171 | the output is a permutation of the joined rows, sorted by ISIN with missing ISINs last |
| LegacyImporter.ImportScalable | neobroker-portfolio-importer.py:126-172 | fails with a missing `name` exactly when there is no element; otherwise every output row is a table row, with an ISIN read from an element of that name or none when no element has it; each cell appears with each distinct (name, ISIN) of its name, or alone when no element has its name, as often as equal cells occur; sorted by ISIN |
| LegacyImporter.ReconciledRowsCounted | neobroker-portfolio-importer.py:164-171 | after `drop_duplicates()` each (cell, matching element) row and each unmatched cell occurs as often as equal cells occur |
| LegacyImporter.AnchorNamesDistinct | neobroker-portfolio-importer.py:169 | after deduplication, when each name has one ISIN, the anchor names are distinct |
| LegacyImporter.ImportScalableOneRowPerCell | neobroker-portfolio-importer.py:169 | when each name has one ISIN, there is exactly one output row per table row |
| LegacyImporter.CellAndSpanAgree | neobroker-portfolio-importer.py:131-154 | a one-line cell `name€…` and a span showing `name` give the same join key |
| LegacyImporter.ReadItem | neobroker-portfolio-importer.py:267-275 | the `id` is the ISIN and the value loses its " €" |
| LegacyImporter.ImportTradeRepublic | neobroker-portfolio-importer.py:281-283 | fails with a missing `isin` exactly when the list is empty; otherwise the rows are a permutation of the entries, each with an ISIN, sorted by ISIN |
| LegacyImporter.ReadItemOfDisplayedValue | neobroker-portfolio-importer.py:273-274 | a value shown as "number €" is read as the number |

## Left out

- Browser automation: starting and reusing the driver, logging in, clicking,
  reading the page source, and quitting. The texts and attributes read from
  the page are parameters.
- Waiting: the polling loops, `time.sleep` and `WebDriverWait`. A share page
  that times out is `None` from the page lookup, and the import then fails
  with `SharesTimeout`.
- The best-effort dismissals of cookie banners, modals and notices, which
  only click.
- `pd.read_html`: the table's first-column cells are given as strings.
- `float(...)` and `astype('float')`: numbers stay normalised text, so the
  `ValueError` these raise on malformed text is not modelled.
- Export: Excel, CSV and clipboard output, `transpose`, and `pd.concat` onto
  an empty frame. The concatenation returns the imported rows unchanged.
- The clock: `pd.Timestamp.now().date()` is the `date` parameter.
- Links.IsinFromHref: the two unescaped `.` in `de.scalable.capital` match any
  character, so the source pattern also matches host names that differ from it
  in those two places; the model matches the literal prefix only. The escaped
  `\?` matches only `?`.
- LegacyImporter.ReadCell: `astype(dtype={'current_value': 'float'})`
  (neobroker-portfolio-importer.py:138) is not modelled. A value the pattern
  misses, such as "€1,234,567.89", stays the text "€1234567.89"
  (`Values.CurrentValueAsWrittenKeepsEuro`) where the source raises
  `ValueError`.
- Pin.EnterPin: for one character, `int()` accepts every Unicode decimal
  digit (such as '٣'), and the source types that digit's value; the model
  accepts only the ASCII digits `0`–`9` and fails on any other digit. When a
  character is rejected, the source has already typed the digits before it
  (neobroker_portfolio_importer/trade_republic.py:57-58) before `int()`
  raises; the model returns only the `Failure` and not those keystrokes.
- The sort's order among rows with equal keys. pandas does not fix it, so the
  model proves only sortedness and permutation.

## Findings

| source | as written | input that shows it | evidently intended | confidence | as-written member | corrected member |
|---|---|---|---|---|---|---|
| neobroker_portfolio_importer/scalable_capital.py:151 | `Series.replace(',', '', regex=False)` replaces only cells that are exactly ",", so thousands separators stay | "€1,234.56" gives "1,234.56" | remove every comma, as the legacy importer does with `str.replace(..., regex=True)`, giving "1234.56" | high, not executed | ScalableCapital.ImportKeepsSeparator | Values.CurrentValueDropsSeparator |
| neobroker-portfolio-importer.py:135 | the amount pattern `[0-9]+,[0-9]+\.[0-9]+\|[0-9]+\.[0-9]+` allows at most one thousands separator | "€1,234,567.89" matches nowhere and stays unchanged | any number of groups, `[0-9]+(,[0-9]+)*\.[0-9]+`, giving "1,234,567.89" | medium, not executed | Values.CurrentValueAsWrittenKeepsEuro | Normalise.ExtractAmountReadsMillions |

The importers model the code as written. `ScalableCapital.ReadItem` uses
`Values.ScalableValueAsWritten`, and `LegacyImporter.ReadCell` uses
`Values.CurrentValueAsWritten`. The corrected definitions `Values.CurrentValue`
and `Normalise.ExtractAmount` stand beside them, with their intended property
proved: any amount shown after `€` reads as a plain decimal
(`Values.CurrentValueOfDisplayedValue`). The second finding applies equally to
neobroker_portfolio_importer/scalable_capital.py:150, which uses the same
pattern.

=== FILE: join.dfy ===
/**
 * The two table operations the reconciliation uses: `drop_duplicates()` with
 * `keep='first'`, and `merge(how='left', on=...)`.
 */
module Join {
  import opened Wrappers

  /** Every value occurs at most once. */
  ghost predicate NoDuplicates<T(!new)>(xs: seq<T>) {
    forall x :: multiset(xs)[x] <= 1
  }

  /**
   * `drop_duplicates(keep='first')`: a row is kept exactly when no equal row
   * comes before it, so equal rows collapse to their first occurrence.
   */
  function Dedup<T(==,!new)>(xs: seq<T>): (r: seq<T>)
    ensures forall x :: x in r <==> x in xs
    ensures NoDuplicates(r)
    decreases |xs|
  {
    if xs == [] then []
    else
      var init := xs[..|xs| - 1];
      var last := xs[|xs| - 1];
      assert xs == init + [last];
      var d := Dedup(init);
      if last in init then d else d + [last]
  }

  /** A sequence without duplicates has as many distinct elements as positions. */
  lemma {:induction false} NoDuplicatesCardinality<T(!new)>(xs: seq<T>)
    requires NoDuplicates(xs)
    ensures |set x | x in xs| == |xs|
    decreases |xs|
  {
    if xs != [] {
      assert xs == [xs[0]] + xs[1..];
      assert multiset(xs) == multiset{xs[0]} + multiset(xs[1..]);
      assert NoDuplicates(xs[1..]) by {
        forall x
          ensures multiset(xs[1..])[x] <= 1
        {
          assert multiset(xs)[x] <= 1;
        }
      }
      NoDuplicatesCardinality(xs[1..]);
      assert multiset(xs)[xs[0]] <= 1;
      assert xs[0] !in xs[1..];
      assert (set x | x in xs) == {xs[0]} + (set x | x in xs[1..]);
    }
  }

  /** Without duplicates, a value that occurs occurs once. */
  lemma NoDuplicatesOnce<T(!new)>(xs: seq<T>, x: T)
    requires NoDuplicates(xs) && x in xs
    ensures multiset(xs)[x] == 1
  {
    assert multiset(xs)[x] <= 1;
  }

  /** Without duplicates, different positions hold different values. */
  lemma NoDuplicatesDistinct<T(!new)>(xs: seq<T>, i: nat, j: nat)
    requires NoDuplicates(xs) && i < j < |xs|
    ensures xs[i] != xs[j]
  {
    var pre, post := xs[..j], xs[j..];
    assert xs == pre + post;
    assert multiset(xs) == multiset(pre) + multiset(post);
    assert xs[i] in pre && xs[j] == post[0];
    assert multiset(post)[xs[j]] >= 1;
    assert multiset(pre)[xs[i]] >= 1;
    assert multiset(xs)[xs[i]] == multiset(pre)[xs[i]] + multiset(post)[xs[i]] <= 1;
  }

  /** The rows of `right` whose key is `k`, in their original order. */
  function Matching<R(!new), K(==)>(right: seq<R>, k: K, rkey: R -> K): (r: seq<R>)
    ensures forall x :: multiset(r)[x] == if rkey(x) == k then multiset(right)[x] else 0
    ensures forall x :: x in r <==> x in right && rkey(x) == k
  {
    if right == [] then []
    else
      assert right == [right[0]] + right[1..];
      var rest := Matching(right[1..], k, rkey);
      if rkey(right[0]) == k then [right[0]] + rest else rest
  }

  /** No row of `right` has key `k`: nothing matches. */
  lemma {:induction false} MatchingNone<R(!new), K>(right: seq<R>, k: K, rkey: R -> K)
    requires forall x :: x in right ==> rkey(x) != k
    ensures Matching(right, k, rkey) == []
    decreases |right|
  {
    if right != [] {
      MatchingNone(right[1..], k, rkey);
    }
  }

  /** At most one row of `right` has a given key when no two rows share one. */
  lemma {:induction false} MatchingUniqueKeys<R(!new), K>(right: seq<R>, k: K, rkey: R -> K)
    requires forall i, j :: 0 <= i < j < |right| ==> rkey(right[i]) != rkey(right[j])
    ensures |Matching(right, k, rkey)| <= 1
    decreases |right|
  {
    if right != [] {
      MatchingUniqueKeys(right[1..], k, rkey);
      if rkey(right[0]) == k {
        forall x | x in right[1..]
          ensures rkey(x) != k
        {
          var j :| 0 <= j < |right[1..]| && right[1..][j] == x;
          assert right[j + 1] == x;
        }
        MatchingNone(right[1..], k, rkey);
      }
    }
  }

  /** `l` paired with each row of `ms`, in order. */
  function Pairs<L(!new), R(!new)>(l: L, ms: seq<R>): (r: seq<(L, Option<R>)>)
    ensures |r| == |ms|
    ensures forall p :: p in r ==> p.0 == l && p.1.Some? && p.1.value in ms
    ensures forall x {:trigger multiset(r)[(l, Some(x))]} :: multiset(r)[(l, Some(x))] == multiset(ms)[x]
    decreases |ms|
  {
    if ms == [] then []
    else
      assert ms == [ms[0]] + ms[1..];
      [(l, Some(ms[0]))] + Pairs(l, ms[1..])
  }

  /** The output rows one left row contributes: one per match, or one with no match. */
  function JoinBlock<L(!new), R(!new), K(==)>(l: L, right: seq<R>, lkey: L -> K, rkey: R -> K): (r: seq<(L, Option<R>)>)
    ensures |r| == if Matching(right, lkey(l), rkey) == [] then 1 else |Matching(right, lkey(l), rkey)|
    ensures forall p :: p in r ==> p.0 == l
    ensures forall p :: p in r && p.1.Some? ==> p.1.value in right && rkey(p.1.value) == lkey(l)
    ensures forall p :: p in r && p.1.None? ==> forall x :: x in right ==> rkey(x) != lkey(l)
    ensures forall x {:trigger multiset(r)[(l, Some(x))]} :: multiset(r)[(l, Some(x))] == if rkey(x) == lkey(l) then multiset(right)[x] else 0
    ensures forall x :: x in right && rkey(x) == lkey(l) ==> (l, Some(x)) in r
    ensures (forall x :: x in right ==> rkey(x) != lkey(l)) ==> r == [(l, None)]
  {
    var ms := Matching(right, lkey(l), rkey);
    if ms == [] then
      assert forall x :: x in right ==> rkey(x) != lkey(l) by {
        forall x | x in right
          ensures rkey(x) != lkey(l)
        {
          assert x !in ms;
        }
      }
      [(l, None)]
    else
      var r := Pairs(l, ms);
      forall x | x in right && rkey(x) == lkey(l)
        ensures (l, Some(x)) in r
      {
        assert multiset(r)[(l, Some(x))] == multiset(ms)[x] > 0;
      }
      assert ms[0] in right && rkey(ms[0]) == lkey(l);
      r
  }

  /** The join of a non-empty left side is its head's block followed by the join of its tail. */
  lemma JoinStep<L(!new), R(!new), K>(left: seq<L>, right: seq<R>, lkey: L -> K, rkey: R -> K, block: seq<(L, Option<R>)>, rest: seq<(L, Option<R>)>)
    requires left != []
    requires |block| >= 1
    requires forall p :: p in block ==> p.0 == left[0]
    requires forall p :: p in block && p.1.Some? ==> p.1.value in right && rkey(p.1.value) == lkey(left[0])
    requires forall p :: p in block && p.1.None? ==> forall x :: x in right ==> rkey(x) != lkey(left[0])
    requires forall x :: x in right && rkey(x) == lkey(left[0]) ==> (left[0], Some(x)) in block
    requires (forall x :: x in right ==> rkey(x) != lkey(left[0])) ==> block == [(left[0], None)]
    requires forall p :: p in rest ==> p.0 in left[1..]
    requires forall p :: p in rest && p.1.Some? ==> p.1.value in right && rkey(p.1.value) == lkey(p.0)
    requires forall p :: p in rest && p.1.None? ==> forall x :: x in right ==> rkey(x) != lkey(p.0)
    requires forall l, x :: l in left[1..] && x in right && rkey(x) == lkey(l) ==> (l, Some(x)) in rest
    requires forall l :: l in left[1..] && (forall x :: x in right ==> rkey(x) != lkey(l)) ==> (l, None) in rest
    requires |rest| >= |left| - 1
    ensures forall p :: p in block + rest ==> p.0 in left
    ensures forall p :: p in block + rest && p.1.Some? ==> p.1.value in right && rkey(p.1.value) == lkey(p.0)
    ensures forall p :: p in block + rest && p.1.None? ==> forall x :: x in right ==> rkey(x) != lkey(p.0)
    ensures forall l, x :: l in left && x in right && rkey(x) == lkey(l) ==> (l, Some(x)) in block + rest
    ensures forall l :: l in left && (forall x :: x in right ==> rkey(x) != lkey(l)) ==> (l, None) in block + rest
    ensures |block + rest| >= |left|
  {
    var r := block + rest;
    assert left == [left[0]] + left[1..];
    forall p | p in r
      ensures p.0 in left
      ensures p.1.Some? ==> p.1.value in right && rkey(p.1.value) == lkey(p.0)
      ensures p.1.None? ==> forall x :: x in right ==> rkey(x) != lkey(p.0)
    {
      if p in block {
      } else {
        assert p in rest;
      }
    }
    forall l, x | l in left && x in right && rkey(x) == lkey(l)
      ensures (l, Some(x)) in r
    {
      if l == left[0] {
        assert (l, Some(x)) in block;
      } else {
        assert l in left[1..];
        assert (l, Some(x)) in rest;
      }
    }
    forall l | l in left && (forall x :: x in right ==> rkey(x) != lkey(l))
      ensures (l, None) in r
    {
      if l == left[0] {
        assert r[0] == (l, None);
      } else {
        assert l in left[1..];
        assert (l, None) in rest;
      }
    }
  }

  /**
   * `left.merge(right, how='left', on=key)`: every left row is kept, paired
   * with each right row of equal key, or with a missing right side when there
   * is none.
   */
  function LeftJoin<L(!new), R(!new), K(==)>(left: seq<L>, right: seq<R>, lkey: L -> K, rkey: R -> K): (r: seq<(L, Option<R>)>)
    ensures forall p :: p in r ==> p.0 in left
    ensures forall p :: p in r && p.1.Some? ==> p.1.value in right && rkey(p.1.value) == lkey(p.0)
    ensures forall p :: p in r && p.1.None? ==> forall x :: x in right ==> rkey(x) != lkey(p.0)
    ensures forall l, x :: l in left && x in right && rkey(x) == lkey(l) ==> (l, Some(x)) in r
    ensures forall l :: l in left && (forall x :: x in right ==> rkey(x) != lkey(l)) ==> (l, None) in r
    ensures |r| >= |left|
    ensures forall l, x {:trigger multiset(r)[(l, Some(x))]} :: rkey(x) == lkey(l) ==> multiset(r)[(l, Some(x))] == multiset(left)[l] as int * multiset(right)[x]
    ensures forall l {:trigger multiset(r)[(l, None)]} :: (forall x :: x in right ==> rkey(x) != lkey(l)) ==> multiset(r)[(l, None)] == multiset(left)[l]
    decreases |left|
  {
    if left == [] then []
    else
      var block := JoinBlock(left[0], right, lkey, rkey);
      var rest := LeftJoin(left[1..], right, lkey, rkey);
      JoinStep(left, right, lkey, rkey, block, rest);
      JoinStepMatched(left, right, lkey, rkey, block, rest);
      JoinStepUnmatched(left, right, lkey, rkey, block, rest);
      block + rest
  }

  /** The head's block adds the head's pairings to the count of every matched pair. */
  lemma JoinStepMatched<L(!new), R(!new), K>(left: seq<L>, right: seq<R>, lkey: L -> K, rkey: R -> K, block: seq<(L, Option<R>)>, rest: seq<(L, Option<R>)>)
    requires left != []
    requires forall p :: p in block ==> p.0 == left[0]
    requires forall x {:trigger multiset(block)[(left[0], Some(x))]} :: multiset(block)[(left[0], Some(x))] == if rkey(x) == lkey(left[0]) then multiset(right)[x] else 0
    requires forall l, x {:trigger multiset(rest)[(l, Some(x))]} :: rkey(x) == lkey(l) ==> multiset(rest)[(l, Some(x))] == multiset(left[1..])[l] as int * multiset(right)[x]
    ensures forall l, x {:trigger multiset(block + rest)[(l, Some(x))]} :: rkey(x) == lkey(l) ==> multiset(block + rest)[(l, Some(x))] == multiset(left)[l] as int * multiset(right)[x]
  {
    forall l, x | rkey(x) == lkey(l)
      ensures multiset(block + rest)[(l, Some(x))] == multiset(left)[l] as int * multiset(right)[x]
    {
      JoinStepPair(left, right, block, rest, l, x);
    }
  }

  /** `JoinStepMatched` for one left row and one right row. */
  lemma JoinStepPair<L, R>(left: seq<L>, right: seq<R>, block: seq<(L, Option<R>)>, rest: seq<(L, Option<R>)>, l: L, x: R)
    requires left != []
    requires forall p :: p in block ==> p.0 == left[0]
    requires l == left[0] ==> multiset(block)[(l, Some(x))] == multiset(right)[x]
    requires multiset(rest)[(l, Some(x))] == multiset(left[1..])[l] as int * multiset(right)[x]
    ensures multiset(block + rest)[(l, Some(x))] == multiset(left)[l] as int * multiset(right)[x]
  {
    assert left == [left[0]] + left[1..];
    var b, c := multiset(left[1..])[l] as int, multiset(right)[x] as int;
    assert multiset(block + rest)[(l, Some(x))] == multiset(block)[(l, Some(x))] + b * c;
    if l == left[0] {
      assert multiset(left)[l] == b + 1;
      assert (b + 1) * c == c + b * c;
    } else {
      assert (l, Some(x)) !in block;
      assert multiset(left)[l] == b;
    }
  }

  /** The head's block adds the head, unpaired, to the count of a row without a match. */
  lemma JoinStepUnmatched<L(!new), R(!new), K>(left: seq<L>, right: seq<R>, lkey: L -> K, rkey: R -> K, block: seq<(L, Option<R>)>, rest: seq<(L, Option<R>)>)
    requires left != []
    requires forall p :: p in block ==> p.0 == left[0]
    requires (forall x :: x in right ==> rkey(x) != lkey(left[0])) ==> block == [(left[0], None)]
    requires forall l {:trigger multiset(rest)[(l, None)]} :: (forall x :: x in right ==> rkey(x) != lkey(l)) ==> multiset(rest)[(l, None)] == multiset(left[1..])[l]
    ensures forall l {:trigger multiset(block + rest)[(l, None)]} :: (forall x :: x in right ==> rkey(x) != lkey(l)) ==> multiset(block + rest)[(l, None)] == multiset(left)[l]
  {
    assert left == [left[0]] + left[1..];
    forall l | forall x :: x in right ==> rkey(x) != lkey(l)
      ensures multiset(block + rest)[(l, None)] == multiset(left)[l]
    {
      assert multiset(block + rest)[(l, None)] == multiset(block)[(l, None)] + multiset(left[1..])[l];
      if l == left[0] {
        assert block == [(l, None)];
      } else {
        assert (l, None) !in block;
      }
    }
  }

  /** When the right keys are unique the join keeps the left rows one for one, in order. */
  lemma {:induction false} LeftJoinUniqueKeys<L(!new), R(!new), K>(left: seq<L>, right: seq<R>, lkey: L -> K, rkey: R -> K)
    requires forall i, j :: 0 <= i < j < |right| ==> rkey(right[i]) != rkey(right[j])
    ensures |LeftJoin(left, right, lkey, rkey)| == |left|
    ensures forall i :: 0 <= i < |left| ==> LeftJoin(left, right, lkey, rkey)[i].0 == left[i]
    decreases |left|
  {
    if left != [] {
      MatchingUniqueKeys(right, lkey(left[0]), rkey);
      LeftJoinUniqueKeys(left[1..], right, lkey, rkey);
      var block := JoinBlock(left[0], right, lkey, rkey);
      assert |block| == 1 && block[0] in block;
    }
  }
}

=== FILE: legacy_importer.dfy ===
/**
 * The earlier single-script importer. For Scalable Capital it reads the
 * portfolio table (name and value share one cell), reads name and logo of
 * every table row element, and left-joins the two on the name. For Trade
 * Republic it reads name, `id` and value of every list entry. Both sort by ISIN.
 */
module LegacyImporter {
  import opened Wrappers
  import opened Text
  import opened Ordering
  import opened Records
  import opened Normalise
  import opened Values
  import opened Links
  import opened Join

  /** One output row: the columns name, isin, current_value. `isin` is missing for an unmatched name. */
  datatype Asset = Asset(name: string, isin: Option<string>, currentValue: string)

  /** A row of the scraped table, after the name and value columns are derived from its cell. */
  datatype TableRow = TableRow(name: string, currentValue: string)

  /** A row of the name-to-ISIN frame built from the table row elements. */
  datatype Anchor = Anchor(name: string, isin: string)

  /** What is read from one table row element: the text of its span and the `src` of its logo. */
  datatype RowElement = RowElement(spanText: string, imgSrc: string)

  /** What is read from one Trade Republic list entry: name text, `id` attribute, current-price text. */
  datatype ListItem = ListItem(nameText: string, id: string, currentPriceText: string)

  /**
   * The name is the cell up to its last '€' without '®'; the value is the
   * cell's amount, read with the pattern that allows one thousands separator,
   * without commas.
   */
  function ReadCell(cell: string): (row: TableRow)
    ensures Registered !in row.name && ',' !in row.currentValue
  {
    TableRow(StripRegistered(StripValueSuffix(cell)), CurrentValueAsWritten(cell))
  }

  /** A one-line cell `<name>€<amount>` with at most one separator gives the name and the amount's digits and point. */
  lemma ReadCellOfDisplayedValue(name: string, amount: string)
    requires IsShortAmountText(amount)
    requires '\n' !in name && Euro !in name && Registered !in name
    ensures ReadCell(name + [Euro] + amount) == TableRow(name, RemoveChar(amount, ','))
    ensures IsDecimalText(ReadCell(name + [Euro] + amount).currentValue)
  {
    var none: string := [];
    assert name + [Euro] + amount + none == name + [Euro] + amount;
    CurrentValueAsWrittenOfDisplayedValue(name, amount, none);
    ShortAmountIsAmount(amount);
    AmountChars(amount);
    assert '\n' !in amount && Euro !in amount;
    StripValueSuffixOneLine(name, amount);
    RemoveCharAbsent(name, Registered);
  }

  /** The name is the span text without '®'; the ISIN is read from the logo path. */
  function ReadElement(e: RowElement): (a: Anchor)
    ensures Registered !in a.name
    ensures forall d :: d != Registered ==> multiset(a.name)[d] == multiset(e.spanText)[d]
    ensures IsSubsequence(a.name, e.spanText)
  {
    Anchor(StripRegistered(e.spanText), IsinFromImgSrc(e.imgSrc))
  }

  /** A logo path `<pre>/performance/<ISIN>/<post>` on one line gives the anchor that ISIN. */
  lemma ReadElementOfPerformanceSrc(span: string, pre: string, isin: string, post: string)
    requires IsIsinShaped(isin)
    requires '\n' !in pre + post
    requires !Contains("/" + post, PerformancePath)
    ensures ReadElement(RowElement(span, pre + PerformancePath + isin + "/" + post)).isin == isin
  {
    IsinFromPerformanceSrc(pre, isin, post);
  }

  function TableName(row: TableRow): string {
    row.name
  }

  function AnchorName(a: Anchor): string {
    a.name
  }

  /** The table row with the name-to-ISIN row the join paired it with. */
  function ToAsset(pair: (TableRow, Option<Anchor>)): Asset {
    var (row, found) := pair;
    Asset(row.name, if found.Some? then Some(found.value.isin) else None, row.currentValue)
  }

  /** `sort_values(by=['isin'])`: by ISIN, rows without one last. */
  function AssetKey(a: Asset): Key {
    [if a.isin.Some? then Str(a.isin.value) else Missing]
  }

  /** The name-to-ISIN frame after `drop_duplicates()`. */
  function Anchors(elements: seq<RowElement>): (anchors: seq<Anchor>)
    ensures forall a :: a in anchors <==> exists e :: e in elements && ReadElement(e) == a
    ensures NoDuplicates(anchors)
  {
    var all := Keys(elements, ReadElement);
    assert forall a :: a in all <==> exists e :: e in elements && ReadElement(e) == a by {
      forall a
        ensures a in all <==> exists e :: e in elements && ReadElement(e) == a
      {
        if e :| e in elements && ReadElement(e) == a {
          var i :| 0 <= i < |elements| && elements[i] == e;
          assert all[i] == a;
        }
      }
    }
    Dedup(all)
  }

  /** Every joined row comes from a table row and, when it has an ISIN, from a name-to-ISIN row of its name. */
  lemma JoinedAssetsSound(table: seq<TableRow>, anchors: seq<Anchor>)
    ensures var r := Keys(LeftJoin(table, anchors, TableName, AnchorName), ToAsset);
      forall a :: a in r ==>
        && TableRow(a.name, a.currentValue) in table
        && (a.isin.Some? ==> Anchor(a.name, a.isin.value) in anchors)
        && (a.isin.None? ==> forall x :: x in anchors ==> x.name != a.name)
  {
    var joined := LeftJoin(table, anchors, TableName, AnchorName);
    var r := Keys(joined, ToAsset);
    forall a | a in r
      ensures TableRow(a.name, a.currentValue) in table
      ensures a.isin.Some? ==> Anchor(a.name, a.isin.value) in anchors
      ensures a.isin.None? ==> forall x :: x in anchors ==> x.name != a.name
    {
      var n :| 0 <= n < |joined| && r[n] == a;
      assert joined[n] in joined;
    }
  }

  /** Every pairing of a table row with a name-to-ISIN row of its name is in the join. */
  lemma JoinedAssetsMatched(table: seq<TableRow>, anchors: seq<Anchor>)
    ensures var r := Keys(LeftJoin(table, anchors, TableName, AnchorName), ToAsset);
      forall row, x :: row in table && x in anchors && x.name == row.name ==> Asset(row.name, Some(x.isin), row.currentValue) in r
  {
    var joined := LeftJoin(table, anchors, TableName, AnchorName);
    var r := Keys(joined, ToAsset);
    forall row, x | row in table && x in anchors && x.name == row.name
      ensures Asset(row.name, Some(x.isin), row.currentValue) in r
    {
      assert AnchorName(x) == TableName(row);
      var n :| 0 <= n < |joined| && joined[n] == (row, Some(x));
      assert r[n] == Asset(row.name, Some(x.isin), row.currentValue);
    }
  }

  /** A table row whose name no name-to-ISIN row has is in the join without an ISIN. */
  lemma JoinedAssetsUnmatched(table: seq<TableRow>, anchors: seq<Anchor>)
    ensures var r := Keys(LeftJoin(table, anchors, TableName, AnchorName), ToAsset);
      forall row :: row in table && (forall x :: x in anchors ==> x.name != row.name) ==> Asset(row.name, None, row.currentValue) in r
  {
    var joined := LeftJoin(table, anchors, TableName, AnchorName);
    var r := Keys(joined, ToAsset);
    forall row | row in table && (forall x :: x in anchors ==> x.name != row.name)
      ensures Asset(row.name, None, row.currentValue) in r
    {
      assert forall x :: x in anchors ==> AnchorName(x) != TableName(row);
      var n :| 0 <= n < |joined| && joined[n] == (row, None);
      assert r[n] == Asset(row.name, None, row.currentValue);
    }
  }

  /**
   * A table row paired with a name-to-ISIN row of its name gives its row of
   * output as often as the pair occurs; an unmatched table row gives its row as
   * often as it occurs.
   */
  lemma JoinedAssetsCounted(table: seq<TableRow>, anchors: seq<Anchor>)
    ensures var r := Keys(LeftJoin(table, anchors, TableName, AnchorName), ToAsset);
      forall row: TableRow, x: Anchor {:trigger multiset(r)[Asset(row.name, Some(x.isin), row.currentValue)]} :: x.name == row.name ==>
        multiset(r)[Asset(row.name, Some(x.isin), row.currentValue)] == multiset(table)[row] as int * multiset(anchors)[x]
    ensures var r := Keys(LeftJoin(table, anchors, TableName, AnchorName), ToAsset);
      forall row: TableRow {:trigger multiset(r)[Asset(row.name, None, row.currentValue)]} :: (forall x :: x in anchors ==> x.name != row.name) ==>
        multiset(r)[Asset(row.name, None, row.currentValue)] == multiset(table)[row]
  {
    var joined := LeftJoin(table, anchors, TableName, AnchorName);
    forall row: TableRow, x: Anchor | x.name == row.name
      ensures multiset(Keys(joined, ToAsset))[Asset(row.name, Some(x.isin), row.currentValue)] == multiset(table)[row] as int * multiset(anchors)[x]
    {
      assert AnchorName(x) == TableName(row);
      AssetCounted(joined, (row, Some(x)));
    }
    forall row: TableRow | forall x :: x in anchors ==> x.name != row.name
      ensures multiset(Keys(joined, ToAsset))[Asset(row.name, None, row.currentValue)] == multiset(table)[row]
    {
      assert forall x :: x in anchors ==> AnchorName(x) != TableName(row);
      AssetCounted(joined, (row, None));
    }
  }

  /** Within a join on the name, no two pairs give the same output row, so each row counts as often as its pair. */
  lemma AssetCounted(joined: seq<(TableRow, Option<Anchor>)>, pair: (TableRow, Option<Anchor>))
    requires forall p :: p in joined && p.1.Some? ==> p.1.value.name == p.0.name
    requires pair.1.Some? ==> pair.1.value.name == pair.0.name
    ensures multiset(Keys(joined, ToAsset))[ToAsset(pair)] == multiset(joined)[pair]
  {
    forall p | p in joined && ToAsset(p) == ToAsset(pair)
      ensures p == pair
    {
    }
    KeysCount(joined, ToAsset, pair);
  }

  /**
   * `merge(how='left', on=['name'])` of the table with the name-to-ISIN
   * frame: each table row once per name-to-ISIN row of its name, or once
   * without an ISIN when there is none.
   */
  function JoinOnName(table: seq<TableRow>, anchors: seq<Anchor>): (r: seq<Asset>)
    ensures |r| >= |table|
    ensures forall a :: a in r ==>
      && TableRow(a.name, a.currentValue) in table
      && (a.isin.Some? ==> Anchor(a.name, a.isin.value) in anchors)
      && (a.isin.None? ==> forall x :: x in anchors ==> x.name != a.name)
    ensures forall row, x :: row in table && x in anchors && x.name == row.name ==> Asset(row.name, Some(x.isin), row.currentValue) in r
    ensures forall row :: row in table && (forall x :: x in anchors ==> x.name != row.name) ==> Asset(row.name, None, row.currentValue) in r
    ensures forall row: TableRow, x: Anchor {:trigger multiset(r)[Asset(row.name, Some(x.isin), row.currentValue)]} :: x.name == row.name ==>
      multiset(r)[Asset(row.name, Some(x.isin), row.currentValue)] == multiset(table)[row] as int * multiset(anchors)[x]
    ensures forall row: TableRow {:trigger multiset(r)[Asset(row.name, None, row.currentValue)]} :: (forall x :: x in anchors ==> x.name != row.name) ==>
      multiset(r)[Asset(row.name, None, row.currentValue)] == multiset(table)[row]
  {
    JoinedAssetsSound(table, anchors);
    JoinedAssetsMatched(table, anchors);
    JoinedAssetsUnmatched(table, anchors);
    JoinedAssetsCounted(table, anchors);
    Keys(LeftJoin(table, anchors, TableName, AnchorName), ToAsset)
  }

  /** The joined rows, sorted by ISIN: the same rows, in order. */
  function Reconcile(table: seq<TableRow>, anchors: seq<Anchor>): (r: seq<Asset>)
    ensures multiset(r) == multiset(JoinOnName(table, anchors))
    ensures forall a :: a in r <==> a in JoinOnName(table, anchors)
    ensures |r| >= |table|
    ensures SortedBy(r, AssetKey)
  {
    var joined := JoinOnName(table, anchors);
    var r := SortBy(joined, AssetKey);
    assert |r| == |multiset(r)| == |joined|;
    assert forall a :: a in r <==> a in multiset(joined);
    r
  }

  /**
   * The Scalable Capital import. Without any table row element the
   * name-to-ISIN frame has no `name` column and the join fails. Otherwise each
   * table row is kept, once per distinct (name, ISIN) of its name, or once
   * without an ISIN when no element has its name; the rows are sorted by ISIN.
   */
  function ImportScalable(cells: seq<string>, elements: seq<RowElement>): (r: Result<seq<Asset>, ImportError>)
    ensures r.Failure? <==> elements == []
    ensures r.Failure? ==> r.error == MissingColumn("name")
    ensures r.Success? ==> |r.value| >= |cells|
    ensures r.Success? ==> forall a :: a in r.value ==>
      && TableRow(a.name, a.currentValue) in Keys(cells, ReadCell)
      && (a.isin.Some? ==> exists e :: e in elements && ReadElement(e) == Anchor(a.name, a.isin.value))
      && (a.isin.None? ==> forall e :: e in elements ==> ReadElement(e).name != a.name)
    ensures r.Success? ==> forall c, e :: c in cells && e in elements && ReadElement(e).name == ReadCell(c).name ==>
      Asset(ReadCell(c).name, Some(ReadElement(e).isin), ReadCell(c).currentValue) in r.value
    ensures r.Success? ==> forall c :: c in cells && (forall e :: e in elements ==> ReadElement(e).name != ReadCell(c).name) ==>
      Asset(ReadCell(c).name, None, ReadCell(c).currentValue) in r.value
    ensures r.Success? ==> forall c, e {:trigger multiset(r.value)[Asset(ReadCell(c).name, Some(ReadElement(e).isin), ReadCell(c).currentValue)]} ::
      c in cells && e in elements && ReadElement(e).name == ReadCell(c).name ==>
        multiset(r.value)[Asset(ReadCell(c).name, Some(ReadElement(e).isin), ReadCell(c).currentValue)] == multiset(Keys(cells, ReadCell))[ReadCell(c)]
    ensures r.Success? ==> forall c {:trigger multiset(r.value)[Asset(ReadCell(c).name, None, ReadCell(c).currentValue)]} ::
      c in cells && (forall e :: e in elements ==> ReadElement(e).name != ReadCell(c).name) ==>
        multiset(r.value)[Asset(ReadCell(c).name, None, ReadCell(c).currentValue)] == multiset(Keys(cells, ReadCell))[ReadCell(c)]
    ensures r.Success? ==> SortedBy(r.value, AssetKey)
  {
    if elements == [] then Failure(MissingColumn("name"))
    else
      ReconciledRowsSound(cells, elements);
      ReconciledRowsComplete(cells, elements);
      ReconciledRowsCounted(cells, elements);
      Success(Reconcile(Keys(cells, ReadCell), Anchors(elements)))
  }

  /** Every reconciled row comes from a cell and, when it has an ISIN, from an element showing its name. */
  lemma ReconciledRowsSound(cells: seq<string>, elements: seq<RowElement>)
    ensures forall a :: a in Reconcile(Keys(cells, ReadCell), Anchors(elements)) ==>
      && TableRow(a.name, a.currentValue) in Keys(cells, ReadCell)
      && (a.isin.Some? ==> exists e :: e in elements && ReadElement(e) == Anchor(a.name, a.isin.value))
      && (a.isin.None? ==> forall e :: e in elements ==> ReadElement(e).name != a.name)
  {
    var anchors := Anchors(elements);
    var r := Reconcile(Keys(cells, ReadCell), anchors);
    forall a | a in r && a.isin.None?
      ensures forall e :: e in elements ==> ReadElement(e).name != a.name
    {
      forall e | e in elements
        ensures ReadElement(e).name != a.name
      {
        assert ReadElement(e) in anchors;
      }
    }
  }

  /** Every cell is reconciled with each element showing its name, or alone when none does. */
  lemma ReconciledRowsComplete(cells: seq<string>, elements: seq<RowElement>)
    ensures var r := Reconcile(Keys(cells, ReadCell), Anchors(elements));
      && (forall c, e :: c in cells && e in elements && ReadElement(e).name == ReadCell(c).name ==>
        Asset(ReadCell(c).name, Some(ReadElement(e).isin), ReadCell(c).currentValue) in r)
      && (forall c :: c in cells && (forall e :: e in elements ==> ReadElement(e).name != ReadCell(c).name) ==>
        Asset(ReadCell(c).name, None, ReadCell(c).currentValue) in r)
  {
    var table := Keys(cells, ReadCell);
    var anchors := Anchors(elements);
    forall c | c in cells
      ensures ReadCell(c) in table
    {
      var i :| 0 <= i < |cells| && cells[i] == c;
      assert table[i] == ReadCell(c);
    }
    forall c, e | c in cells && e in elements && ReadElement(e).name == ReadCell(c).name
      ensures ReadElement(e) in anchors
    {
    }
    forall c | c in cells && (forall e :: e in elements ==> ReadElement(e).name != ReadCell(c).name)
      ensures forall x :: x in anchors ==> x.name != ReadCell(c).name
    {
    }
  }

  /**
   * A cell is reconciled with each distinct (name, ISIN) of its name as often
   * as equal cells occur, and alone as often when no element shows its name.
   */
  lemma ReconciledRowsCounted(cells: seq<string>, elements: seq<RowElement>)
    ensures var r := Reconcile(Keys(cells, ReadCell), Anchors(elements));
      && (forall c, e {:trigger multiset(r)[Asset(ReadCell(c).name, Some(ReadElement(e).isin), ReadCell(c).currentValue)]} ::
        c in cells && e in elements && ReadElement(e).name == ReadCell(c).name ==>
          multiset(r)[Asset(ReadCell(c).name, Some(ReadElement(e).isin), ReadCell(c).currentValue)] == multiset(Keys(cells, ReadCell))[ReadCell(c)])
      && (forall c {:trigger multiset(r)[Asset(ReadCell(c).name, None, ReadCell(c).currentValue)]} ::
        c in cells && (forall e :: e in elements ==> ReadElement(e).name != ReadCell(c).name) ==>
          multiset(r)[Asset(ReadCell(c).name, None, ReadCell(c).currentValue)] == multiset(Keys(cells, ReadCell))[ReadCell(c)])
  {
    var table := Keys(cells, ReadCell);
    var anchors := Anchors(elements);
    var r := Reconcile(table, anchors);
    forall c, e | c in cells && e in elements && ReadElement(e).name == ReadCell(c).name
      ensures multiset(r)[Asset(ReadCell(c).name, Some(ReadElement(e).isin), ReadCell(c).currentValue)] == multiset(table)[ReadCell(c)]
    {
      var x := ReadElement(e);
      assert x in anchors;
      NoDuplicatesOnce(anchors, x);
    }
    forall c | c in cells && (forall e :: e in elements ==> ReadElement(e).name != ReadCell(c).name)
      ensures multiset(r)[Asset(ReadCell(c).name, None, ReadCell(c).currentValue)] == multiset(table)[ReadCell(c)]
    {
      assert forall x :: x in anchors ==> x.name != ReadCell(c).name;
    }
  }

  /** Equal rows of the name-to-ISIN frame are dropped, so when each name has one ISIN the names are distinct. */
  lemma AnchorNamesDistinct(elements: seq<RowElement>)
    requires forall e1, e2 :: e1 in elements && e2 in elements && ReadElement(e1).name == ReadElement(e2).name ==> ReadElement(e1) == ReadElement(e2)
    ensures var anchors := Anchors(elements);
      forall i, j :: 0 <= i < j < |anchors| ==> anchors[i].name != anchors[j].name
  {
    var anchors := Anchors(elements);
    forall i, j | 0 <= i < j < |anchors|
      ensures anchors[i].name != anchors[j].name
    {
      if anchors[i].name == anchors[j].name {
        assert anchors[i] in anchors && anchors[j] in anchors;
        var e1 :| e1 in elements && ReadElement(e1) == anchors[i];
        var e2 :| e2 in elements && ReadElement(e2) == anchors[j];
        NoDuplicatesDistinct(anchors, i, j);
      }
    }
  }

  /** When every name has a single ISIN the join neither drops nor repeats table rows. */
  lemma ImportScalableOneRowPerCell(cells: seq<string>, elements: seq<RowElement>)
    requires elements != []
    requires forall e1, e2 :: e1 in elements && e2 in elements && ReadElement(e1).name == ReadElement(e2).name ==> ReadElement(e1) == ReadElement(e2)
    ensures |ImportScalable(cells, elements).value| == |cells|
  {
    var table := Keys(cells, ReadCell);
    var anchors := Anchors(elements);
    AnchorNamesDistinct(elements);
    LeftJoinUniqueKeys(table, anchors, TableName, AnchorName);
    var assets := Keys(LeftJoin(table, anchors, TableName, AnchorName), ToAsset);
    assert |SortBy(assets, AssetKey)| == |multiset(assets)|;
    assert |JoinOnName(table, anchors)| == |table|;
    assert ImportScalable(cells, elements).value == Reconcile(table, anchors);
  }

  /**
   * A one-line cell `<name>€<value>` and a span showing the same name give the
   * same join key, so the row is matched.
   */
  lemma CellAndSpanAgree(name: string, tail: string)
    requires '\n' !in name + [Euro] + tail
    requires Euro !in tail
    ensures ReadCell(name + [Euro] + tail).name == ReadElement(RowElement(name, "")).name
  {
    StripValueSuffixOneLine(name, tail);
  }

  /** A Trade Republic entry: the `id` attribute is the ISIN, the value loses its " €". */
  function ReadItem(it: ListItem): (a: Asset)
    ensures a.name == it.nameText && a.isin == Some(it.id)
    ensures |a.currentValue| <= |it.currentPriceText|
  {
    Asset(it.nameText, Some(it.id), RemoveSpacedEuro(it.currentPriceText))
  }

  /**
   * The Trade Republic import: one row per entry, sorted by ISIN. An empty
   * list gives a frame without an `isin` column, and sorting by it fails.
   */
  function ImportTradeRepublic(items: seq<ListItem>): (r: Result<seq<Asset>, ImportError>)
    ensures r.Failure? <==> items == []
    ensures r.Failure? ==> r.error == MissingColumn("isin")
    ensures r.Success? ==> multiset(r.value) == multiset(Keys(items, ReadItem))
    ensures r.Success? ==> forall a :: a in r.value ==> a.isin.Some? && exists it :: it in items && ReadItem(it) == a
    ensures r.Success? ==> SortedBy(r.value, AssetKey)
  {
    if items == [] then Failure(MissingColumn("isin"))
    else
      var assets := Keys(items, ReadItem);
      var r := SortBy(assets, AssetKey);
      forall a | a in r
        ensures exists it :: it in items && ReadItem(it) == a
      {
        assert a in multiset(assets);
        var n :| 0 <= n < |assets| && assets[n] == a;
        assert items[n] in items;
      }
      Success(r)
  }

  /** A value displayed as `<number> €` is imported as the number. */
  lemma ReadItemOfDisplayedValue(it: ListItem, number: string)
    requires ' ' !in number && it.currentPriceText == number + [' ', Euro]
    ensures ReadItem(it).currentValue == number
  {
    RemoveSpacedEuroOfDisplayedValue(number);
  }
}

=== FILE: links.dfy ===
/**
 * Identifiers read out of links: the ISIN in a logo's `src`, the ISIN in a
 * security page's `href`, and the portfolio id in the current page's URL;
 * and the security-page URL the Scalable Capital importer builds.
 */
module Links {
  import opened Wrappers
  import opened Text

  // ---------------------------------------------------------------------------
  // `(^.*/performance/)([A-Z]{2}[a-zA-Z0-9_]{10})(/.*)` -> `\2` on a logo's src.

  const PerformancePath := "/performance/"

  /** `[A-Z]{2}[a-zA-Z0-9_]{10}`: the shape of an ISIN in a logo path. */
  predicate IsIsinShaped(t: string) {
    |t| == 12 && IsUpper(t[0]) && IsUpper(t[1]) && forall m :: 2 <= m < 12 ==> IsWordChar(t[m])
  }

  /** `/performance/<ISIN>/` starts at `p`, inside the first line. */
  predicate PerformanceMatchAt(s: string, p: nat) {
    p + 26 <= LineEnd(s) && OccursAt(s, p, PerformancePath) && IsIsinShaped(s[p + 13..p + 25]) && s[p + 25] == '/'
  }

  /** The last `/performance/<ISIN>/` of the first line: where the greedy `^.*` stops. */
  function LastPerformanceMatch(s: string): (r: Option<nat>)
    ensures r.None? ==> forall p: nat :: p < LineEnd(s) ==> !PerformanceMatchAt(s, p)
    ensures r.Some? ==> r.value < LineEnd(s) && PerformanceMatchAt(s, r.value)
    ensures r.Some? ==> forall p: nat :: r.value < p < LineEnd(s) ==> !PerformanceMatchAt(s, p)
  {
    var ok := (p: nat) => PerformanceMatchAt(s, p);
    var r := LastSatisfying(LineEnd(s), ok);
    forall p: nat | p < LineEnd(s) && (r.None? || r.value < p)
      ensures !PerformanceMatchAt(s, p)
    {
      assert !ok(p);
    }
    r
  }

  /**
   * The ISIN of a logo `src`: the code between the last `/performance/` of the
   * first line and the '/' after it; a `src` without one is returned unchanged.
   */
  function IsinFromImgSrc(src: string): (r: string)
    ensures (forall p: nat :: p < LineEnd(src) ==> !PerformanceMatchAt(src, p)) ==> r == src
    ensures forall p: nat :: p < LineEnd(src) && PerformanceMatchAt(src, p) && (forall q: nat :: p < q < LineEnd(src) ==> !PerformanceMatchAt(src, q)) ==>
      r == src[p + 13..p + 25] + src[LineEnd(src)..]
    ensures (exists p: nat :: p < LineEnd(src) && PerformanceMatchAt(src, p)) ==>
      && |r| >= 12 && IsIsinShaped(r[..12])
      && Contains(src[..LineEnd(src)], PerformancePath + r[..12] + "/")
      && r[12..] == src[LineEnd(src)..]
  {
    var k := LineEnd(src);
    match LastPerformanceMatch(src)
    case None => src
    case Some(p) =>
      var isin := src[p + 13..p + 25];
      PerformanceMatchContains(src, p);
      LastPerformanceMatchCut(src, p);
      var r := isin + src[k..];
      assert r[..12] == isin && r[12..] == src[k..];
      r
  }

  /** Only one match of the first line has no later match. */
  lemma LastPerformanceMatchUnique(s: string, p: nat)
    requires p < LineEnd(s) && PerformanceMatchAt(s, p)
    requires forall q: nat :: p < q < LineEnd(s) ==> !PerformanceMatchAt(s, q)
    ensures LastPerformanceMatch(s) == Some(p)
  {
    var r := LastPerformanceMatch(s);
    assert r.Some? && r.value <= p;
  }

  /** The ISIN at the last match is the ISIN at any match with no later one. */
  lemma LastPerformanceMatchCut(s: string, p: nat)
    requires LastPerformanceMatch(s) == Some(p)
    ensures forall q: nat :: q < LineEnd(s) && PerformanceMatchAt(s, q) && (forall m: nat :: q < m < LineEnd(s) ==> !PerformanceMatchAt(s, m)) ==>
      s[p + 13..p + 25] + s[LineEnd(s)..] == s[q + 13..q + 25] + s[LineEnd(s)..]
  {
    forall q: nat | q < LineEnd(s) && PerformanceMatchAt(s, q) && (forall m: nat :: q < m < LineEnd(s) ==> !PerformanceMatchAt(s, m))
      ensures q == p
    {
      LastPerformanceMatchUnique(s, q);
    }
  }

  /** A match at `p` puts `/performance/<ISIN>/` on the first line. */
  lemma PerformanceMatchContains(s: string, p: nat)
    requires PerformanceMatchAt(s, p)
    ensures Contains(s[..LineEnd(s)], PerformancePath + s[p + 13..p + 25] + "/")
  {
    var k := LineEnd(s);
    var pat := PerformancePath + s[p + 13..p + 25] + "/";
    assert s[p..p + 26] == s[p..p + 13] + s[p + 13..p + 25] + s[p + 25..p + 26];
    assert s[p + 25..p + 26] == "/";
    assert OccursAt(s, p, pat);
    OccursWithin(s, 0, k, p, pat);
    assert s[0..k] == s[..k];
  }

  /** With `/performance/<ISIN>/` at `p` and none later, the result is that ISIN and the later lines. */
  lemma IsinFromImgSrcAt(s: string, p: nat)
    requires PerformanceMatchAt(s, p)
    requires forall q: nat :: p < q < LineEnd(s) ==> !PerformanceMatchAt(s, q)
    ensures IsinFromImgSrc(s) == s[p + 13..p + 25] + s[LineEnd(s)..]
  {
    assert LastPerformanceMatch(s) == Some(p);
  }

  /** The characters of `/performance/` that rule out overlapping matches. */
  lemma PerformancePathShape()
    ensures |PerformancePath| == 13 && PerformancePath[0] == '/' && PerformancePath[1] == 'p'
    ensures forall k :: 0 < k < 12 ==> PerformancePath[k] != '/'
    ensures '\n' !in PerformancePath
  {
  }

  /** No `/performance/<ISIN>/` starts inside another one, before its closing '/'. */
  lemma NoMatchInside(s: string, p: nat, q: nat)
    requires PerformanceMatchAt(s, p) && p < q < p + 25
    ensures !OccursAt(s, q, PerformancePath)
  {
    PerformancePathShape();
    if q + 13 <= |s| {
      assert s[q..q + 13][0] == s[q];
      if q < p + 12 {
        assert s[q] == s[p..p + 13][q - p] == PerformancePath[q - p];
      } else if q == p + 12 {
        assert s[q..q + 13][1] == s[q + 1] == s[p + 13..p + 25][0];
      } else {
        assert s[q] == s[p + 13..p + 25][q - p - 13];
      }
    }
  }

  /**
   * A one-line logo path `<pre>/performance/<ISIN>/<post>` yields the ISIN,
   * provided no other `/performance/` follows.
   */
  lemma IsinFromPerformanceSrc(pre: string, isin: string, post: string)
    requires IsIsinShaped(isin)
    requires '\n' !in pre + post
    requires !Contains("/" + post, PerformancePath)
    ensures IsinFromImgSrc(pre + PerformancePath + isin + "/" + post) == isin
  {
    var s := pre + PerformancePath + isin + "/" + post;
    var p0 := |pre|;
    var tail := "/" + post;
    PerformancePathShape();
    assert s == pre + PerformancePath + isin + tail;
    assert '\n' !in isin by {
      forall m | 0 <= m < |isin|
        ensures isin[m] != '\n'
      {
      }
    }
    assert '\n' !in pre && '\n' !in tail;
    OneLineOfFour(pre, PerformancePath, isin, tail);
    assert s[p0 + 25] == '/' by {
      assert s[p0 + 25..][0] == tail[0];
    }
    assert PerformanceMatchAt(s, p0);
    forall q: nat | p0 < q < |s|
      ensures !PerformanceMatchAt(s, q)
    {
      if q < p0 + 25 {
        NoMatchInside(s, p0, q);
      } else {
        NotOccursAfter(s, p0 + 25, q, PerformancePath);
      }
    }
    IsinFromImgSrcAt(s, p0);
    assert s[LineEnd(s)..] == [];
  }

  // ---------------------------------------------------------------------------
  // The security page of a position, and
  // `https://de.scalable.capital/broker/security\?isin=|&portfolioId=.*` -> '' on its href.

  const SecurityHost := "https://de.scalable.capital"
  const SecurityPath := "/broker/security?isin="
  const SecurityPrefix := SecurityHost + SecurityPath
  const PortfolioParam := "&portfolioId="

  /** The page that shows a position's share count. */
  function BuildDetailUrl(isin: string, portfolioId: string): (r: string)
    ensures StartsWith(r, SecurityPrefix)
    ensures OccursAt(r, |SecurityPrefix| + |isin|, PortfolioParam)
    ensures |r| == |SecurityPrefix| + |isin| + |PortfolioParam| + |portfolioId|
    ensures r[|SecurityPrefix|..|SecurityPrefix| + |isin|] == isin
    ensures r[|r| - |portfolioId|..] == portfolioId
  {
    var r := SecurityPrefix + isin + PortfolioParam + portfolioId;
    assert r[..|SecurityPrefix|] == SecurityPrefix;
    assert r[|SecurityPrefix|..|SecurityPrefix| + |isin|] == isin;
    assert r[|SecurityPrefix| + |isin|..|SecurityPrefix| + |isin| + |PortfolioParam|] == PortfolioParam;
    assert r[|r| - |portfolioId|..] == portfolioId;
    r
  }

  /**
   * `re.sub` from position `i` on: the prefix goes wherever it starts, and
   * `&portfolioId=` goes together with the rest of its line; scanning resumes
   * after each match.
   */
  function StripHrefFrom(s: string, i: nat): (r: string)
    requires i <= |s|
    ensures |r| <= |s| - i
    decreases |s| - i
  {
    if i == |s| then []
    else if OccursAt(s, i, SecurityPrefix) then StripHrefFrom(s, i + |SecurityPrefix|)
    else if OccursAt(s, i, PortfolioParam) then StripHrefFrom(s, IndexFrom(s, i + |PortfolioParam|, '\n'))
    else [s[i]] + StripHrefFrom(s, i + 1)
  }

  /** The ISIN of a security link: the link without the page prefix and the portfolio parameter. */
  function IsinFromHref(href: string): (r: string)
    ensures |r| <= |href|
  {
    StripHrefFrom(href, 0)
  }

  /** Where neither pattern starts, characters are copied. */
  lemma {:induction false} StripHrefCopies(s: string, i: nat, j: nat)
    requires i <= j <= |s|
    requires forall q :: i <= q < j ==> !OccursAt(s, q, SecurityPrefix) && !OccursAt(s, q, PortfolioParam)
    ensures StripHrefFrom(s, i) == s[i..j] + StripHrefFrom(s, j)
    decreases j - i
  {
    if i < j {
      StripHrefCopies(s, i + 1, j);
      StripHrefCopiesOne(s, i, j);
    }
  }

  /** Where neither pattern starts, one more character is copied. */
  lemma StripHrefCopiesOne(s: string, i: nat, j: nat)
    requires i < j <= |s| && !OccursAt(s, i, SecurityPrefix) && !OccursAt(s, i, PortfolioParam)
    requires StripHrefFrom(s, i + 1) == s[i + 1..j] + StripHrefFrom(s, j)
    ensures StripHrefFrom(s, i) == s[i..j] + StripHrefFrom(s, j)
  {
    StripHrefCopiesHead(s, i);
    assert s[i..j] == [s[i]] + s[i + 1..j];
    ConsConcat(StripHrefFrom(s, i), StripHrefFrom(s, i + 1), StripHrefFrom(s, j), s[i], s[i + 1..j]);
  }

  /** Copying one character ahead of a copied run copies the longer run. */
  lemma ConsConcat(a: string, b: string, c: string, x: char, u: string)
    requires a == [x] + b && b == u + c
    ensures a == ([x] + u) + c
  {
  }

  /** Where neither pattern starts, the character is copied. */
  lemma StripHrefCopiesHead(s: string, i: nat)
    requires i < |s| && !OccursAt(s, i, SecurityPrefix) && !OccursAt(s, i, PortfolioParam)
    ensures StripHrefFrom(s, i) == [s[i]] + StripHrefFrom(s, i + 1)
  {
  }

  /** A link containing neither pattern is returned unchanged. */
  lemma IsinFromHrefUnchanged(href: string)
    requires !Contains(href, SecurityPrefix) && !Contains(href, PortfolioParam)
    ensures IsinFromHref(href) == href
  {
    StripHrefCopies(href, 0, |href|);
    assert href[0..|href|] == href;
  }

  /** The prefix has no '&', and the parameter has its '&' only at the front. */
  lemma AmpersandPositions()
    ensures |SecurityPrefix| == 49 && |PortfolioParam| == 13
    ensures '&' !in SecurityPrefix
    ensures PortfolioParam[0] == '&'
    ensures forall k :: 0 < k < |PortfolioParam| ==> PortfolioParam[k] != '&'
  {
    assert '&' !in SecurityHost;
    assert '&' !in SecurityPath;
  }

  /** Neither pattern starts in `s[lo..e]` when `s[e]` is '&' and the slice holds neither. */
  lemma NoPatternBefore(s: string, lo: nat, e: nat, q: nat)
    requires lo <= q < e < |s| && s[e] == '&'
    requires !Contains(s[lo..e], SecurityPrefix) && !Contains(s[lo..e], PortfolioParam)
    ensures !OccursAt(s, q, SecurityPrefix) && !OccursAt(s, q, PortfolioParam)
  {
    AmpersandPositions();
    if q + 49 <= e {
      if OccursAt(s, q, SecurityPrefix) {
        OccursWithin(s, lo, e, q, SecurityPrefix);
        assert false;
      }
    } else if q + 49 <= |s| {
      assert s[q..q + 49][e - q] == s[e];
    }
    if q + 13 <= e {
      if OccursAt(s, q, PortfolioParam) {
        OccursWithin(s, lo, e, q, PortfolioParam);
        assert false;
      }
    } else if q + 13 <= |s| {
      assert s[q..q + 13][e - q] == s[e];
    }
  }

  /**
   * Stripping the link the importer builds gives back the ISIN it was built
   * from, for any ISIN that contains neither pattern and any one-line portfolio id.
   */
  lemma IsinFromDetailUrl(isin: string, portfolioId: string)
    requires !Contains(isin, SecurityPrefix) && !Contains(isin, PortfolioParam)
    requires '\n' !in portfolioId
    ensures IsinFromHref(BuildDetailUrl(isin, portfolioId)) == isin
  {
    var s := BuildDetailUrl(isin, portfolioId);
    AmpersandPositions();
    var e := 49 + |isin|;
    PiecesOfFour(SecurityPrefix, isin, PortfolioParam, portfolioId);
    assert s[e] == '&' by {
      assert s[e..e + 13][0] == PortfolioParam[0];
    }
    forall q | 49 <= q < e
      ensures !OccursAt(s, q, SecurityPrefix) && !OccursAt(s, q, PortfolioParam)
    {
      NoPatternBefore(s, 49, e, q);
    }
    assert StripHrefFrom(s, 0) == StripHrefFrom(s, 49);
    StripHrefCopies(s, 49, e);
    assert !OccursAt(s, e, SecurityPrefix) by {
      if e + 49 <= |s| {
        assert s[e..e + 49][0] == s[e];
      }
    }
    StripHrefOfParamTail(s, e);
  }

  /** `&portfolioId=` followed by the rest of a single line strips everything from it on. */
  lemma StripHrefOfParamTail(s: string, e: nat)
    requires OccursAt(s, e, PortfolioParam) && !OccursAt(s, e, SecurityPrefix)
    requires '\n' !in s[e + |PortfolioParam|..]
    ensures StripHrefFrom(s, e) == []
  {
    var v := e + |PortfolioParam|;
    forall m | v <= m < |s|
      ensures s[m] != '\n'
    {
      assert s[m] == s[v..][m - v];
    }
    assert IndexFrom(s, v, '\n') == |s|;
  }

  /** A real ISIN, twelve characters long, is too short to hold either pattern. */
  lemma IsinFromDetailUrlOfIsin(isin: string, portfolioId: string)
    requires |isin| == 12
    requires '\n' !in portfolioId
    ensures IsinFromHref(BuildDetailUrl(isin, portfolioId)) == isin
  {
    assert !Contains(isin, SecurityPrefix);
    assert !Contains(isin, PortfolioParam);
    IsinFromDetailUrl(isin, portfolioId);
  }

  // ---------------------------------------------------------------------------
  // `^.*portfolioId=([^&]+).*$` -> `\1` on the current page's URL.

  const PortfolioKey := "portfolioId="

  /**
   * `portfolioId=` at `a` in the first line starts a match: a non-empty value
   * follows, and the line the value ends on is the last one (or ends in the
   * final line break), so `.*$` can finish.
   */
  predicate PortfolioIdAt(url: string, a: nat) {
    && a + 12 <= LineEnd(url)
    && OccursAt(url, a, PortfolioKey)
    && IndexFrom(url, a + 12, '&') > a + 12
    && IndexFrom(url, IndexFrom(url, a + 12, '&'), '\n') + 1 >= |url|
  }

  /** The last `portfolioId=` that starts a match: where the greedy `^.*` stops. */
  function LastPortfolioIdAt(url: string): (r: Option<nat>)
    ensures r.None? ==> forall a: nat :: a < LineEnd(url) ==> !PortfolioIdAt(url, a)
    ensures r.Some? ==> r.value < LineEnd(url) && PortfolioIdAt(url, r.value)
    ensures r.Some? ==> forall a: nat :: r.value < a < LineEnd(url) ==> !PortfolioIdAt(url, a)
  {
    var ok := (a: nat) => PortfolioIdAt(url, a);
    var r := LastSatisfying(LineEnd(url), ok);
    forall a: nat | a < LineEnd(url) && (r.None? || r.value < a)
      ensures !PortfolioIdAt(url, a)
    {
      assert !ok(a);
    }
    r
  }

  /** Only one match of the first line has no later match. */
  lemma LastPortfolioIdAtUnique(url: string, a: nat)
    requires a < LineEnd(url) && PortfolioIdAt(url, a)
    requires forall q: nat :: a < q < LineEnd(url) ==> !PortfolioIdAt(url, q)
    ensures LastPortfolioIdAt(url) == Some(a)
  {
    var r := LastPortfolioIdAt(url);
    assert r.Some? && r.value <= a;
  }

  /** The value at the last match is the value at any match with no later one. */
  lemma LastPortfolioIdAtCut(url: string, a: nat)
    requires LastPortfolioIdAt(url) == Some(a)
    ensures forall q: nat :: q < LineEnd(url) && PortfolioIdAt(url, q) && (forall m: nat :: q < m < LineEnd(url) ==> !PortfolioIdAt(url, m)) ==>
      url[a + 12..IndexFrom(url, a + 12, '&')] + url[IndexFrom(url, IndexFrom(url, a + 12, '&'), '\n')..]
        == url[q + 12..IndexFrom(url, q + 12, '&')] + url[IndexFrom(url, IndexFrom(url, q + 12, '&'), '\n')..]
  {
    forall q: nat | q < LineEnd(url) && PortfolioIdAt(url, q) && (forall m: nat :: q < m < LineEnd(url) ==> !PortfolioIdAt(url, m))
      ensures q == a
    {
      LastPortfolioIdAtUnique(url, q);
    }
  }

  /** The value after `portfolioId=` at `a` runs to `b`: non-empty, no '&', ended by '&' or the end. */
  ghost predicate PortfolioIdSpan(url: string, a: nat, b: nat) {
    a + 12 < b <= |url| && OccursAt(url, a, PortfolioKey) && '&' !in url[a + 12..b] && (b == |url| || url[b] == '&')
  }

  /**
   * The portfolio id in the current URL: the value of the last `portfolioId=`
   * up to the next '&' or the end. A URL the pattern does not match is
   * returned unchanged.
   */
  function PortfolioIdFromUrl(url: string): (r: string)
    ensures (forall a: nat :: a < LineEnd(url) ==> !PortfolioIdAt(url, a)) ==> r == url
    ensures forall a: nat :: a < LineEnd(url) && PortfolioIdAt(url, a) && (forall q: nat :: a < q < LineEnd(url) ==> !PortfolioIdAt(url, q)) ==>
      r == url[a + 12..IndexFrom(url, a + 12, '&')] + url[IndexFrom(url, IndexFrom(url, a + 12, '&'), '\n')..]
    ensures (exists a: nat :: a < LineEnd(url) && PortfolioIdAt(url, a)) ==>
      exists a: nat, b: nat :: PortfolioIdSpan(url, a, b) && (r == url[a + 12..b] || r == url[a + 12..b] + "\n")
  {
    match LastPortfolioIdAt(url)
    case None => url
    case Some(a) =>
      var b := IndexFrom(url, a + 12, '&');
      var c := IndexFrom(url, b, '\n');
      LastPortfolioIdAtCut(url, a);
      assert '&' !in url[a + 12..b];
      assert PortfolioIdSpan(url, a, b);
      assert c < |url| ==> url[c..] == "\n";
      url[a + 12..b] + url[c..]
  }

  /** With a match at `a` and none later, the result is the value after `a`, with the final line break if any. */
  lemma PortfolioIdFromUrlAt(url: string, a: nat)
    requires PortfolioIdAt(url, a)
    requires forall q: nat :: a < q < LineEnd(url) ==> !PortfolioIdAt(url, q)
    ensures PortfolioIdFromUrl(url) == url[a + 12..IndexFrom(url, a + 12, '&')] + url[IndexFrom(url, IndexFrom(url, a + 12, '&'), '\n')..]
  {
    assert LastPortfolioIdAt(url) == Some(a);
  }

  /** `portfolioId=` at `a`, and not again after its '=', occurs nowhere after `a`. */
  lemma PortfolioKeyOnce(s: string, a: nat, q: nat)
    requires OccursAt(s, a, PortfolioKey) && !Contains(s[a + 12..], PortfolioKey)
    requires a < q
    ensures !OccursAt(s, q, PortfolioKey)
  {
    if q < a + 12 {
      assert s[q] == s[a..a + 12][q - a] == PortfolioKey[q - a] != 'p';
      assert q + 12 > |s| || s[q..q + 12][0] == s[q];
    } else {
      NotOccursAfter(s, a + 12, q, PortfolioKey);
    }
  }

  /** In a one-line URL, the only `portfolioId=` gives the value after it. */
  lemma PortfolioIdOfLine(s: string, a: nat)
    requires LineEnd(s) == |s|
    requires OccursAt(s, a, PortfolioKey) && IndexFrom(s, a + 12, '&') > a + 12
    requires !Contains(s[a + 12..], PortfolioKey)
    ensures PortfolioIdFromUrl(s) == s[a + 12..IndexFrom(s, a + 12, '&')]
  {
    assert PortfolioIdAt(s, a);
    forall q: nat | a < q < |s|
      ensures !PortfolioIdAt(s, q)
    {
      PortfolioKeyOnce(s, a, q);
    }
    PortfolioIdFromUrlAt(s, a);
    assert s[LineEnd(s)..] == [];
  }

  /**
   * A one-line URL `<pre>portfolioId=<id><post>` yields the id when the id is
   * non-empty without '&', the rest starts at a '&' (or is empty), and no
   * `portfolioId=` follows.
   */
  lemma PortfolioIdOfUrl(pre: string, id: string, post: string)
    requires '\n' !in pre + id + post
    requires id != [] && '&' !in id
    requires post == [] || post[0] == '&'
    requires !Contains(id + post, PortfolioKey)
    ensures PortfolioIdFromUrl(pre + PortfolioKey + id + post) == id
  {
    var s := pre + PortfolioKey + id + post;
    assert '\n' !in pre + PortfolioKey + id + post by {
      assert '\n' !in PortfolioKey;
      assert forall c :: c in s ==> c in pre + id + post || c in PortfolioKey;
    }
    QueryValueLayout(pre, PortfolioKey, id, post);
    PortfolioIdOfLine(s, |pre|);
  }

  /** The layout of a one-line URL `<pre><key><value><post>` whose value has no '&' and whose rest starts at one. */
  lemma QueryValueLayout(pre: string, key: string, value: string, post: string)
    requires '\n' !in pre + key + value + post
    requires '&' !in value
    requires post == [] || post[0] == '&'
    ensures var s := pre + key + value + post;
      var a := |pre|;
      var b := a + |key| + |value|;
      && LineEnd(s) == |s|
      && OccursAt(s, a, key)
      && IndexFrom(s, a + |key|, '&') == b
      && s[a + |key|..] == value + post
      && s[a + |key|..b] == value
  {
    var s := pre + key + value + post;
    var a := |pre|;
    var v := a + |key|;
    var b := v + |value|;
    LineEndSingleLine(s);
    assert s[a..v] == key;
    forall m | v <= m < b
      ensures s[m] != '&'
    {
      assert s[m] == value[m - v];
    }
    assert b < |s| ==> s[b] == post[0];
    AmpersandFromFirst(s, v, b);
    assert s[v..] == value + post;
    assert s[v..b] == value;
  }

  /** The first '&' at or after `i` is where `IndexFrom` stops. */
  lemma AmpersandFromFirst(s: string, i: nat, b: nat)
    requires i <= b <= |s|
    requires forall m :: i <= m < b ==> s[m] != '&'
    requires b < |s| ==> s[b] == '&'
    ensures IndexFrom(s, i, '&') == b
  {
  }
}

=== FILE: normalise.dfy ===
/**
 * The normalisers applied to scraped text: each regular expression of the
 * importers as one string function, with the result it promises stated
 * in terms of the input.
 */
module Normalise {
  import opened Wrappers
  import opened Text

  /** `re.sub('®', '', s)`: applied to table names and to anchor names alike. */
  function StripRegistered(s: string): (r: string)
    ensures Registered !in r
    ensures forall d :: d != Registered ==> multiset(r)[d] == multiset(s)[d]
    ensures IsSubsequence(r, s)
  {
    RemoveChar(s, Registered)
  }

  /** Deleting a character that does not occur changes nothing. */
  lemma {:induction false} RemoveCharAbsent(s: string, c: char)
    requires c !in s
    ensures RemoveChar(s, c) == s
    decreases |s|
  {
    if s != [] {
      RemoveCharAbsent(s[1..], c);
    }
  }

  /** Deleting the one separator between two pieces joins them. */
  lemma RemoveOneSeparator(a: string, b: string, c: char)
    requires c !in a && c !in b
    ensures RemoveChar(a + [c] + b, c) == a + b
  {
    assert RemoveChar([c], c) == [] by {
      assert [c][1..] == [];
    }
    assert RemoveChar(a + [c], c) == a by {
      RemoveCharAppend(a, [c], c);
      RemoveCharAbsent(a, c);
    }
    assert RemoveChar(b, c) == b by {
      RemoveCharAbsent(b, c);
    }
    RemoveCharAppend(a + [c], b, c);
  }

  /** `RemoveChar` works piece by piece. */
  lemma {:induction false} RemoveCharAppend(a: string, b: string, c: char)
    ensures RemoveChar(a + b, c) == RemoveChar(a, c) + RemoveChar(b, c)
    decreases |a|
  {
    if a != [] {
      assert (a + b)[0] == a[0];
      assert (a + b)[1..] == a[1..] + b;
      RemoveCharAppend(a[1..], b, c);
      var rest := RemoveChar(a[1..] + b, c);
      assert RemoveChar(a + b, c) == if a[0] == c then rest else [a[0]] + rest;
      assert RemoveChar(a, c) == if a[0] == c then RemoveChar(a[1..], c) else [a[0]] + RemoveChar(a[1..], c);
    } else {
      assert a + b == b;
    }
  }

  /** Removing the registered sign a second time changes nothing. */
  lemma StripRegisteredIdempotent(s: string)
    ensures StripRegistered(StripRegistered(s)) == StripRegistered(s)
  {
    RemoveCharAbsent(StripRegistered(s), Registered);
  }

  // ---------------------------------------------------------------------------
  // `(^.*)(€.*)` -> `\1`: the value glued to the end of a table name.

  predicate EuroAt(s: string, j: nat) {
    j < |s| && s[j] == Euro
  }

  /**
   * The greedy `^.*` settles on the last '€' of the first line; the match runs
   * to the end of that line, so everything from that '€' up to the line break
   * goes. With no '€' in the first line the text is unchanged.
   */
  function StripValueSuffix(s: string): (r: string)
    ensures Euro !in s[..LineEnd(s)] ==> r == s
    ensures Euro in s[..LineEnd(s)] ==>
      exists j: nat :: j < LineEnd(s) && s[j] == Euro && Euro !in s[j + 1..LineEnd(s)] && r == s[..j] + s[LineEnd(s)..]
  {
    var k := LineEnd(s);
    var ok := (j: nat) => EuroAt(s, j);
    match LastSatisfying(k, ok)
    case None =>
      forall m: nat | m < k
        ensures s[m] != Euro
      {
        assert !ok(m);
      }
      s
    case Some(j) =>
      forall m: nat | j + 1 <= m < k
        ensures s[m] != Euro
      {
        assert !ok(m);
      }
      assert Euro !in s[j + 1..k];
      s[..j] + s[k..]
  }

  /** A one-line name with a '€' keeps exactly the text before its last '€'. */
  lemma StripValueSuffixOneLine(name: string, tail: string)
    requires '\n' !in name + [Euro] + tail
    requires Euro !in tail
    ensures StripValueSuffix(name + [Euro] + tail) == name
  {
    var s := name + [Euro] + tail;
    LineEndSingleLine(s);
    assert s[|name|] == Euro;
    assert s[..|s|][|name|] == Euro;
    var j: nat :| j < |s| && s[j] == Euro && Euro !in s[j + 1..|s|] && StripValueSuffix(s) == s[..j] + s[|s|..];
    forall m | |name| < m < |s|
      ensures s[m] != Euro
    {
      assert s[m] == tail[m - |name| - 1];
    }
    forall m | j < m < |s|
      ensures s[m] != Euro
    {
      assert s[j + 1..|s|][m - j - 1] == s[m];
    }
    assert j == |name|;
    assert s[..|name|] == name;
  }

  /** A one-line name without '€' passes through. */
  lemma StripValueSuffixNoEuro(name: string)
    requires '\n' !in name && Euro !in name
    ensures StripValueSuffix(name) == name
  {
    LineEndSingleLine(name);
    assert name[..|name|] == name;
  }

  // ---------------------------------------------------------------------------
  // Amounts: the number after the last '€' that is followed by one.

  /** Where a maximal run of digits starting at `i` ends. */
  function DigitsEnd(s: string, i: nat): (e: nat)
    requires i <= |s|
    ensures i <= e <= |s|
    ensures forall m :: i <= m < e ==> IsDigit(s[m])
    ensures e < |s| ==> !IsDigit(s[e])
    decreases |s| - i
  {
    if i < |s| && IsDigit(s[i]) then DigitsEnd(s, i + 1) else i
  }

  /** `[0-9]+(,[0-9]+)*`: runs of digits joined by single commas. */
  predicate IsDigitGroups(g: string) {
    && |g| > 0
    && IsDigit(g[0])
    && IsDigit(g[|g| - 1])
    && (forall m :: 0 <= m < |g| ==> IsDigit(g[m]) || g[m] == ',')
    && (forall m :: 0 <= m < |g| - 1 && g[m] == ',' ==> IsDigit(g[m + 1]))
  }

  /** `t` is an amount whose decimal point is at `p`: digit groups, '.', digits. */
  predicate IsAmountSplit(t: string, p: nat) {
    p + 1 < |t| && IsDigitGroups(t[..p]) && t[p] == '.' && AllDigits(t[p + 1..])
  }

  /** A displayed amount with any number of thousands separators, e.g. 1,234,567.89. */
  ghost predicate IsAmountText(t: string) {
    exists p: nat :: IsAmountSplit(t, p)
  }

  /** `[0-9]+\.[0-9]+`: the second alternative of the importers' amount pattern. */
  predicate IsPlainAmount(t: string, p: nat) {
    0 < p && p + 1 < |t| && AllDigits(t[..p]) && t[p] == '.' && AllDigits(t[p + 1..])
  }

  /** `[0-9]+,[0-9]+\.[0-9]+`: the first alternative, with exactly one separator. */
  predicate IsOneGroupAmount(t: string, c: nat, p: nat) {
    && 0 < c && c + 1 < p && p + 1 < |t|
    && AllDigits(t[..c]) && t[c] == ',' && AllDigits(t[c + 1..p])
    && t[p] == '.' && AllDigits(t[p + 1..])
  }

  /** The amounts the importers' pattern accepts: at most one thousands separator. */
  ghost predicate IsShortAmountText(t: string) {
    (exists p: nat :: IsPlainAmount(t, p)) || (exists c: nat, p: nat :: IsOneGroupAmount(t, c, p))
  }

  /** Every amount the importers accept is an amount in the general sense. */
  lemma ShortAmountIsAmount(t: string)
    requires IsShortAmountText(t)
    ensures IsAmountText(t)
  {
    if p: nat :| IsPlainAmount(t, p) {
      assert IsAmountSplit(t, p);
    } else {
      var c: nat, p: nat :| IsOneGroupAmount(t, c, p);
      assert t[..p][c] == ',' && IsDigit(t[..p][c + 1]);
      assert IsAmountSplit(t, p);
    }
  }

  /** Amount text consists of digits, commas and a point only. */
  lemma AmountChars(t: string)
    requires IsAmountText(t)
    ensures forall m :: 0 <= m < |t| ==> IsDigit(t[m]) || t[m] == ',' || t[m] == '.'
  {
    var p: nat :| IsAmountSplit(t, p);
    forall m | 0 <= m < |t|
      ensures IsDigit(t[m]) || t[m] == ',' || t[m] == '.'
    {
      if m < p {
        assert t[..p][m] == t[m];
      } else if m > p {
        assert t[p + 1..][m - p - 1] == t[m];
      }
    }
  }

  /** Position `m` can extend a digit-group run: a digit, or a comma with a digit after it. */
  predicate Consumable(s: string, m: nat) {
    m < |s| && (IsDigit(s[m]) || (s[m] == ',' && m + 1 < |s| && IsDigit(s[m + 1])))
  }

  /** Where the digit groups starting at `i` end. */
  function GroupsEnd(s: string, i: nat): (e: nat)
    requires i <= |s|
    ensures i <= e <= |s|
    ensures forall m: nat :: i <= m < e ==> Consumable(s, m)
    ensures !Consumable(s, e)
    decreases |s| - i
  {
    if Consumable(s, i) then GroupsEnd(s, i + 1) else i
  }

  /** What the group scanner consumes from a digit up to a non-digit is a run of digit groups. */
  lemma ConsumedGroups(s: string, i: nat, g: nat)
    requires i < g < |s| && IsDigit(s[i]) && !IsDigit(s[g])
    requires forall m: nat :: i <= m < g ==> Consumable(s, m)
    ensures IsDigitGroups(s[i..g])
  {
    var t := s[i..g];
    assert Consumable(s, g - 1);
    forall m | 0 <= m < |t|
      ensures IsDigit(t[m]) || t[m] == ','
      ensures m < |t| - 1 && t[m] == ',' ==> IsDigit(t[m + 1])
    {
      assert Consumable(s, i + m);
    }
  }

  /**
   * The corrected amount pattern `[0-9]+(,[0-9]+)*\.[0-9]+` tried at `i`: the end
   * of the amount starting there, if one does.
   */
  function AmountEnd(s: string, i: nat): (r: Option<nat>)
    requires i <= |s|
    ensures r.Some? ==> i < r.value <= |s| && IsAmountText(s[i..r.value])
    ensures r.Some? ==> r.value == |s| || !IsDigit(s[r.value])
  {
    if i == |s| || !IsDigit(s[i]) then None
    else
      var g := GroupsEnd(s, i);
      if g < |s| && s[g] == '.' then
        var e := DigitsEnd(s, g + 1);
        if e == g + 1 then None
        else
          var t := s[i..e];
          var p := g - i;
          assert IsDigitGroups(t[..p]) by {
            assert t[..p] == s[i..g];
            ConsumedGroups(s, i, g);
          }
          assert AllDigits(t[p + 1..]) by {
            DigitsSlice(s, g + 1, e);
            assert t[p + 1..] == s[g + 1..e];
          }
          assert IsAmountSplit(t, p);
          Some(e)
      else None
  }

  /** Every position of a run of digit groups is one the group scanner consumes. */
  lemma DigitGroupsConsumable(s: string, i: nat, p: nat)
    requires i + p <= |s| && IsDigitGroups(s[i..i + p])
    ensures forall m: nat :: i <= m < i + p ==> Consumable(s, m)
  {
    var u := s[i..i + p];
    forall m: nat | i <= m < i + p
      ensures Consumable(s, m)
    {
      assert u[m - i] == s[m];
      if s[m] == ',' {
        assert m - i < p - 1;
        assert u[m - i + 1] == s[m + 1];
      }
    }
  }

  /** The corrected scanner finds every amount, up to the end of its digits. */
  lemma AmountEndFinds(s: string, i: nat, e: nat)
    requires i < e <= |s| && IsAmountText(s[i..e])
    requires e == |s| || !IsDigit(s[e])
    ensures AmountEnd(s, i) == Some(e)
  {
    var t := s[i..e];
    var p: nat :| IsAmountSplit(t, p);
    assert t[..p] == s[i..i + p] by {
      assert |t[..p]| == p;
      forall k | 0 <= k < p
        ensures t[..p][k] == s[i..i + p][k]
      {
        assert t[k] == s[i + k];
      }
    }
    DigitGroupsConsumable(s, i, p);
    assert s[i + p] == '.';
    var g := GroupsEnd(s, i);
    assert !Consumable(s, i + p);
    assert g == i + p;
    forall m | g + 1 <= m < e
      ensures IsDigit(s[m])
    {
      assert t[p + 1..][m - g - 1] == s[m];
    }
    DigitsEndAt(s, g + 1, e);
  }

  /**
   * The importers' amount pattern `[0-9]+,[0-9]+\.[0-9]+|[0-9]+\.[0-9]+` tried
   * at `i`, alternatives in order: at most one thousands separator.
   */
  function AmountEndAsWritten(s: string, i: nat): (r: Option<nat>)
    requires i <= |s|
    ensures r.Some? ==> i < r.value <= |s| && IsShortAmountText(s[i..r.value])
    ensures r.Some? ==> r.value == |s| || !IsDigit(s[r.value])
  {
    var d1 := DigitsEnd(s, i);
    if d1 == i || d1 == |s| then None
    else if s[d1] == ',' then
      var d2 := DigitsEnd(s, d1 + 1);
      if d2 == d1 + 1 || d2 == |s| || s[d2] != '.' then None
      else
        var d3 := DigitsEnd(s, d2 + 1);
        if d3 == d2 + 1 then None
        else
          OneGroupAmountAt(s, i, d1, d2, d3);
          Some(d3)
    else if s[d1] == '.' then
      var d3 := DigitsEnd(s, d1 + 1);
      if d3 == d1 + 1 then None
      else
        PlainAmountAt(s, i, d1, d3);
        Some(d3)
    else None
  }

  /** Digits, ',', digits, '.', digits from `i` to `d3` read as an amount with one separator. */
  lemma OneGroupAmountAt(s: string, i: nat, d1: nat, d2: nat, d3: nat)
    requires i < d1 && d1 + 1 < d2 && d2 + 1 < d3 <= |s|
    requires forall m :: i <= m < d1 ==> IsDigit(s[m])
    requires s[d1] == ','
    requires forall m :: d1 + 1 <= m < d2 ==> IsDigit(s[m])
    requires s[d2] == '.'
    requires forall m :: d2 + 1 <= m < d3 ==> IsDigit(s[m])
    ensures IsOneGroupAmount(s[i..d3], d1 - i, d2 - i)
  {
    var t := s[i..d3];
    DigitsSlice(s, i, d1);
    DigitsSlice(s, d1 + 1, d2);
    DigitsSlice(s, d2 + 1, d3);
    SliceOfSlice(s, i, d3, 0, d1 - i);
    SliceOfSlice(s, i, d3, d1 - i + 1, d2 - i);
    SliceOfSlice(s, i, d3, d2 - i + 1, d3 - i);
    assert t[..d1 - i] == t[0..d1 - i];
    assert t[d2 - i + 1..] == t[d2 - i + 1..d3 - i];
  }

  /** Digits, '.', digits from `i` to `d3` read as an amount without a separator. */
  lemma PlainAmountAt(s: string, i: nat, d1: nat, d3: nat)
    requires i < d1 && d1 + 1 < d3 <= |s|
    requires forall m :: i <= m < d1 ==> IsDigit(s[m])
    requires s[d1] == '.'
    requires forall m :: d1 + 1 <= m < d3 ==> IsDigit(s[m])
    ensures IsPlainAmount(s[i..d3], d1 - i)
  {
    var t := s[i..d3];
    DigitsSlice(s, i, d1);
    DigitsSlice(s, d1 + 1, d3);
    SliceOfSlice(s, i, d3, 0, d1 - i);
    SliceOfSlice(s, i, d3, d1 - i + 1, d3 - i);
    assert t[..d1 - i] == t[0..d1 - i];
    assert t[d1 - i + 1..] == t[d1 - i + 1..d3 - i];
  }

  /** A slice of digits is all digits. */
  lemma DigitsSlice(s: string, i: nat, e: nat)
    requires i <= e <= |s|
    requires forall m :: i <= m < e ==> IsDigit(s[m])
    ensures AllDigits(s[i..e])
  {
    forall m | 0 <= m < e - i
      ensures IsDigit(s[i..e][m])
    {
      assert s[i..e][m] == s[i + m];
    }
  }

  /** A slice of a slice is a slice of the whole. */
  lemma SliceOfSlice(s: string, i: nat, e: nat, a: nat, b: nat)
    requires i <= e <= |s| && a <= b <= e - i
    ensures s[i..e][a..b] == s[i + a..i + b]
  {
    forall m | 0 <= m < b - a
      ensures s[i..e][a..b][m] == s[i + a..i + b][m]
    {
      assert s[i..e][a..b][m] == s[i + a + m];
    }
  }

  /** A maximal run of digits from `i` ending at `e` is what `DigitsEnd` reports. */
  lemma DigitsEndAt(s: string, i: nat, e: nat)
    requires i <= e <= |s|
    requires forall m :: i <= m < e ==> IsDigit(s[m])
    requires e == |s| || !IsDigit(s[e])
    ensures DigitsEnd(s, i) == e
  {
    var d := DigitsEnd(s, i);
  }

  /** A run of digits `u` at `lo`, not followed by a digit, is what `DigitsEnd` reports. */
  lemma DigitRun(s: string, lo: nat, hi: nat, u: string)
    requires lo <= hi <= |s| && u == s[lo..hi] && AllDigits(u)
    requires hi == |s| || !IsDigit(s[hi])
    ensures DigitsEnd(s, lo) == hi
  {
    forall m | lo <= m < hi
      ensures IsDigit(s[m])
    {
      assert u[m - lo] == s[m];
    }
    DigitsEndAt(s, lo, hi);
  }

  /** The importers' scanner finds an amount without separator. */
  lemma PlainAmountFound(s: string, i: nat, e: nat, p: nat)
    requires i < e <= |s| && IsPlainAmount(s[i..e], p)
    requires e == |s| || !IsDigit(s[e])
    ensures AmountEndAsWritten(s, i) == Some(e)
  {
    var t := s[i..e];
    assert s[i + p] == t[p] == '.';
    assert t[..p] == s[i..i + p];
    DigitRun(s, i, i + p, t[..p]);
    assert t[p + 1..] == s[i + p + 1..e];
    DigitRun(s, i + p + 1, e, t[p + 1..]);
  }

  /** The importers' scanner finds an amount with one separator. */
  lemma OneGroupAmountFound(s: string, i: nat, e: nat, c: nat, p: nat)
    requires i < e <= |s| && IsOneGroupAmount(s[i..e], c, p)
    requires e == |s| || !IsDigit(s[e])
    ensures AmountEndAsWritten(s, i) == Some(e)
  {
    var t := s[i..e];
    assert s[i + c] == t[c] == ',';
    assert s[i + p] == t[p] == '.';
    assert t[..c] == s[i..i + c];
    DigitRun(s, i, i + c, t[..c]);
    SliceOfSlice(s, i, e, c + 1, p);
    DigitRun(s, i + c + 1, i + p, t[c + 1..p]);
    assert t[p + 1..] == s[i + p + 1..e];
    DigitRun(s, i + p + 1, e, t[p + 1..]);
    OneGroupAmountEnd(s, i, i + c, i + p, e);
  }

  /** Digits, a separator, digits, a point and digits: where the importers' scanner stops. */
  lemma OneGroupAmountEnd(s: string, i: nat, d1: nat, d2: nat, d3: nat)
    requires i < d1 && d1 + 1 < d2 && d2 + 1 < d3 <= |s|
    requires DigitsEnd(s, i) == d1 && s[d1] == ','
    requires DigitsEnd(s, d1 + 1) == d2 && s[d2] == '.'
    requires DigitsEnd(s, d2 + 1) == d3
    ensures AmountEndAsWritten(s, i) == Some(d3)
  {
  }

  /** The importers' scanner finds every amount of the shape it accepts. */
  lemma AmountEndAsWrittenFinds(s: string, i: nat, e: nat)
    requires i < e <= |s| && IsShortAmountText(s[i..e])
    requires e == |s| || !IsDigit(s[e])
    ensures AmountEndAsWritten(s, i) == Some(e)
  {
    var t := s[i..e];
    if p: nat :| IsPlainAmount(t, p) {
      PlainAmountFound(s, i, e, p);
    } else {
      var c: nat, p: nat :| IsOneGroupAmount(t, c, p);
      OneGroupAmountFound(s, i, e, c, p);
    }
  }

  /** Wherever the importers' pattern matches, the corrected one matches the same text. */
  lemma AmountEndExtendsAsWritten(s: string, i: nat)
    requires i <= |s| && AmountEndAsWritten(s, i).Some?
    ensures AmountEnd(s, i) == AmountEndAsWritten(s, i)
  {
    var e := AmountEndAsWritten(s, i).value;
    ShortAmountIsAmount(s[i..e]);
    AmountEndFinds(s, i, e);
  }

  // ---------------------------------------------------------------------------
  // `(^.*€)(AMOUNT)(.*)?` -> `\2`: the number after the last '€' of the first line
  // that is followed by one; the rest of that line goes, later lines stay.

  /** The '€' at `j` is followed by an amount of the corrected shape. */
  predicate EuroBeforeAmount(s: string, j: nat) {
    j < |s| && s[j] == Euro && AmountEnd(s, j + 1).Some?
  }

  /** The amount text found after the '€' at `j` lies inside the first line. */
  lemma AmountWithinLine(s: string, j: nat, e: nat)
    requires j < LineEnd(s) && j < e <= |s| && IsAmountText(s[j + 1..e])
    ensures e <= LineEnd(s)
  {
    AmountChars(s[j + 1..e]);
    forall m | j + 1 <= m < e
      ensures s[m] != '\n'
    {
      assert s[j + 1..e][m - j - 1] == s[m];
    }
  }

  /** The last '€' of the first line that an amount follows: where the greedy `^.*€` stops. */
  function LastEuroBeforeAmount(s: string): (r: Option<nat>)
    ensures r.None? ==> forall j: nat :: j < LineEnd(s) ==> !EuroBeforeAmount(s, j)
    ensures r.Some? ==> r.value < LineEnd(s) && EuroBeforeAmount(s, r.value)
    ensures r.Some? ==> forall j: nat :: r.value < j < LineEnd(s) ==> !EuroBeforeAmount(s, j)
  {
    var ok := (j: nat) => EuroBeforeAmount(s, j);
    var r := LastSatisfying(LineEnd(s), ok);
    forall j: nat | j < LineEnd(s) && (r.None? || r.value < j)
      ensures !EuroBeforeAmount(s, j)
    {
      assert !ok(j);
    }
    r
  }
  /** Only one '€' of the first line is the last one an amount follows. */
  lemma LastEuroBeforeAmountUnique(s: string, k: nat)
    requires k < LineEnd(s) && EuroBeforeAmount(s, k)
    requires forall m: nat :: k < m < LineEnd(s) ==> !EuroBeforeAmount(s, m)
    ensures LastEuroBeforeAmount(s) == Some(k)
  {
    var r := LastEuroBeforeAmount(s);
    assert r.Some? && r.value <= k;
  }

  /** The cut at the last '€' an amount follows is the cut at any '€' with no later one. */
  lemma LastEuroBeforeAmountCut(s: string, j: nat)
    requires LastEuroBeforeAmount(s) == Some(j)
    ensures forall k: nat :: k < LineEnd(s) && EuroBeforeAmount(s, k) && (forall m: nat :: k < m < LineEnd(s) ==> !EuroBeforeAmount(s, m)) ==>
      s[j + 1..AmountEnd(s, j + 1).value] + s[LineEnd(s)..] == s[k + 1..AmountEnd(s, k + 1).value] + s[LineEnd(s)..]
  {
    forall k: nat | k < LineEnd(s) && EuroBeforeAmount(s, k) && (forall m: nat :: k < m < LineEnd(s) ==> !EuroBeforeAmount(s, m))
      ensures k == j
    {
      LastEuroBeforeAmountUnique(s, k);
    }
  }


  /** In the first line, the '€' at `j` is followed by the amount text ending at `e`. */
  ghost predicate AmountSpan(s: string, j: nat, e: nat) {
    j < e <= LineEnd(s) && s[j] == Euro && IsAmountText(s[j + 1..e])
  }

  /** The current-value rewrite, with the amount pattern corrected to allow any number of separators. */
  function ExtractAmount(s: string): (r: string)
    ensures (forall j: nat :: j < LineEnd(s) ==> !EuroBeforeAmount(s, j)) ==> r == s
    ensures forall j: nat :: j < LineEnd(s) && EuroBeforeAmount(s, j) && (forall m: nat :: j < m < LineEnd(s) ==> !EuroBeforeAmount(s, m)) ==>
      r == s[j + 1..AmountEnd(s, j + 1).value] + s[LineEnd(s)..]
    ensures (exists j: nat :: j < LineEnd(s) && EuroBeforeAmount(s, j)) ==>
      exists j: nat, e: nat :: AmountSpan(s, j, e) && r == s[j + 1..e] + s[LineEnd(s)..]
  {
    match LastEuroBeforeAmount(s)
    case None => s
    case Some(j) =>
      var r := s[j + 1..AmountEnd(s, j + 1).value] + s[LineEnd(s)..];
      ExtractAmountAtLast(s, j, r);
      r
  }

  /** The cut at the last '€' an amount follows is the cut at any such '€', and spans an amount. */
  lemma ExtractAmountAtLast(s: string, j: nat, r: string)
    requires LastEuroBeforeAmount(s) == Some(j)
    requires r == s[j + 1..AmountEnd(s, j + 1).value] + s[LineEnd(s)..]
    ensures forall k: nat :: k < LineEnd(s) && EuroBeforeAmount(s, k) && (forall m: nat :: k < m < LineEnd(s) ==> !EuroBeforeAmount(s, m)) ==>
      r == s[k + 1..AmountEnd(s, k + 1).value] + s[LineEnd(s)..]
    ensures exists k: nat, e: nat :: AmountSpan(s, k, e) && r == s[k + 1..e] + s[LineEnd(s)..]
  {
    var e := AmountEnd(s, j + 1).value;
    AmountWithinLine(s, j, e);
    LastEuroBeforeAmountCut(s, j);
    assert AmountSpan(s, j, e) && r == s[j + 1..e] + s[LineEnd(s)..];
  }

  /** The '€' at `j` is followed by an amount the importers' pattern accepts. */
  predicate EuroBeforeAmountAsWritten(s: string, j: nat) {
    j < |s| && s[j] == Euro && AmountEndAsWritten(s, j + 1).Some?
  }

  /** The last '€' of the first line that an amount of the importers' shape follows. */
  function LastEuroBeforeAmountAsWritten(s: string): (r: Option<nat>)
    ensures r.None? ==> forall j: nat :: j < LineEnd(s) ==> !EuroBeforeAmountAsWritten(s, j)
    ensures r.Some? ==> r.value < LineEnd(s) && EuroBeforeAmountAsWritten(s, r.value)
    ensures r.Some? ==> forall j: nat :: r.value < j < LineEnd(s) ==> !EuroBeforeAmountAsWritten(s, j)
  {
    var ok := (j: nat) => EuroBeforeAmountAsWritten(s, j);
    var r := LastSatisfying(LineEnd(s), ok);
    forall j: nat | j < LineEnd(s) && (r.None? || r.value < j)
      ensures !EuroBeforeAmountAsWritten(s, j)
    {
      assert !ok(j);
    }
    r
  }
  /** Only one '€' of the first line is the last one an amount follows. */
  lemma LastEuroBeforeAmountAsWrittenUnique(s: string, k: nat)
    requires k < LineEnd(s) && EuroBeforeAmountAsWritten(s, k)
    requires forall m: nat :: k < m < LineEnd(s) ==> !EuroBeforeAmountAsWritten(s, m)
    ensures LastEuroBeforeAmountAsWritten(s) == Some(k)
  {
    var r := LastEuroBeforeAmountAsWritten(s);
    assert r.Some? && r.value <= k;
  }

  /** The cut at the last '€' an amount follows is the cut at any '€' with no later one. */
  lemma LastEuroBeforeAmountAsWrittenCut(s: string, j: nat)
    requires LastEuroBeforeAmountAsWritten(s) == Some(j)
    ensures forall k: nat :: k < LineEnd(s) && EuroBeforeAmountAsWritten(s, k) && (forall m: nat :: k < m < LineEnd(s) ==> !EuroBeforeAmountAsWritten(s, m)) ==>
      s[j + 1..AmountEndAsWritten(s, j + 1).value] + s[LineEnd(s)..] == s[k + 1..AmountEndAsWritten(s, k + 1).value] + s[LineEnd(s)..]
  {
    forall k: nat | k < LineEnd(s) && EuroBeforeAmountAsWritten(s, k) && (forall m: nat :: k < m < LineEnd(s) ==> !EuroBeforeAmountAsWritten(s, m))
      ensures k == j
    {
      LastEuroBeforeAmountAsWrittenUnique(s, k);
    }
  }


  /** `AmountSpan` for the amounts the importers' pattern accepts. */
  ghost predicate AmountSpanAsWritten(s: string, j: nat, e: nat) {
    j < e <= LineEnd(s) && s[j] == Euro && IsShortAmountText(s[j + 1..e])
  }

  /** The current-value rewrite exactly as the importers write it. */
  function ExtractAmountAsWritten(s: string): (r: string)
    ensures (forall j: nat :: j < LineEnd(s) ==> !EuroBeforeAmountAsWritten(s, j)) ==> r == s
    ensures forall j: nat :: j < LineEnd(s) && EuroBeforeAmountAsWritten(s, j) && (forall m: nat :: j < m < LineEnd(s) ==> !EuroBeforeAmountAsWritten(s, m)) ==>
      r == s[j + 1..AmountEndAsWritten(s, j + 1).value] + s[LineEnd(s)..]
    ensures (exists j: nat :: j < LineEnd(s) && EuroBeforeAmountAsWritten(s, j)) ==>
      exists j: nat, e: nat :: AmountSpanAsWritten(s, j, e) && r == s[j + 1..e] + s[LineEnd(s)..]
  {
    match LastEuroBeforeAmountAsWritten(s)
    case None => s
    case Some(j) =>
      var r := s[j + 1..AmountEndAsWritten(s, j + 1).value] + s[LineEnd(s)..];
      ExtractAmountAsWrittenAtLast(s, j, r);
      r
  }

  /** `ExtractAmountAtLast` for the importers' amount pattern. */
  lemma ExtractAmountAsWrittenAtLast(s: string, j: nat, r: string)
    requires LastEuroBeforeAmountAsWritten(s) == Some(j)
    requires r == s[j + 1..AmountEndAsWritten(s, j + 1).value] + s[LineEnd(s)..]
    ensures forall k: nat :: k < LineEnd(s) && EuroBeforeAmountAsWritten(s, k) && (forall m: nat :: k < m < LineEnd(s) ==> !EuroBeforeAmountAsWritten(s, m)) ==>
      r == s[k + 1..AmountEndAsWritten(s, k + 1).value] + s[LineEnd(s)..]
    ensures exists k: nat, e: nat :: AmountSpanAsWritten(s, k, e) && r == s[k + 1..e] + s[LineEnd(s)..]
  {
    var e := AmountEndAsWritten(s, j + 1).value;
    AmountSpanAsWrittenOfEnd(s, j, e);
    LastEuroBeforeAmountAsWrittenCut(s, j);
    assert AmountSpanAsWritten(s, j, e) && r == s[j + 1..e] + s[LineEnd(s)..];
  }

  /** The amount the importers' pattern reads after the '€' at `j` of the first line stays in that line. */
  lemma AmountSpanAsWrittenOfEnd(s: string, j: nat, e: nat)
    requires j < LineEnd(s) && s[j] == Euro
    requires j + 1 < e <= |s| && IsShortAmountText(s[j + 1..e])
    ensures AmountSpanAsWritten(s, j, e)
  {
    ShortAmountIsAmount(s[j + 1..e]);
    AmountWithinLine(s, j, e);
  }

  /** A one-line cell `<prefix>€<amount><rest>`: its layout, character by character. */
  lemma DisplayedValueLayout(prefix: string, amount: string, rest: string)
    requires IsAmountText(amount)
    requires '\n' !in prefix + rest && Euro !in rest
    ensures var s := prefix + [Euro] + amount + rest;
      && LineEnd(s) == |s|
      && s[|prefix|] == Euro
      && s[|prefix| + 1..|prefix| + 1 + |amount|] == amount
      && (forall m :: |prefix| < m < |s| ==> s[m] != Euro)
  {
    var s := prefix + [Euro] + amount + rest;
    var j0 := |prefix|;
    var e0 := j0 + 1 + |amount|;
    AmountChars(amount);
    forall m | 0 <= m < |s|
      ensures s[m] != '\n'
      ensures j0 < m ==> s[m] != Euro
    {
      if m < j0 {
        assert s[m] == (prefix + rest)[m];
      } else if j0 < m < e0 {
        assert s[m] == amount[m - j0 - 1];
      } else if m >= e0 {
        assert s[m] == rest[m - e0];
        assert s[m] == (prefix + rest)[j0 + m - e0];
      }
    }
    LineEndSingleLine(s);
    assert s[j0 + 1..e0] == amount;
  }

  /**
   * When an amount ending at `e` follows the '€' at `j`, and no later '€' of
   * the first line is followed by one, the rewrite keeps exactly that amount
   * and the later lines.
   */
  lemma ExtractAmountAt(s: string, j: nat, e: nat)
    requires j < LineEnd(s) && s[j] == Euro
    requires j < e <= |s| && IsAmountText(s[j + 1..e]) && (e == |s| || !IsDigit(s[e]))
    requires forall m: nat :: j < m < LineEnd(s) ==> !EuroBeforeAmount(s, m)
    ensures ExtractAmount(s) == s[j + 1..e] + s[LineEnd(s)..]
  {
    AmountEndFinds(s, j + 1, e);
    assert EuroBeforeAmount(s, j);
    var r := LastEuroBeforeAmount(s);
    assert r.Some? && r.value <= j;
    assert r.value == j;
    ExtractAmountOfLast(s, j);
  }

  /** The rewrite cuts out the amount after the last '€' that one follows. */
  lemma ExtractAmountOfLast(s: string, j: nat)
    requires LastEuroBeforeAmount(s) == Some(j)
    ensures AmountEnd(s, j + 1).Some?
    ensures ExtractAmount(s) == s[j + 1..AmountEnd(s, j + 1).value] + s[LineEnd(s)..]
  {
  }

  /** Without a later '€' in the first line, no later '€' is followed by an amount. */
  lemma NoLaterEuro(s: string, j: nat)
    requires forall m :: j < m < LineEnd(s) ==> s[m] != Euro
    ensures forall m: nat :: j < m < LineEnd(s) ==> !EuroBeforeAmount(s, m) && !EuroBeforeAmountAsWritten(s, m)
  {
  }

  /**
   * A one-line cell `<prefix>€<amount><rest>` whose rest holds no further '€'
   * and does not continue the amount's digits yields exactly the amount.
   */
  lemma ExtractAmountOfDisplayedValue(prefix: string, amount: string, rest: string)
    requires IsAmountText(amount)
    requires '\n' !in prefix + rest && Euro !in rest
    requires rest == [] || !IsDigit(rest[0])
    ensures ExtractAmount(prefix + [Euro] + amount + rest) == amount
  {
    var s := prefix + [Euro] + amount + rest;
    var j := |prefix|;
    var e := j + 1 + |amount|;
    DisplayedValueLayout(prefix, amount, rest);
    assert e == |s| || !IsDigit(s[e]) by {
      if e < |s| {
        assert s[e] == rest[0];
      }
    }
    NoLaterEuro(s, j);
    ExtractAmountAt(s, j, e);
    assert s[LineEnd(s)..] == [];
    assert s[j + 1..e] + [] == amount;
  }

  /** `ExtractAmountAt` for the importers' pattern. */
  lemma ExtractAmountAsWrittenAt(s: string, j: nat, e: nat)
    requires j < LineEnd(s) && s[j] == Euro
    requires j < e <= |s| && IsShortAmountText(s[j + 1..e]) && (e == |s| || !IsDigit(s[e]))
    requires forall m: nat :: j < m < LineEnd(s) ==> !EuroBeforeAmountAsWritten(s, m)
    ensures ExtractAmountAsWritten(s) == s[j + 1..e] + s[LineEnd(s)..]
  {
    AmountEndAsWrittenFinds(s, j + 1, e);
    assert EuroBeforeAmountAsWritten(s, j);
    var r := LastEuroBeforeAmountAsWritten(s);
    assert r.Some? && r.value <= j;
    assert r.value == j;
    ExtractAmountAsWrittenOfLast(s, j);
  }

  /** `ExtractAmountOfLast` for the importers' pattern. */
  lemma ExtractAmountAsWrittenOfLast(s: string, j: nat)
    requires LastEuroBeforeAmountAsWritten(s) == Some(j)
    ensures AmountEndAsWritten(s, j + 1).Some?
    ensures ExtractAmountAsWritten(s) == s[j + 1..AmountEndAsWritten(s, j + 1).value] + s[LineEnd(s)..]
  {
  }

  /** `ExtractAmountOfDisplayedValue` for the importers' pattern and the amounts it accepts. */
  lemma ExtractAmountAsWrittenOfDisplayedValue(prefix: string, amount: string, rest: string)
    requires IsShortAmountText(amount)
    requires '\n' !in prefix + rest && Euro !in rest
    requires rest == [] || !IsDigit(rest[0])
    ensures ExtractAmountAsWritten(prefix + [Euro] + amount + rest) == amount
  {
    var s := prefix + [Euro] + amount + rest;
    var j := |prefix|;
    var e := j + 1 + |amount|;
    ShortAmountIsAmount(amount);
    DisplayedValueLayout(prefix, amount, rest);
    assert e == |s| || !IsDigit(s[e]) by {
      if e < |s| {
        assert s[e] == rest[0];
      }
    }
    NoLaterEuro(s, j);
    ExtractAmountAsWrittenAt(s, j, e);
    assert s[LineEnd(s)..] == [];
    assert s[j + 1..e] + [] == amount;
  }

  /**
   * An amount above a million has two separators, which the importers' pattern
   * does not accept: the cell comes back unchanged, '€' included.
   */
  lemma ExtractAmountAsWrittenMissesMillions()
    ensures ExtractAmountAsWritten([Euro] + "1,234,567.89") == [Euro] + "1,234,567.89"
  {
    var s := [Euro] + "1,234,567.89";
    LineEndSingleLine(s);
    assert s[1] == '1' && s[2] == ',';
    assert s[3] == '2' && s[4] == '3' && s[5] == '4' && s[6] == ',';
    assert DigitsEnd(s, 1) == 2 by {
      DigitsEndAt(s, 1, 2);
    }
    assert DigitsEnd(s, 3) == 6 by {
      DigitsEndAt(s, 3, 6);
    }
    forall j: nat | j < LineEnd(s)
      ensures !EuroBeforeAmountAsWritten(s, j)
    {
      if j == 0 {
        assert AmountEndAsWritten(s, 1) == None;
      } else {
        assert s[j] != Euro;
      }
    }
  }

  /** The corrected pattern reads the same cell as the full amount. */
  lemma ExtractAmountReadsMillions()
    ensures ExtractAmount([Euro] + "1,234,567.89") == "1,234,567.89"
  {
    var amount := "1,234,567.89";
    var s := [Euro] + amount;
    assert IsAmountSplit(amount, 9) by {
      assert amount[..9] == "1,234,567";
      assert amount[10..] == "89";
    }
    LineEndSingleLine(s);
    assert s[1..|s|] == amount;
    NoLaterEuro(s, 0);
    ExtractAmountAt(s, 0, |s|);
    assert s[1..|s|] + s[LineEnd(s)..] == amount;
  }

  /** The corrected pattern reads "€1,234.56" as 1,234.56. */
  lemma ExtractAmountReadsThousands()
    ensures ExtractAmount([Euro] + "1,234.56") == "1,234.56"
  {
    var amount := "1,234.56";
    var s := [Euro] + amount;
    assert IsAmountSplit(amount, 5) by {
      assert amount[..5] == "1,234" && amount[6..] == "56";
    }
    LineEndSingleLine(s);
    assert s[1..|s|] == amount;
    NoLaterEuro(s, 0);
    ExtractAmountAt(s, 0, |s|);
    assert s[1..|s|] + s[LineEnd(s)..] == amount;
  }
}

=== FILE: ordering.dfy ===
/**
 * Row ordering as `DataFrame.sort_values(by=[...])` performs it: rows compare
 * column by column, strings compare as Python's `str` does, and a missing
 * value (NaN) sorts after every present one (`na_position='last'`).
 *
 * pandas' default sort is not stable, so the sort here promises only what any
 * correct sort delivers: sorted output that is a permutation of the input.
 * `SortedPermutationsAgreeOnKeys` shows that this already fixes every sort-key
 * column of the result; only the order among rows with equal keys is left open.
 */
module Ordering {

  /** A calendar date, ordered as `datetime.date` is: year, then month, then day. */
  datatype Date = Date(year: int, month: int, day: int)

  predicate DateLt(a: Date, b: Date) {
    || a.year < b.year
    || (a.year == b.year && (a.month < b.month || (a.month == b.month && a.day < b.day)))
  }

  /** Python's `<` on `str`: lexicographic by code point, a proper prefix first. */
  predicate StrLt(a: string, b: string)
    decreases |a|
  {
    if a == [] then b != []
    else if b == [] then false
    else if a[0] != b[0] then a[0] < b[0]
    else StrLt(a[1..], b[1..])
  }

  lemma {:induction false} StrLtIrreflexive(a: string)
    ensures !StrLt(a, a)
    decreases |a|
  {
    if a != [] {
      StrLtIrreflexive(a[1..]);
    }
  }

  lemma {:induction false} StrLtTransitive(a: string, b: string, c: string)
    requires StrLt(a, b) && StrLt(b, c)
    ensures StrLt(a, c)
    decreases |a|
  {
    if a != [] && a[0] == b[0] && b[0] == c[0] {
      StrLtTransitive(a[1..], b[1..], c[1..]);
    }
  }

  lemma {:induction false} StrLtTotal(a: string, b: string)
    ensures a == b || StrLt(a, b) || StrLt(b, a)
    decreases |a|
  {
    if a != [] && b != [] && a[0] == b[0] {
      StrLtTotal(a[1..], b[1..]);
      if a[1..] == b[1..] {
        assert a == [a[0]] + a[1..] && b == [b[0]] + b[1..];
      }
    }
  }

  /** One cell of a sort key: a date column, a text column, or a missing value. */
  datatype Cell = Day(date: Date) | Str(text: string) | Missing

  function Rank(c: Cell): nat {
    match c
    case Day(_) => 0
    case Str(_) => 1
    case Missing => 2
  }

  /** Cells of one column; a missing value is greater than every present one. */
  predicate CellLt(a: Cell, b: Cell) {
    match (a, b)
    case (Day(x), Day(y)) => DateLt(x, y)
    case (Str(x), Str(y)) => StrLt(x, y)
    case _ => Rank(a) < Rank(b)
  }

  lemma CellLtStrictTotal(a: Cell, b: Cell, c: Cell)
    ensures !CellLt(a, a)
    ensures CellLt(a, b) && CellLt(b, c) ==> CellLt(a, c)
    ensures a == b || CellLt(a, b) || CellLt(b, a)
  {
    if a.Str? {
      StrLtIrreflexive(a.text);
    }
    if a.Str? && b.Str? && c.Str? && CellLt(a, b) && CellLt(b, c) {
      StrLtTransitive(a.text, b.text, c.text);
    }
    if a.Str? && b.Str? {
      StrLtTotal(a.text, b.text);
    }
  }

  /** The values of the `by=[...]` columns of one row, in column order. */
  type Key = seq<Cell>

  /** The row order of a multi-column sort: the first column that differs decides. */
  predicate KeyLt(a: Key, b: Key)
    decreases |a|
  {
    if a == [] then b != []
    else if b == [] then false
    else if a[0] != b[0] then CellLt(a[0], b[0])
    else KeyLt(a[1..], b[1..])
  }

  predicate KeyLe(a: Key, b: Key) {
    a == b || KeyLt(a, b)
  }

  lemma {:induction false} KeyLtIrreflexive(a: Key)
    ensures !KeyLt(a, a)
    decreases |a|
  {
    if a != [] {
      KeyLtIrreflexive(a[1..]);
    }
  }

  lemma {:induction false} KeyLtTransitive(a: Key, b: Key, c: Key)
    requires KeyLt(a, b) && KeyLt(b, c)
    ensures KeyLt(a, c)
    decreases |a|
  {
    if a != [] && b != [] && c != [] {
      CellLtStrictTotal(a[0], b[0], c[0]);
      if a[0] == b[0] && b[0] == c[0] {
        KeyLtTransitive(a[1..], b[1..], c[1..]);
      }
    }
  }

  lemma {:induction false} KeyLtTotal(a: Key, b: Key)
    ensures a == b || KeyLt(a, b) || KeyLt(b, a)
    decreases |a|
  {
    if a != [] && b != [] {
      CellLtStrictTotal(a[0], b[0], b[0]);
      if a[0] == b[0] {
        KeyLtTotal(a[1..], b[1..]);
        if a[1..] == b[1..] {
          assert a == [a[0]] + a[1..] && b == [b[0]] + b[1..];
        }
      }
    }
  }

  /** `KeyLe` is a total order on keys. */
  lemma KeyLeTotalOrder(a: Key, b: Key, c: Key)
    ensures KeyLe(a, b) || KeyLe(b, a)
    ensures KeyLe(a, b) && KeyLe(b, a) ==> a == b
    ensures KeyLe(a, b) && KeyLe(b, c) ==> KeyLe(a, c)
  {
    KeyLtTotal(a, b);
    if KeyLt(a, b) && KeyLt(b, a) {
      KeyLtTransitive(a, b, a);
      KeyLtIrreflexive(a);
    }
    if KeyLt(a, b) && KeyLt(b, c) {
      KeyLtTransitive(a, b, c);
    }
  }

  ghost predicate SortedKeys(ks: seq<Key>) {
    forall i, j :: 0 <= i < j < |ks| ==> KeyLe(ks[i], ks[j])
  }

  /** Rows ascending by their sort key. */
  ghost predicate SortedBy<T>(xs: seq<T>, key: T -> Key) {
    forall i, j :: 0 <= i < j < |xs| ==> KeyLe(key(xs[i]), key(xs[j]))
  }

  /** The value of `key` on every row, row by row: the sort-key columns, or any other projection. */
  function Keys<T, U>(xs: seq<T>, key: T -> U): (ks: seq<U>)
    ensures |ks| == |xs| && forall i :: 0 <= i < |xs| ==> ks[i] == key(xs[i])
  {
    seq(|xs|, i requires 0 <= i < |xs| => key(xs[i]))
  }

  /** Puts `x` before the first row whose key is not below its own. */
  function Insert<T>(x: T, ys: seq<T>, key: T -> Key): (r: seq<T>)
    ensures multiset(r) == multiset(ys) + multiset{x}
  {
    if ys == [] then [x]
    else if KeyLe(key(x), key(ys[0])) then [x] + ys
    else
      assert ys == [ys[0]] + ys[1..];
      [ys[0]] + Insert(x, ys[1..], key)
  }

  lemma {:induction false} InsertSorted<T>(x: T, ys: seq<T>, key: T -> Key)
    requires SortedBy(ys, key)
    ensures SortedBy(Insert(x, ys, key), key)
    decreases |ys|
  {
    var r := Insert(x, ys, key);
    if ys == [] {
    } else if KeyLe(key(x), key(ys[0])) {
      forall i, j | 0 <= i < j < |r|
        ensures KeyLe(key(r[i]), key(r[j]))
      {
        if i == 0 {
          KeyLeTotalOrder(key(x), key(ys[0]), key(ys[j - 1]));
        }
      }
    } else {
      var rest := Insert(x, ys[1..], key);
      InsertSorted(x, ys[1..], key);
      KeyLeTotalOrder(key(x), key(ys[0]), key(x));
      forall j | 0 <= j < |rest|
        ensures KeyLe(key(ys[0]), key(rest[j]))
      {
        assert rest[j] in multiset(rest);
        if rest[j] != x {
          assert rest[j] in multiset(ys[1..]);
          var m :| 0 <= m < |ys[1..]| && ys[1..][m] == rest[j];
          assert ys[m + 1] == rest[j];
        }
      }
      assert r == [ys[0]] + rest;
    }
  }

  /** `sort_values(by=...)` on the rows: an insertion sort by `key`. */
  function SortBy<T>(xs: seq<T>, key: T -> Key): (r: seq<T>)
    ensures multiset(r) == multiset(xs)
    ensures SortedBy(r, key)
  {
    if xs == [] then []
    else
      assert xs == [xs[0]] + xs[1..];
      var rest := SortBy(xs[1..], key);
      InsertSorted(xs[0], rest, key);
      Insert(xs[0], rest, key)
  }

  /** Sorting rows that are already in order leaves them as they are. */
  lemma {:induction false} SortBySortedIsIdentity<T>(xs: seq<T>, key: T -> Key)
    requires SortedBy(xs, key)
    ensures SortBy(xs, key) == xs
    decreases |xs|
  {
    if xs != [] {
      SortBySortedIsIdentity(xs[1..], key);
      assert SortBy(xs[1..], key) == xs[1..];
      if xs[1..] != [] {
        assert KeyLe(key(xs[0]), key(xs[1..][0]));
      }
      assert [xs[0]] + xs[1..] == xs;
    }
  }

  /** Sorting twice gives the same rows as sorting once. */
  lemma SortByIdempotent<T>(xs: seq<T>, key: T -> Key)
    ensures SortBy(SortBy(xs, key), key) == SortBy(xs, key)
  {
    SortBySortedIsIdentity(SortBy(xs, key), key);
  }

  /** The projection of a member is a member of the projections. */
  lemma KeysMember<T, U>(xs: seq<T>, x: T, key: T -> U)
    requires x in xs
    ensures key(x) in Keys(xs, key)
  {
    var n :| 0 <= n < |xs| && xs[n] == x;
    assert Keys(xs, key)[n] == key(x);
  }

  /** Where `key` tells `y` apart from every other row, `key(y)` is projected exactly as often as `y` occurs. */
  lemma {:induction false} KeysCount<T(!new), U(!new)>(xs: seq<T>, key: T -> U, y: T)
    requires forall x :: x in xs && key(x) == key(y) ==> x == y
    ensures multiset(Keys(xs, key))[key(y)] == multiset(xs)[y]
    decreases |xs|
  {
    if xs != [] {
      assert xs == [xs[0]] + xs[1..];
      KeysCount(xs[1..], key, y);
      assert Keys(xs, key) == [key(xs[0])] + Keys(xs[1..], key);
    }
  }

  lemma KeysAppend<T, U>(u: seq<T>, v: seq<T>, key: T -> U)
    ensures Keys(u + v, key) == Keys(u, key) + Keys(v, key)
  {
  }

  /** Removing the element at `m` removes one copy of it from the multiset. */
  lemma MultisetRemove<T>(b: seq<T>, m: nat)
    requires m < |b|
    ensures multiset(b[..m] + b[m + 1..]) == multiset(b) - multiset{b[m]}
  {
    assert b == b[..m] + [b[m]] + b[m + 1..];
  }

  /** The keys of `pre + [x] + post`, as a multiset, are those of `pre + post` plus `key(x)`. */
  lemma KeysSplit<T, U>(pre: seq<T>, x: T, post: seq<T>, key: T -> U)
    ensures multiset(Keys(pre + [x] + post, key)) == multiset(Keys(pre + post, key)) + multiset{key(x)}
  {
    KeysAppend(pre + [x], post, key);
    KeysAppend(pre, [x], key);
    KeysAppend(pre, post, key);
  }

  /** Permuting the rows permutes their projections. */
  lemma {:induction false} KeysOfPermutation<T, U>(a: seq<T>, b: seq<T>, key: T -> U)
    requires multiset(a) == multiset(b)
    ensures multiset(Keys(a, key)) == multiset(Keys(b, key))
    decreases |a|
  {
    if a != [] {
      assert a[0] in multiset(b);
      var m :| 0 <= m < |b| && b[m] == a[0];
      assert b[..m] + [b[m]] + b[m + 1..] == b;
      assert [] + [a[0]] + a[1..] == a;
      MultisetRemove(b, m);
      MultisetRemove(a, 0);
      assert a[..0] + a[1..] == a[1..];
      KeysOfPermutation(a[1..], b[..m] + b[m + 1..], key);
      KeysSplit(b[..m], b[m], b[m + 1..], key);
      KeysSplit([], a[0], a[1..], key);
      assert [] + a[1..] == a[1..];
    }
  }

  lemma {:induction false} SortedKeysUnique(a: seq<Key>, b: seq<Key>)
    requires SortedKeys(a) && SortedKeys(b) && multiset(a) == multiset(b)
    ensures a == b
    decreases |a|
  {
    if a == [] {
      assert |b| == |multiset(b)| == 0;
    } else {
      SortedKeysHead(a, b);
      MultisetOfTail(a);
      MultisetOfTail(b);
      assert SortedKeys(a[1..]) && SortedKeys(b[1..]);
      SortedKeysUnique(a[1..], b[1..]);
      assert a == [a[0]] + a[1..] && b == [b[0]] + b[1..];
    }
  }

  /** Two sorted sequences of the same keys start with the same key. */
  lemma SortedKeysHead(a: seq<Key>, b: seq<Key>)
    requires SortedKeys(a) && SortedKeys(b) && multiset(a) == multiset(b)
    requires a != []
    ensures b != [] && a[0] == b[0]
  {
    assert |b| == |multiset(b)| == |multiset(a)| > 0;
    assert a[0] in multiset(b) && b[0] in multiset(a);
    var m :| 0 <= m < |b| && b[m] == a[0];
    var n :| 0 <= n < |a| && a[n] == b[0];
    assert KeyLe(b[0], a[0]) by {
      if m > 0 {
        assert KeyLe(b[0], b[m]);
      }
    }
    assert KeyLe(a[0], b[0]) by {
      if n > 0 {
        assert KeyLe(a[0], a[n]);
      }
    }
    KeyLeTotalOrder(a[0], b[0], a[0]);
  }

  /** The tail holds the elements without one copy of the head. */
  lemma MultisetOfTail<T>(a: seq<T>)
    requires a != []
    ensures multiset(a[1..]) == multiset(a) - multiset{a[0]}
  {
    assert a == [a[0]] + a[1..];
  }

  /**
   * Two sorted permutations of the same rows have the same sort keys at every
   * position: whatever order an unstable sort picks, the key columns of the
   * result are fixed.
   */
  lemma SortedPermutationsAgreeOnKeys<T>(a: seq<T>, b: seq<T>, key: T -> Key)
    requires SortedBy(a, key) && SortedBy(b, key) && multiset(a) == multiset(b)
    ensures |a| == |b|
    ensures forall i :: 0 <= i < |a| ==> key(a[i]) == key(b[i])
  {
    KeysOfPermutation(a, b, key);
    SortedKeysUnique(Keys(a, key), Keys(b, key));
    assert |a| == |Keys(a, key)|;
  }
}

=== FILE: pin.dfy ===
/**
 * PIN entry: the characters of the password go one by one into the password
 * input fields found on the page, the k-th character into the k-th field.
 */
module Pin {
  import opened Wrappers
  import opened Text
  import opened Records

  /** Python's `zip(xs, ys)`: pairs by position, stopping at the shorter sequence. */
  function Zip<A, B>(xs: seq<A>, ys: seq<B>): (r: seq<(A, B)>)
    ensures |r| == if |xs| <= |ys| then |xs| else |ys|
    ensures forall k :: 0 <= k < |r| ==> r[k] == (xs[k], ys[k])
  {
    if xs == [] || ys == [] then []
    else [(xs[0], ys[0])] + Zip(xs[1..], ys[1..])
  }

  /** The first position whose character is not an ASCII digit. */
  function FirstNonDigit(s: string): (r: Option<nat>)
    ensures r.None? <==> AllDigits(s)
    ensures r.Some? ==> r.value < |s| && !IsDigit(s[r.value]) && AllDigits(s[..r.value])
  {
    if s == [] then None
    else if !IsDigit(s[0]) then Some(0)
    else
      match FirstNonDigit(s[1..])
      case None => None
      case Some(k) =>
        assert s[..k + 1] == [s[0]] + s[1..][..k];
        Some(k + 1)
  }

  /**
   * `for pin_input, pin in zip(pins_input, list(password)): pin_input.send_keys(int(pin))`.
   * The keystrokes are the pairs (field, character); `int(pin)` raises on the
   * first character of the zipped prefix that is not a digit.
   */
  function EnterPin<F>(fields: seq<F>, password: string): (r: Result<seq<(F, char)>, ImportError>)
    ensures var n := if |fields| <= |password| then |fields| else |password|;
      && (r.Success? <==> AllDigits(password[..n]))
      && (r.Success? ==> |r.value| == n && forall k :: 0 <= k < n ==> r.value[k] == (fields[k], password[k]))
      && (r.Failure? ==> exists k :: 0 <= k < n && !IsDigit(password[k]) && AllDigits(password[..k]) && r.error == NotADigit(password[k]))
  {
    var keys := Zip(fields, password);
    var n := |keys|;
    match FirstNonDigit(password[..n])
    case None => Success(keys)
    case Some(k) => Failure(NotADigit(password[k]))
  }
}

=== FILE: positions.dfy ===
/**
 * The end of both current importers: the run's metadata is attached to every
 * holding (`assign(date=..., type='Investments', financial_institution=...)`),
 * the columns are put in export order (`filter(items=[...])`), and the rows
 * are sorted by date, institution and ISIN (`sort_values(by=[...])`).
 */
module Positions {
  import opened Ordering
  import opened Records

  /** One holding with the run's metadata. */
  function Stamp(h: Holding, date: Date, institution: string): (p: Position)
    ensures Unstamp(p) == h
    ensures p.date == date && p.recordType == RecordType && p.institution == institution
  {
    Position(date, RecordType, institution, h.assetName, h.isinCode, h.shares, h.currentValue)
  }

  /** The holding columns of an output row, without the metadata. */
  function Unstamp(p: Position): Holding {
    Holding(p.assetName, p.isinCode, p.shares, p.currentValue)
  }

  /** `by=['date', 'financial_institution', 'isin_code']`. */
  function PositionKey(p: Position): Key {
    [Day(p.date), Str(p.institution), Str(p.isinCode)]
  }

  /** Every holding, stamped, in the original row order. */
  function StampAll(hs: seq<Holding>, date: Date, institution: string): (r: seq<Position>)
    ensures |r| == |hs|
    ensures forall i :: 0 <= i < |hs| ==> r[i] == Stamp(hs[i], date, institution)
  {
    seq(|hs|, i requires 0 <= i < |hs| => Stamp(hs[i], date, institution))
  }

  /**
   * The exported rows of one run: every holding once, with the run's
   * metadata, sorted by (date, institution, ISIN).
   */
  function Snapshot(hs: seq<Holding>, date: Date, institution: string): (r: seq<Position>)
    ensures |r| == |hs|
    ensures forall p :: p in r ==> p.date == date && p.recordType == RecordType && p.institution == institution
    ensures forall p :: p in r ==> Unstamp(p) in hs
    ensures forall h :: h in hs ==> Stamp(h, date, institution) in r
    ensures multiset(r) == multiset(StampAll(hs, date, institution))
    ensures SortedBy(r, PositionKey)
  {
    var stamped := StampAll(hs, date, institution);
    var r := SortBy(stamped, PositionKey);
    assert |r| == |multiset(r)| == |stamped|;
    forall p | p in r
      ensures Unstamp(p) in hs && p.date == date && p.institution == institution && p.recordType == RecordType
    {
      assert p in multiset(stamped);
      var i :| 0 <= i < |stamped| && stamped[i] == p;
    }
    forall h | h in hs
      ensures Stamp(h, date, institution) in r
    {
      var i :| 0 <= i < |hs| && hs[i] == h;
      assert stamped[i] in multiset(r);
    }
    r
  }

  /** The holding columns of the rows are the holdings, each as often as it was given. */
  lemma SnapshotHoldings(hs: seq<Holding>, date: Date, institution: string)
    ensures multiset(Keys(Snapshot(hs, date, institution), Unstamp)) == multiset(hs)
  {
    var stamped := StampAll(hs, date, institution);
    KeysOfPermutation(Snapshot(hs, date, institution), stamped, Unstamp);
    assert Keys(stamped, Unstamp) == hs;
  }

  /** Within one run date and institution are fixed, so the rows ascend by ISIN. */
  lemma SnapshotByIsin(hs: seq<Holding>, date: Date, institution: string)
    ensures var r := Snapshot(hs, date, institution);
      forall i, j :: 0 <= i < j < |r| ==> r[i].isinCode == r[j].isinCode || StrLt(r[i].isinCode, r[j].isinCode)
  {
    var r := Snapshot(hs, date, institution);
    forall i, j | 0 <= i < j < |r|
      ensures r[i].isinCode == r[j].isinCode || StrLt(r[i].isinCode, r[j].isinCode)
    {
      assert r[i] in r && r[j] in r;
      var a, b := PositionKey(r[i]), PositionKey(r[j]);
      assert KeyLe(a, b);
      assert a[..2] == b[..2];
      if a != b {
        assert KeyLt(a[1..], b[1..]) && KeyLt(a[2..], b[2..]);
      }
    }
  }

  /** Running the final sort again changes nothing. */
  lemma SnapshotSortIdempotent(hs: seq<Holding>, date: Date, institution: string)
    ensures SortBy(Snapshot(hs, date, institution), PositionKey) == Snapshot(hs, date, institution)
  {
    SortBySortedIsIdentity(Snapshot(hs, date, institution), PositionKey);
  }
}

=== FILE: records.dfy ===
/**
 * The output record of an import run and the errors that end a run.
 */
module Records {
  import opened Wrappers
  import opened Ordering

  /** The `type` column every imported row carries. */
  const RecordType := "Investments"

  /**
   * One holding before the run's metadata is attached: the columns
   * asset_name, isin_code, shares, current_value. `shares` is missing when the
   * left join found no share count for the ISIN. Numbers stay normalised text.
   */
  datatype Holding = Holding(assetName: string, isinCode: string, shares: Option<string>, currentValue: string)

  /**
   * One output row, its fields in the exported column order: date, type,
   * financial_institution, asset_name, isin_code, shares, current_value.
   */
  datatype Position = Position(
    date: Date,
    recordType: string,
    institution: string,
    assetName: string,
    isinCode: string,
    shares: Option<string>,
    currentValue: string)

  /** The exceptions that end an import. */
  datatype ImportError =
    | MissingColumn(column: string)      // `merge(on=column)` or `sort_values(by=column)` on a frame without that column
    | SharesTimeout(isinCode: string)    // the detail page never showed its "Shares" value
    | NotADigit(c: char)                 // `int(pin)` on a password character that is not a digit
    | UnboundName(name: string)          // `del name` of a loop variable that an empty loop never bound
}

=== FILE: scalable_capital.dfy ===
/**
 * The Scalable Capital importer: the portfolio list gives name, value and
 * security link of each holding; the security page of each ISIN gives its
 * share count; the two are left-joined on the ISIN, stamped and sorted.
 */
module ScalableCapital {
  import opened Wrappers
  import opened Text
  import opened Ordering
  import opened Records
  import opened Normalise
  import opened Values
  import opened Links
  import opened Join
  import opened Positions

  const Institution := "Scalable Capital"

  /** A portfolio section showing this text has no holdings to import. */
  const SavingsPlansMarker := "Popular savings plans"

  /**
   * What the importer reads from one `<li>` of the portfolio list: the text
   * of its name element, the text of its "Total value" span and the `href`
   * of its link.
   */
  datatype ListItem = ListItem(nameText: string, totalValueText: string, href: string)

  /** A row of the portfolio frame, before the share counts are joined in. */
  datatype PortfolioRow = PortfolioRow(assetName: string, isinCode: string, currentValue: string)

  /** A row of the share-count frame. */
  datatype SharesRow = SharesRow(isinCode: string, shares: string)

  /**
   * One list entry: name and value are stripped of surrounding white space,
   * the value is reduced to its amount, a cell that is exactly "," is
   * cleared, and the ISIN is what is left of the link.
   */
  function ReadItem(it: ListItem): (row: PortfolioRow)
    ensures exists i: nat :: StripsAt(it.nameText, row.assetName, i)
    ensures row.assetName == [] || (!IsPythonSpace(row.assetName[0]) && !IsPythonSpace(row.assetName[|row.assetName| - 1]))
    ensures row.isinCode == IsinFromHref(it.href)
    ensures exists t: string, i: nat :: StripsAt(it.totalValueText, t, i) && row.currentValue == ScalableValueAsWritten(t)
    ensures row.currentValue != ","
  {
    var value := Strip(it.totalValueText);
    var row := PortfolioRow(Strip(it.nameText), IsinFromHref(it.href), ScalableValueAsWritten(value));
    var i: nat :| StripsAt(it.totalValueText, value, i);
    assert StripsAt(it.totalValueText, value, i) && row.currentValue == ScalableValueAsWritten(value);
    row
  }

  /** A name shown without white space at either end is read exactly as shown. */
  lemma ReadItemOfDisplayedName(it: ListItem)
    requires it.nameText != [] && !IsPythonSpace(it.nameText[0]) && !IsPythonSpace(it.nameText[|it.nameText| - 1])
    ensures ReadItem(it).assetName == it.nameText
  {
    StripUnchanged(it.nameText);
  }

  /**
   * A value shown as `<prefix>€<amount><rest>` on one line, with at most one
   * thousands separator, is read as the amount with its separator kept.
   */
  lemma ReadItemOfDisplayedValue(it: ListItem, prefix: string, amount: string, rest: string)
    requires Strip(it.totalValueText) == prefix + [Euro] + amount + rest
    requires IsShortAmountText(amount)
    requires '\n' !in prefix + rest && Euro !in rest
    requires rest == [] || !IsDigit(rest[0])
    ensures ReadItem(it).currentValue == amount
  {
    ScalableValueAsWrittenOfDisplayedValue(prefix, amount, rest);
  }

  function IsinOf(row: PortfolioRow): string {
    row.isinCode
  }

  function SharesIsin(row: SharesRow): string {
    row.isinCode
  }

  /** The share count the security page of `isin` shows, if it shows one before the timeout. */
  function SharesOn(sharesAt: string -> Option<string>, isin: string, portfolioId: string): Option<string> {
    sharesAt(BuildDetailUrl(isin, portfolioId))
  }

  /** The share count of `isin` as the importer keeps it: without a leading '€' and commas. */
  function FetchedShares(sharesAt: string -> Option<string>, isin: string, portfolioId: string): Option<string> {
    match SharesOn(sharesAt, isin, portfolioId)
    case Some(text) => Some(CleanShares(text))
    case None => None
  }

  /** The page of the `i`-th ISIN is the first one that shows no share count. */
  predicate FirstTimeout(isins: seq<string>, portfolioId: string, sharesAt: string -> Option<string>, i: nat) {
    && i < |isins|
    && SharesOn(sharesAt, isins[i], portfolioId).None?
    && forall k :: 0 <= k < i ==> SharesOn(sharesAt, isins[k], portfolioId).Some?
  }

  /** A first timeout in the tail, after a head that showed a count, is the first timeout one position later. */
  lemma FirstTimeoutShift(isins: seq<string>, portfolioId: string, sharesAt: string -> Option<string>, i: nat)
    requires |isins| > 0 && SharesOn(sharesAt, isins[0], portfolioId).Some?
    requires FirstTimeout(isins[1..], portfolioId, sharesAt, i)
    ensures FirstTimeout(isins, portfolioId, sharesAt, i + 1) && isins[i + 1] == isins[1..][i]
  {
    forall k | 0 <= k < i + 1
      ensures SharesOn(sharesAt, isins[k], portfolioId).Some?
    {
      if k > 0 {
        assert isins[k] == isins[1..][k - 1];
      }
    }
  }

  /**
   * The share-count loop: each ISIN's security page is opened in turn, and
   * the first page that never shows "Shares" ends the run. A shown count
   * loses a leading '€' and its commas.
   */
  function CollectShares(isins: seq<string>, portfolioId: string, sharesAt: string -> Option<string>): (r: Result<seq<SharesRow>, ImportError>)
    ensures r.Success? <==> forall i :: 0 <= i < |isins| ==> SharesOn(sharesAt, isins[i], portfolioId).Some?
    ensures r.Success? ==> |r.value| == |isins| && forall i :: 0 <= i < |isins| ==>
      r.value[i] == SharesRow(isins[i], CleanShares(SharesOn(sharesAt, isins[i], portfolioId).value))
    ensures r.Failure? ==> exists i: nat :: FirstTimeout(isins, portfolioId, sharesAt, i) && r.error == SharesTimeout(isins[i])
    decreases |isins|
  {
    if isins == [] then Success([])
    else
      match SharesOn(sharesAt, isins[0], portfolioId)
      case None =>
        assert FirstTimeout(isins, portfolioId, sharesAt, 0);
        Failure(SharesTimeout(isins[0]))
      case Some(text) =>
        var tail := isins[1..];
        var rest := CollectShares(tail, portfolioId, sharesAt);
        assert forall i :: 0 < i < |isins| ==> isins[i] == tail[i - 1];
        if rest.Failure? then
          var i: nat :| FirstTimeout(tail, portfolioId, sharesAt, i) && rest.error == SharesTimeout(tail[i]);
          FirstTimeoutShift(isins, portfolioId, sharesAt, i);
          Failure(rest.error)
        else
          var r := [SharesRow(isins[0], CleanShares(text))] + rest.value;
          assert forall i :: 0 < i < |isins| ==> r[i] == rest.value[i - 1];
          Success(r)
  }

  /** The portfolio row with the share-count row the join paired it with. */
  function Combine(pair: (PortfolioRow, Option<SharesRow>)): (h: Holding) {
    var (row, found) := pair;
    Holding(row.assetName, row.isinCode, if found.Some? then Some(found.value.shares) else None, row.currentValue)
  }

  /**
   * `merge(how='left', on=['isin_code'])` of the portfolio rows with share
   * counts fetched row by row, then the metadata and the sort: every output
   * row is a portfolio row with the share count `shareCount` gives its ISIN.
   */
  function Assemble(rows: seq<PortfolioRow>, shares: seq<SharesRow>, shareCount: string -> Option<string>, date: Date): (r: seq<Position>)
    requires |shares| == |rows| && forall i :: 0 <= i < |rows| ==> shares[i].isinCode == rows[i].isinCode
    requires forall k :: 0 <= k < |shares| ==> shareCount(shares[k].isinCode) == Some(shares[k].shares)
    ensures forall p :: p in r ==>
      && p.date == date && p.recordType == RecordType && p.institution == Institution
      && PortfolioRow(p.assetName, p.isinCode, p.currentValue) in rows
      && p.shares.Some? && p.shares == shareCount(p.isinCode)
    ensures forall row :: row in rows ==> exists p :: p in r && row == PortfolioRow(p.assetName, p.isinCode, p.currentValue)
    ensures SortedBy(r, PositionKey)
  {
    var hs := Keys(LeftJoin(rows, shares, IsinOf, SharesIsin), Combine);
    var r := Snapshot(hs, date, Institution);
    JoinedHoldingsSound(rows, shares, shareCount);
    JoinedHoldingsComplete(rows, shares);
    assert forall p :: p in r ==> Unstamp(p) in hs;
    forall row | row in rows
      ensures exists p :: p in r && row == PortfolioRow(p.assetName, p.isinCode, p.currentValue)
    {
      var i :| 0 <= i < |rows| && rows[i] == row;
      var h := Combine((row, Some(shares[i])));
      assert Stamp(h, date, Institution) in r;
    }
    r
  }

  /** Every joined holding is a portfolio row with the share count `shareCount` gives its ISIN. */
  lemma JoinedHoldingsSound(rows: seq<PortfolioRow>, shares: seq<SharesRow>, shareCount: string -> Option<string>)
    requires |shares| == |rows| && forall i :: 0 <= i < |rows| ==> shares[i].isinCode == rows[i].isinCode
    requires forall k :: 0 <= k < |shares| ==> shareCount(shares[k].isinCode) == Some(shares[k].shares)
    ensures forall h :: h in Keys(LeftJoin(rows, shares, IsinOf, SharesIsin), Combine) ==>
      && PortfolioRow(h.assetName, h.isinCode, h.currentValue) in rows
      && h.shares.Some? && h.shares == shareCount(h.isinCode)
  {
    var joined := LeftJoin(rows, shares, IsinOf, SharesIsin);
    var hs := Keys(joined, Combine);
    forall h | h in hs
      ensures PortfolioRow(h.assetName, h.isinCode, h.currentValue) in rows
      ensures h.shares.Some? && h.shares == shareCount(h.isinCode)
    {
      var n :| 0 <= n < |joined| && hs[n] == h;
      assert joined[n] in joined;
      var i :| 0 <= i < |rows| && rows[i] == joined[n].0;
      assert shares[i] in shares && SharesIsin(shares[i]) == IsinOf(rows[i]);
      var k :| 0 <= k < |shares| && shares[k] == joined[n].1.value;
    }
  }

  /** Every portfolio row is joined with its own share-count row. */
  lemma JoinedHoldingsComplete(rows: seq<PortfolioRow>, shares: seq<SharesRow>)
    requires |shares| == |rows| && forall i :: 0 <= i < |rows| ==> shares[i].isinCode == rows[i].isinCode
    ensures forall i :: 0 <= i < |rows| ==> Combine((rows[i], Some(shares[i]))) in Keys(LeftJoin(rows, shares, IsinOf, SharesIsin), Combine)
  {
    var joined := LeftJoin(rows, shares, IsinOf, SharesIsin);
    var hs := Keys(joined, Combine);
    forall i | 0 <= i < |rows|
      ensures Combine((rows[i], Some(shares[i]))) in hs
    {
      assert rows[i] in rows && shares[i] in shares && SharesIsin(shares[i]) == IsinOf(rows[i]);
      KeysMember(joined, (rows[i], Some(shares[i])), Combine);
    }
  }

  /** The share counts of all entries, or the timeout of the first page that shows none. */
  function SharesOfRows(rows: seq<PortfolioRow>, portfolioId: string, sharesAt: string -> Option<string>): (r: Result<seq<SharesRow>, ImportError>)
    ensures r.Failure? <==> exists row :: row in rows && SharesOn(sharesAt, row.isinCode, portfolioId).None?
    ensures r.Failure? ==> r.error.SharesTimeout?
    ensures r.Success? ==> |r.value| == |rows| && forall i :: 0 <= i < |rows| ==>
      && r.value[i].isinCode == rows[i].isinCode
      && FetchedShares(sharesAt, r.value[i].isinCode, portfolioId) == Some(r.value[i].shares)
  {
    var isins := Keys(rows, IsinOf);
    var r := CollectShares(isins, portfolioId, sharesAt);
    assert r.Success? ==> forall i :: 0 <= i < |rows| ==>
      && r.value[i].isinCode == rows[i].isinCode
      && FetchedShares(sharesAt, r.value[i].isinCode, portfolioId) == Some(r.value[i].shares) by {
      if r.Success? {
        forall i | 0 <= i < |rows|
          ensures r.value[i].isinCode == rows[i].isinCode
          ensures FetchedShares(sharesAt, r.value[i].isinCode, portfolioId) == Some(r.value[i].shares)
        {
          assert isins[i] == rows[i].isinCode;
          assert SharesOn(sharesAt, isins[i], portfolioId).Some?;
        }
      }
    }
    assert r.Failure? <==> exists row :: row in rows && SharesOn(sharesAt, row.isinCode, portfolioId).None? by {
      if r.Failure? {
        var i: nat :| FirstTimeout(isins, portfolioId, sharesAt, i) && r.error == SharesTimeout(isins[i]);
        assert rows[i] in rows;
      }
      if row :| row in rows && SharesOn(sharesAt, row.isinCode, portfolioId).None? {
        var i :| 0 <= i < |rows| && rows[i] == row;
        assert isins[i] == row.isinCode;
      }
    }
    r
  }

  /**
   * A whole import. A portfolio section showing the savings-plan teaser gives
   * no rows. Otherwise an empty list fails when the loop variable it never
   * bound is deleted; a share count is fetched for every entry. Each output
   * row is an entry with the share count of its ISIN.
   */
  function Import(currentUrl: string, sectionText: string, items: seq<ListItem>, sharesAt: string -> Option<string>, date: Date)
    : (r: Result<seq<Position>, ImportError>)
    ensures Contains(sectionText, SavingsPlansMarker) ==> r == Success([])
    ensures !Contains(sectionText, SavingsPlansMarker) && items == [] ==> r == Failure(UnboundName("element"))
    ensures r.Failure? ==> !Contains(sectionText, SavingsPlansMarker) && (r.error.UnboundName? || r.error.SharesTimeout?)
    ensures r.Failure? && r.error.SharesTimeout? <==>
      && !Contains(sectionText, SavingsPlansMarker)
      && exists row :: row in Keys(items, ReadItem) && SharesOn(sharesAt, row.isinCode, PortfolioIdFromUrl(currentUrl)).None?
    ensures r.Success? ==> forall p :: p in r.value ==>
      && p.date == date && p.recordType == RecordType && p.institution == Institution
      && PortfolioRow(p.assetName, p.isinCode, p.currentValue) in Keys(items, ReadItem)
      && p.shares.Some? && p.shares == FetchedShares(sharesAt, p.isinCode, PortfolioIdFromUrl(currentUrl))
    ensures r.Success? && !Contains(sectionText, SavingsPlansMarker) ==> forall row :: row in Keys(items, ReadItem) ==>
      exists p :: p in r.value && row == PortfolioRow(p.assetName, p.isinCode, p.currentValue)
    ensures r.Success? ==> SortedBy(r.value, PositionKey)
  {
    if Contains(sectionText, SavingsPlansMarker) then Success([])
    else if items == [] then Failure(UnboundName("element"))
    else
      var rows := Keys(items, ReadItem);
      var portfolioId := PortfolioIdFromUrl(currentUrl);
      match SharesOfRows(rows, portfolioId, sharesAt)
      case Failure(e) => Failure(e)
      case Success(shares) => Success(Assemble(rows, shares, isin => FetchedShares(sharesAt, isin, portfolioId), date))
  }

  /**
   * An entry showing "€1,234.56" reaches the output as "1,234.56": the
   * thousands separator survives the whole import.
   */
  lemma ImportKeepsSeparator(currentUrl: string, sectionText: string, items: seq<ListItem>, sharesAt: string -> Option<string>, date: Date, it: ListItem)
    requires !Contains(sectionText, SavingsPlansMarker)
    requires it in items && it.totalValueText == [Euro] + "1,234.56"
    ensures var r := Import(currentUrl, sectionText, items, sharesAt, date);
      r.Success? ==> exists p :: p in r.value && p.currentValue == "1,234.56"
  {
    ImportShowsItemValue(currentUrl, sectionText, items, sharesAt, date, it);
    ReadItemKeepsSeparator(it);
  }

  /** An entry showing "€1,234.56" is read with its separator. */
  lemma ReadItemKeepsSeparator(it: ListItem)
    requires it.totalValueText == [Euro] + "1,234.56"
    ensures ReadItem(it).currentValue == "1,234.56"
  {
    StripUnchanged(it.totalValueText);
    ScalableValueAsWrittenKeepsSeparator();
  }

  /** Every entry's value, as read, is the value of some output row. */
  lemma ImportShowsItemValue(currentUrl: string, sectionText: string, items: seq<ListItem>, sharesAt: string -> Option<string>, date: Date, it: ListItem)
    requires !Contains(sectionText, SavingsPlansMarker)
    requires it in items
    ensures var r := Import(currentUrl, sectionText, items, sharesAt, date);
      r.Success? ==> exists p :: p in r.value && p.currentValue == ReadItem(it).currentValue
  {
    var r := Import(currentUrl, sectionText, items, sharesAt, date);
    if r.Success? {
      var rows := Keys(items, ReadItem);
      var i :| 0 <= i < |items| && items[i] == it;
      assert rows[i] == ReadItem(it) && ReadItem(it) in rows;
      var p :| p in r.value && ReadItem(it) == PortfolioRow(p.assetName, p.isinCode, p.currentValue);
    }
  }

  /** With pairwise distinct ISINs the join pairs each entry with its own share count: one row per entry. */
  lemma ImportOneRowPerItem(currentUrl: string, sectionText: string, items: seq<ListItem>, sharesAt: string -> Option<string>, date: Date)
    requires forall i, j :: 0 <= i < j < |items| ==> ReadItem(items[i]).isinCode != ReadItem(items[j]).isinCode
    ensures var r := Import(currentUrl, sectionText, items, sharesAt, date);
      r.Success? && !Contains(sectionText, SavingsPlansMarker) ==> |r.value| == |items|
  {
    if !Contains(sectionText, SavingsPlansMarker) && items != [] {
      var rows := Keys(items, ReadItem);
      var collected := SharesOfRows(rows, PortfolioIdFromUrl(currentUrl), sharesAt);
      if collected.Success? {
        LeftJoinUniqueKeys(rows, collected.value, IsinOf, SharesIsin);
      }
    }
  }
}

=== FILE: text.dfy ===
/**
 * Character classes and string helpers with Python's meaning: the pieces
 * from which the scraped-text normalisers are assembled.
 */
module Text {
  import opened Wrappers

  const Euro: char := '\U{20AC}'
  const Registered: char := '\U{00AE}'

  /** `[0-9]` */
  predicate IsDigit(c: char) {
    '0' <= c <= '9'
  }

  /** `[A-Z]` */
  predicate IsUpper(c: char) {
    'A' <= c <= 'Z'
  }

  /** `[a-zA-Z0-9_]` */
  predicate IsWordChar(c: char) {
    IsDigit(c) || IsUpper(c) || ('a' <= c <= 'z') || c == '_'
  }

  /** The characters for which Python's `str.isspace()` holds; `str.strip()` removes these. */
  predicate IsPythonSpace(c: char) {
    || c == ' '
    || ('\t' <= c <= '\r')
    || ('\U{1C}' <= c <= '\U{1F}')
    || c == '\U{85}'
    || c == '\U{A0}'
    || c == '\U{1680}'
    || ('\U{2000}' <= c <= '\U{200A}')
    || c == '\U{2028}'
    || c == '\U{2029}'
    || c == '\U{202F}'
    || c == '\U{205F}'
    || c == '\U{3000}'
  }

  predicate AllDigits(t: string) {
    forall m :: 0 <= m < |t| ==> IsDigit(t[m])
  }

  predicate AllSpace(t: string) {
    forall m :: 0 <= m < |t| ==> IsPythonSpace(t[m])
  }

  /** `p` occurs in `s` starting at index `i`. */
  predicate OccursAt(s: string, i: nat, p: string) {
    i + |p| <= |s| && s[i..i + |p|] == p
  }

  predicate StartsWith(s: string, p: string) {
    |p| <= |s| && s[..|p|] == p
  }

  /** Python's `p in s` on strings. */
  function Contains(s: string, p: string): (r: bool)
    ensures r <==> exists i: nat :: OccursAt(s, i, p)
    decreases |s|
  {
    if StartsWith(s, p) then
      assert OccursAt(s, 0, p);
      true
    else if s == [] then
      assert forall i: nat :: !OccursAt(s, i, p);
      false
    else
      var r := Contains(s[1..], p);
      assert forall i: nat :: OccursAt(s[1..], i, p) <==> OccursAt(s, i + 1, p) by {
        forall i: nat
          ensures OccursAt(s[1..], i, p) <==> OccursAt(s, i + 1, p)
        {
          if i + 1 + |p| <= |s| {
            assert s[1..][i..i + |p|] == s[i + 1..i + 1 + |p|];
          }
        }
      }
      assert !OccursAt(s, 0, p);
      assert r ==> OccursAt(s, (var i: nat :| OccursAt(s[1..], i, p); i) + 1, p);
      assert (exists i: nat :: OccursAt(s, i, p)) ==> r by {
        if exists i: nat :: OccursAt(s, i, p) {
          var i: nat :| OccursAt(s, i, p);
          assert OccursAt(s[1..], i - 1, p);
        }
      }
      r
  }

  /**
   * The index of the first `c` at or after `i`, or `|s|`: where a regex run of
   * characters other than `c` started at `i` stops (`.*` for '\n', `[^&]*` for '&').
   */
  function IndexFrom(s: string, i: nat, c: char): (k: nat)
    requires i <= |s|
    ensures i <= k <= |s|
    ensures forall m :: i <= m < k ==> s[m] != c
    ensures k < |s| ==> s[k] == c
    decreases |s| - i
  {
    if i == |s| || s[i] == c then i else IndexFrom(s, i + 1, c)
  }

  /** End of the first line: the reach of a regex `^.*`. */
  function LineEnd(s: string): nat
    ensures LineEnd(s) <= |s|
  {
    IndexFrom(s, 0, '\n')
  }

  /** Without a line break the first line is the whole text. */
  lemma LineEndSingleLine(s: string)
    requires '\n' !in s
    ensures LineEnd(s) == |s|
  {
  }

  /** Four pieces without a line break make one line, each piece in its place. */
  lemma OneLineOfFour(a: string, b: string, c: string, d: string)
    requires '\n' !in a && '\n' !in b && '\n' !in c && '\n' !in d
    ensures var s := a + b + c + d;
      && LineEnd(s) == |s|
      && s[|a|..|a| + |b|] == b
      && s[|a| + |b|..|a| + |b| + |c|] == c
      && s[|a| + |b| + |c|..] == d
  {
    var s := a + b + c + d;
    assert '\n' !in s;
    LineEndSingleLine(s);
    PiecesOfFour(a, b, c, d);
  }

  /** Each of four concatenated pieces sits in its place. */
  lemma PiecesOfFour(a: string, b: string, c: string, d: string)
    ensures var s := a + b + c + d;
      && s[..|a|] == a
      && s[|a|..|a| + |b|] == b
      && s[|a| + |b|..|a| + |b| + |c|] == c
      && s[|a| + |b| + |c|..] == d
  {
  }

  /** `a` can be obtained from `b` by deleting characters. */
  ghost predicate IsSubsequence(a: string, b: string)
    decreases |b|
  {
    || a == []
    || (&& b != []
        && ((a[0] == b[0] && IsSubsequence(a[1..], b[1..])) || IsSubsequence(a, b[1..])))
  }

  /**
   * `re.sub(c, '', s)` for a single literal character: every `c` is deleted
   * and every other character is kept, in order.
   */
  function RemoveChar(s: string, c: char): (r: string)
    ensures c !in r
    ensures forall d :: d != c ==> multiset(r)[d] == multiset(s)[d]
    ensures IsSubsequence(r, s)
  {
    if s == [] then []
    else
      assert s == [s[0]] + s[1..];
      var rest := RemoveChar(s[1..], c);
      if s[0] == c then rest else [s[0]] + rest
  }

  /** Removes the `str.isspace()` characters at the front. */
  function StripLeft(s: string): (r: string)
    ensures |r| <= |s| && r == s[|s| - |r|..]
    ensures AllSpace(s[..|s| - |r|])
    ensures r != [] ==> !IsPythonSpace(r[0])
  {
    if s != [] && IsPythonSpace(s[0]) then
      var r := StripLeft(s[1..]);
      var k := |s| - |r|;
      assert AllSpace(s[..k]) by {
        var cut := s[..k];
        forall m | 0 <= m < k
          ensures IsPythonSpace(cut[m])
        {
          if m > 0 {
            assert cut[m] == s[1..][..k - 1][m - 1];
          }
        }
      }
      r
    else s
  }

  /** Removes the `str.isspace()` characters at the back. */
  function StripRight(s: string): (r: string)
    ensures |r| <= |s| && r == s[..|r|]
    ensures AllSpace(s[|r|..])
    ensures r != [] ==> !IsPythonSpace(r[|r| - 1])
  {
    if s != [] && IsPythonSpace(s[|s| - 1]) then
      var t := s[..|s| - 1];
      var r := StripRight(t);
      assert AllSpace(s[|r|..]) by {
        forall m | 0 <= m < |s| - |r|
          ensures IsPythonSpace(s[|r|..][m])
        {
          if |r| + m < |s| - 1 {
            assert s[|r|..][m] == t[|r|..][m];
          }
        }
      }
      r
    else s
  }

  /** `r` is `s` with the white space before index `i` and after `r` cut off. */
  predicate StripsAt(s: string, r: string, i: nat) {
    i + |r| <= |s| && s[i..i + |r|] == r && AllSpace(s[..i]) && AllSpace(s[i + |r|..])
  }

  /** Python's `str.strip()` with no argument. */
  function Strip(s: string): (r: string)
    ensures exists i: nat :: StripsAt(s, r, i)
    ensures r != [] ==> !IsPythonSpace(r[0]) && !IsPythonSpace(r[|r| - 1])
  {
    var left := StripLeft(s);
    var r := StripRight(left);
    StripSlice(s, left, r);
    r
  }

  /** Text that neither starts nor ends with white space is its own `strip()`. */
  lemma StripUnchanged(s: string)
    requires s != [] && !IsPythonSpace(s[0]) && !IsPythonSpace(s[|s| - 1])
    ensures Strip(s) == s
  {
    var r := Strip(s);
    var i: nat :| StripsAt(s, r, i);
  }

  /** Spaces cut from the front and then from the back leave a slice with only spaces around it. */
  lemma StripSlice(s: string, left: string, r: string)
    requires |left| <= |s| && left == s[|s| - |left|..] && AllSpace(s[..|s| - |left|])
    requires |r| <= |left| && r == left[..|r|] && AllSpace(left[|r|..])
    requires left != [] ==> !IsPythonSpace(left[0])
    requires r != [] ==> !IsPythonSpace(r[|r| - 1])
    ensures exists i: nat :: StripsAt(s, r, i)
    ensures r != [] ==> !IsPythonSpace(r[0]) && !IsPythonSpace(r[|r| - 1])
  {
    assert r != [] ==> r[0] == left[0];
    var i := |s| - |left|;
    assert s[i..i + |r|] == r by {
      assert s[i..i + |r|] == left[..|r|];
    }
    assert AllSpace(s[i + |r|..]) by {
      assert s[i + |r|..] == left[|r|..];
    }
    assert StripsAt(s, r, i);
  }

  /**
   * The largest `i < n` with `ok(i)`: the candidate a greedy, backtracking
   * regex `^.*X` settles on when `ok(i)` says the rest of the pattern matches at `i`.
   */
  function LastSatisfying(n: nat, ok: nat -> bool): (r: Option<nat>)
    ensures r.Some? ==> r.value < n && ok(r.value) && forall j: nat :: r.value < j < n ==> !ok(j)
    ensures r.None? ==> forall j: nat :: j < n ==> !ok(j)
  {
    if n == 0 then None
    else if ok(n - 1) then Some(n - 1)
    else LastSatisfying(n - 1, ok)
  }

  /** Skipping the first character of `b` keeps the subsequences of what is left. */
  lemma SubsequenceOfTail(a: string, b: string)
    requires b != [] && IsSubsequence(a, b[1..])
    ensures IsSubsequence(a, b)
  {
  }

  /** A common first character extends a subsequence. */
  lemma SubsequenceCons(c: char, a: string, b: string)
    requires IsSubsequence(a, b)
    ensures IsSubsequence([c] + a, [c] + b)
  {
    assert ([c] + a)[1..] == a && ([c] + b)[1..] == b;
  }

  /** An occurrence lying inside `s[lo..hi]` is an occurrence in that slice. */
  lemma OccursWithin(s: string, lo: nat, hi: nat, q: nat, p: string)
    requires lo <= q && q + |p| <= hi <= |s| && OccursAt(s, q, p)
    ensures Contains(s[lo..hi], p)
  {
    var t := s[lo..hi];
    forall k | 0 <= k < |p|
      ensures t[q - lo + k] == p[k]
    {
      assert s[q..q + |p|][k] == s[q + k];
    }
    assert t[q - lo..q - lo + |p|] == p;
    assert OccursAt(t, q - lo, p);
  }

  /** An occurrence at or after `lo` is an occurrence in `s[lo..]`. */
  lemma OccursInSuffix(s: string, lo: nat, q: nat, p: string)
    requires lo <= q && OccursAt(s, q, p)
    ensures Contains(s[lo..], p)
  {
    var t := s[lo..];
    forall k | 0 <= k < |p|
      ensures t[q - lo + k] == p[k]
    {
      assert s[q..q + |p|][k] == s[q + k];
    }
    assert t[q - lo..q - lo + |p|] == p;
    assert OccursAt(t, q - lo, p);
  }

  /** A pattern absent from `s[lo..]` occurs nowhere in `s` at or after `lo`. */
  lemma NotOccursAfter(s: string, lo: nat, q: nat, p: string)
    requires lo <= q && lo <= |s| && !Contains(s[lo..], p)
    ensures !OccursAt(s, q, p)
  {
    if OccursAt(s, q, p) {
      OccursInSuffix(s, lo, q, p);
      assert false;
    }
  }
}

=== FILE: trade_republic.dfy ===
/**
 * The Trade Republic importer: one holding per entry of the instrument list,
 * then the run's metadata and the final sort.
 */
module TradeRepublic {
  import opened Wrappers
  import opened Text
  import opened Ordering
  import opened Records
  import opened Normalise
  import opened Values
  import opened Positions

  const Institution := "Trade Republic"

  /**
   * What the importer reads from one `<li>` of the instrument list: the text
   * of its name span, its `id` attribute, the text of the first span of its
   * price row and the text of its current-price span.
   */
  datatype ListItem = ListItem(nameText: string, id: string, priceRowText: string, currentPriceText: string)

  /**
   * The holding of one entry: the `id` attribute is the ISIN, the share count
   * stays as displayed, and the value loses its " €" and its commas.
   */
  function ReadItem(it: ListItem): (h: Holding)
    ensures h.assetName == it.nameText && h.isinCode == it.id && h.shares == Some(it.priceRowText)
    ensures ',' !in h.currentValue && |h.currentValue| <= |it.currentPriceText|
  {
    Holding(it.nameText, it.id, Some(it.priceRowText), CleanTradeRepublicValue(it.currentPriceText))
  }

  /**
   * A whole import. An empty list leaves a frame without an `isin_code`
   * column, and sorting by it fails; otherwise every entry becomes exactly
   * one row, stamped with the run's date and the institution, sorted by ISIN.
   */
  function Import(items: seq<ListItem>, date: Date): (r: Result<seq<Position>, ImportError>)
    ensures r.Failure? <==> items == []
    ensures r.Failure? ==> r.error == MissingColumn("isin_code")
    ensures r.Success? ==> |r.value| == |items|
    ensures r.Success? ==> forall p :: p in r.value ==>
      && p.date == date && p.recordType == RecordType && p.institution == Institution
      && p.shares.Some? && ',' !in p.currentValue
      && exists it :: it in items && Unstamp(p) == ReadItem(it)
    ensures r.Success? ==> forall it :: it in items ==> Stamp(ReadItem(it), date, Institution) in r.value
    ensures r.Success? ==> SortedBy(r.value, PositionKey)
  {
    if items == [] then Failure(MissingColumn("isin_code"))
    else
      var hs := Keys(items, ReadItem);
      var r := Snapshot(hs, date, Institution);
      forall p | p in r
        ensures exists it :: it in items && Unstamp(p) == ReadItem(it)
      {
        var i :| 0 <= i < |hs| && hs[i] == Unstamp(p);
        assert items[i] in items;
      }
      forall it | it in items
        ensures Stamp(ReadItem(it), date, Institution) in r
      {
        var i :| 0 <= i < |items| && items[i] == it;
        assert hs[i] in hs;
      }
      Success(r)
  }

  /** Every entry contributes exactly as many rows as it occurs in the list. */
  lemma ImportKeepsEveryEntry(items: seq<ListItem>, date: Date)
    requires items != []
    ensures multiset(Keys(Import(items, date).value, Unstamp)) == multiset(Keys(items, ReadItem))
  {
    SnapshotHoldings(Keys(items, ReadItem), date, Institution);
  }

  /** A value displayed as `<amount> €` is imported as the amount without thousands separators. */
  lemma ReadItemOfDisplayedValue(it: ListItem, amount: string)
    requires IsAmountText(amount) && it.currentPriceText == amount + [' ', Euro]
    ensures ReadItem(it).currentValue == RemoveChar(amount, ',')
    ensures IsDecimalText(ReadItem(it).currentValue)
  {
    CleanTradeRepublicValueOfDisplayedValue(amount);
  }
}

=== FILE: values.dfy ===
/**
 * Current values and share counts: the cleanups that turn displayed text into
 * a plain decimal number text, one per importer.
 */
module Values {
  import opened Text
  import opened Normalise

  /** `[0-9]+\.[0-9]+`: a number text `float()` reads without further cleanup. */
  ghost predicate IsDecimalText(t: string) {
    exists p: nat :: IsPlainAmount(t, p)
  }

  /** Dropping the separators of digit groups leaves a non-empty run of digits. */
  lemma RemoveCommasOfGroups(g: string)
    requires IsDigitGroups(g)
    ensures |RemoveChar(g, ',')| > 0 && AllDigits(RemoveChar(g, ','))
  {
    var r := RemoveChar(g, ',');
    assert g == [g[0]] + g[1..];
    RemoveCharAppend([g[0]], g[1..], ',');
    forall m | 0 <= m < |r|
      ensures IsDigit(r[m])
    {
      assert multiset(g)[r[m]] == multiset(r)[r[m]] > 0;
      assert r[m] in g;
      var i :| 0 <= i < |g| && g[i] == r[m];
    }
  }

  /** Dropping the separators of an amount leaves a decimal number text. */
  lemma RemoveCommasOfAmount(amount: string)
    requires IsAmountText(amount)
    ensures IsDecimalText(RemoveChar(amount, ','))
  {
    var p: nat :| IsAmountSplit(amount, p);
    var g, f := amount[..p], amount[p + 1..];
    assert amount == g + ['.'] + f;
    RemoveCharAppend(g + ['.'], f, ',');
    RemoveCharAppend(g, ['.'], ',');
    assert RemoveChar(['.'], ',') == ['.'];
    RemoveCharAbsent(f, ',');
    RemoveCommasOfGroups(g);
    var r := RemoveChar(amount, ',');
    var d := RemoveChar(g, ',');
    assert r == d + ['.'] + f;
    assert r[..|d|] == d && r[|d| + 1..] == f;
    assert IsPlainAmount(r, |d|);
  }

  /**
   * The current value of a Scalable Capital position: the amount after the
   * last '€' with its thousands separators removed, using the corrected
   * amount pattern.
   */
  function CurrentValue(s: string): (r: string)
    ensures ',' !in r
    ensures (forall j: nat :: j < LineEnd(s) ==> !EuroBeforeAmount(s, j)) ==> r == RemoveChar(s, ',')
  {
    RemoveChar(ExtractAmount(s), ',')
  }

  /** A displayed value `<prefix>€<amount><rest>` becomes the amount's digits and point. */
  lemma CurrentValueOfDisplayedValue(prefix: string, amount: string, rest: string)
    requires IsAmountText(amount)
    requires '\n' !in prefix + rest && Euro !in rest
    requires rest == [] || !IsDigit(rest[0])
    ensures CurrentValue(prefix + [Euro] + amount + rest) == RemoveChar(amount, ',')
    ensures IsDecimalText(CurrentValue(prefix + [Euro] + amount + rest))
  {
    ExtractAmountOfDisplayedValue(prefix, amount, rest);
    RemoveCommasOfAmount(amount);
  }

  /**
   * The legacy cleanup as written: the amount pattern that allows at most one
   * thousands separator, then every comma removed.
   */
  function CurrentValueAsWritten(s: string): (r: string)
    ensures ',' !in r
    ensures (forall j: nat :: j < LineEnd(s) ==> !EuroBeforeAmountAsWritten(s, j)) ==> r == RemoveChar(s, ',')
  {
    RemoveChar(ExtractAmountAsWritten(s), ',')
  }

  /** As written, `<prefix>€<amount><rest>` with at most one separator gives the amount's digits and point. */
  lemma CurrentValueAsWrittenOfDisplayedValue(prefix: string, amount: string, rest: string)
    requires IsShortAmountText(amount)
    requires '\n' !in prefix + rest && Euro !in rest
    requires rest == [] || !IsDigit(rest[0])
    ensures CurrentValueAsWritten(prefix + [Euro] + amount + rest) == RemoveChar(amount, ',')
    ensures IsDecimalText(CurrentValueAsWritten(prefix + [Euro] + amount + rest))
  {
    ExtractAmountAsWrittenOfDisplayedValue(prefix, amount, rest);
    ShortAmountIsAmount(amount);
    RemoveCommasOfAmount(amount);
  }

  /** As written, a value of a million or more keeps its `€` and is not a number: "€1,234,567.89" gives "€1234567.89". */
  lemma CurrentValueAsWrittenKeepsEuro()
    ensures CurrentValueAsWritten([Euro] + "1,234,567.89") == [Euro] + "1234567.89"
    ensures !IsDecimalText(CurrentValueAsWritten([Euro] + "1,234,567.89"))
  {
    ExtractAmountAsWrittenMissesMillions();
    var a, b, c := [Euro] + "1", "234", "567.89";
    assert a + [','] + b + [','] + c == [Euro] + "1,234,567.89";
    assert a + b + c == [Euro] + "1234567.89";
    RemoveTwoSeparators(a, b, c, ',');
    NotDecimalWithEuro([Euro] + "1234567.89");
  }

  /** Removing `ch` from two places where it joins `a`, `b` and `c` joins them directly. */
  lemma RemoveTwoSeparators(a: string, b: string, c: string, ch: char)
    requires ch !in a && ch !in b && ch !in c
    ensures RemoveChar(a + [ch] + b + [ch] + c, ch) == a + b + c
  {
    var x, y := a + [ch] + b, [ch] + c;
    assert a + [ch] + b + [ch] + c == x + y;
    RemoveCharAppend(x, y, ch);
    RemoveOneSeparator(a, b, ch);
    assert RemoveChar(y, ch) == c by {
      assert y[0] == ch && y[1..] == c;
      RemoveCharAbsent(c, ch);
    }
  }

  /** Text that starts with `€` is not a decimal number. */
  lemma NotDecimalWithEuro(t: string)
    requires |t| > 0 && t[0] == Euro
    ensures !IsDecimalText(t)
  {
  }

  /**
   * The Scalable Capital cleanup as written: the amount pattern, then
   * `Series.replace(',', '', regex=False)`, which replaces whole cells equal to
   * "," and leaves commas inside a number in place.
   */
  function ScalableValueAsWritten(s: string): (r: string)
    ensures r != ","
    ensures (forall j: nat :: j < LineEnd(s) ==> !EuroBeforeAmountAsWritten(s, j)) && s != "," ==> r == s
  {
    var t := ExtractAmountAsWritten(s);
    if t == "," then "" else t
  }

  /**
   * As written, `<prefix>€<amount><rest>` with at most one separator gives the
   * amount exactly, its separator included.
   */
  lemma ScalableValueAsWrittenOfDisplayedValue(prefix: string, amount: string, rest: string)
    requires IsShortAmountText(amount)
    requires '\n' !in prefix + rest && Euro !in rest
    requires rest == [] || !IsDigit(rest[0])
    ensures ScalableValueAsWritten(prefix + [Euro] + amount + rest) == amount
  {
    ExtractAmountAsWrittenOfDisplayedValue(prefix, amount, rest);
    ShortAmountIsAmount(amount);
    var p: nat :| IsAmountSplit(amount, p);
    assert |amount| > 1;
  }

  /** As written, a value with a thousands separator keeps it: "€1,234.56" becomes "1,234.56". */
  lemma ScalableValueAsWrittenKeepsSeparator()
    ensures ScalableValueAsWritten([Euro] + "1,234.56") == "1,234.56"
  {
    var amount := "1,234.56";
    assert IsOneGroupAmount(amount, 1, 5) by {
      assert amount[..1] == "1" && amount[2..5] == "234" && amount[6..] == "56";
    }
    assert IsShortAmountText(amount);
    var none: string := [];
    assert none + [Euro] + amount + none == [Euro] + amount;
    ScalableValueAsWrittenOfDisplayedValue(none, amount, none);
  }

  /** Dropping the separator of 1,234.56 gives 1234.56. */
  lemma DropSeparatorExample()
    ensures RemoveChar("1,234.56", ',') == "1234.56"
  {
    var a, b := "1", "234.56";
    assert ',' !in a && ',' !in b;
    RemoveOneSeparator(a, b, ',');
    assert a + [','] + b == "1,234.56";
    assert a + b == "1234.56";
  }

  /** The corrected cleanup reads the same cell as 1234.56. */
  lemma CurrentValueDropsSeparator()
    ensures CurrentValue([Euro] + "1,234.56") == "1234.56"
  {
    ExtractAmountReadsThousands();
    DropSeparatorExample();
  }

  /** `re.sub('^€|,', '', s)`: a share count loses one leading '€' and every comma. */
  function CleanShares(s: string): (r: string)
    ensures ',' !in r
    ensures IsSubsequence(r, s)
    ensures forall d :: d != ',' && d != Euro ==> multiset(r)[d] == multiset(s)[d]
    ensures multiset(r)[Euro] == multiset(s)[Euro] - (if |s| > 0 && s[0] == Euro then 1 else 0)
  {
    if |s| > 0 && s[0] == Euro then
      assert s == [s[0]] + s[1..];
      RemoveChar(s[1..], ',')
    else RemoveChar(s, ',')
  }

  /** A share count displayed as an amount, with or without a leading '€', becomes a decimal number text. */
  lemma CleanSharesOfAmount(amount: string)
    requires IsAmountText(amount)
    ensures CleanShares([Euro] + amount) == RemoveChar(amount, ',')
    ensures CleanShares(amount) == RemoveChar(amount, ',')
    ensures IsDecimalText(CleanShares(amount))
  {
    assert ([Euro] + amount)[1..] == amount;
    RemoveCommasOfAmount(amount);
  }

  /**
   * `re.sub(' €|,', '', s)`: scanning left to right, a space followed by '€'
   * goes as a pair, a comma goes alone, everything else stays.
   */
  function CleanTradeRepublicValue(s: string): (r: string)
    ensures ',' !in r
    ensures |r| <= |s|
    decreases |s|
  {
    if s == [] then []
    else if |s| >= 2 && s[0] == ' ' && s[1] == Euro then CleanTradeRepublicValue(s[2..])
    else if s[0] == ',' then CleanTradeRepublicValue(s[1..])
    else [s[0]] + CleanTradeRepublicValue(s[1..])
  }

  /** The cleanup only deletes: what is left appears in the input, in order. */
  lemma {:induction false} CleanTradeRepublicValueSubsequence(s: string)
    ensures IsSubsequence(CleanTradeRepublicValue(s), s)
    decreases |s|
  {
    if s == [] {
    } else if |s| >= 2 && s[0] == ' ' && s[1] == Euro {
      CleanTradeRepublicValueSubsequence(s[2..]);
      assert s[2..] == s[1..][1..];
      SubsequenceOfTail(CleanTradeRepublicValue(s), s[1..]);
      SubsequenceOfTail(CleanTradeRepublicValue(s), s);
    } else if s[0] == ',' {
      CleanTradeRepublicValueSubsequence(s[1..]);
      SubsequenceOfTail(CleanTradeRepublicValue(s), s);
    } else {
      CleanTradeRepublicValueSubsequence(s[1..]);
      SubsequenceCons(s[0], CleanTradeRepublicValue(s[1..]), s[1..]);
      assert s == [s[0]] + s[1..];
    }
  }

  /**
   * Every character other than ' ', '€' and ',' survives in number; spaces and
   * euro signs go in equal numbers, as pairs.
   */
  lemma CleanTradeRepublicValueCounts(s: string)
    ensures var r := CleanTradeRepublicValue(s);
      && (forall d :: d != ' ' && d != Euro && d != ',' ==> multiset(r)[d] == multiset(s)[d])
      && multiset(r)[Euro] <= multiset(s)[Euro]
      && multiset(s)[' '] + multiset(r)[Euro] == multiset(r)[' '] + multiset(s)[Euro]
  {
    forall d | d != ' ' && d != Euro && d != ','
      ensures multiset(CleanTradeRepublicValue(s))[d] == multiset(s)[d]
    {
      CleanTradeRepublicValueKeepsOthers(s, d);
    }
    CleanTradeRepublicValuePairs(s);
  }

  /** Dropping a prefix without `d` keeps the count of `d`. */
  lemma CountDrop(s: string, k: nat, r: string, d: char)
    requires k <= |s| && multiset(r)[d] == multiset(s[k..])[d]
    requires d !in s[..k]
    ensures multiset(r)[d] == multiset(s)[d]
  {
    assert s == s[..k] + s[k..];
  }

  /** Keeping the first character keeps the count of `d`. */
  lemma CountKeep(s: string, r: string, d: char)
    requires s != [] && multiset(r)[d] == multiset(s[1..])[d]
    ensures multiset([s[0]] + r)[d] == multiset(s)[d]
  {
    assert s == [s[0]] + s[1..];
  }

  /** A character other than ' ', '€' and ',' survives in number. */
  lemma {:induction false} CleanTradeRepublicValueKeepsOthers(s: string, d: char)
    requires d != ' ' && d != Euro && d != ','
    ensures multiset(CleanTradeRepublicValue(s))[d] == multiset(s)[d]
    decreases |s|
  {
    if s == [] {
    } else if |s| >= 2 && s[0] == ' ' && s[1] == Euro {
      CleanTradeRepublicValueKeepsOthers(s[2..], d);
      assert s[..2] == [' ', Euro];
      CountDrop(s, 2, CleanTradeRepublicValue(s[2..]), d);
    } else if s[0] == ',' {
      CleanTradeRepublicValueKeepsOthers(s[1..], d);
      assert s[..1] == [','];
      CountDrop(s, 1, CleanTradeRepublicValue(s[1..]), d);
    } else {
      CleanTradeRepublicValueKeepsOthers(s[1..], d);
      CountKeep(s, CleanTradeRepublicValue(s[1..]), d);
    }
  }

  /**
   * `r` has no more euro signs than `s`, and `s` lost exactly as many spaces
   * as euro signs on the way to `r`.
   */
  ghost predicate PairedRemoval(s: string, r: string) {
    && multiset(r)[Euro] <= multiset(s)[Euro]
    && multiset(s)[' '] + multiset(r)[Euro] == multiset(r)[' '] + multiset(s)[Euro]
  }

  /** Dropping a prefix with as many spaces as euro signs keeps the pairing. */
  lemma PairedRemovalDrop(s: string, k: nat, r: string)
    requires k <= |s| && PairedRemoval(s[k..], r)
    requires multiset(s[..k])[' '] == multiset(s[..k])[Euro]
    ensures PairedRemoval(s, r)
  {
    assert s == s[..k] + s[k..];
  }

  /** Keeping the first character keeps the pairing. */
  lemma PairedRemovalKeep(s: string, r: string)
    requires s != [] && PairedRemoval(s[1..], r)
    ensures PairedRemoval(s, [s[0]] + r)
  {
    assert s == [s[0]] + s[1..];
  }

  /** Spaces and euro signs go in equal numbers, as pairs. */
  lemma {:induction false} CleanTradeRepublicValuePairs(s: string)
    ensures PairedRemoval(s, CleanTradeRepublicValue(s))
    decreases |s|
  {
    if s == [] {
    } else if |s| >= 2 && s[0] == ' ' && s[1] == Euro {
      CleanTradeRepublicValuePairs(s[2..]);
      assert s[..2] == [' ', Euro];
      PairedRemovalDrop(s, 2, CleanTradeRepublicValue(s[2..]));
    } else if s[0] == ',' {
      CleanTradeRepublicValuePairs(s[1..]);
      assert s[..1] == [','];
      PairedRemovalDrop(s, 1, CleanTradeRepublicValue(s[1..]));
    } else {
      CleanTradeRepublicValuePairs(s[1..]);
      PairedRemovalKeep(s, CleanTradeRepublicValue(s[1..]));
    }
  }

  /** Text without spaces is cleaned piece by piece: only its commas go. */
  lemma {:induction false} CleanTradeRepublicValueAppend(a: string, b: string)
    requires ' ' !in a
    ensures CleanTradeRepublicValue(a + b) == RemoveChar(a, ',') + CleanTradeRepublicValue(b)
    decreases |a|
  {
    if a == [] {
      assert a + b == b;
    } else {
      assert (a + b)[0] == a[0];
      assert (a + b)[1..] == a[1..] + b;
      CleanTradeRepublicValueAppend(a[1..], b);
    }
  }

  /** A displayed value `<amount> €` becomes the amount's digits and point. */
  lemma CleanTradeRepublicValueOfDisplayedValue(amount: string)
    requires IsAmountText(amount)
    ensures CleanTradeRepublicValue(amount + [' ', Euro]) == RemoveChar(amount, ',')
    ensures IsDecimalText(CleanTradeRepublicValue(amount + [' ', Euro]))
  {
    AmountChars(amount);
    CleanTradeRepublicValueAppend(amount, [' ', Euro]);
    assert CleanTradeRepublicValue([' ', Euro]) == [];
    RemoveCommasOfAmount(amount);
  }

  /** `re.sub(' €', '', s)`: every space followed by '€' goes, as a pair. */
  function RemoveSpacedEuro(s: string): (r: string)
    ensures |r| <= |s|
    decreases |s|
  {
    if s == [] then []
    else if |s| >= 2 && s[0] == ' ' && s[1] == Euro then RemoveSpacedEuro(s[2..])
    else [s[0]] + RemoveSpacedEuro(s[1..])
  }

  /** The cleanup only deletes: what is left appears in the input, in order. */
  lemma {:induction false} RemoveSpacedEuroSubsequence(s: string)
    ensures IsSubsequence(RemoveSpacedEuro(s), s)
    decreases |s|
  {
    if s == [] {
    } else if |s| >= 2 && s[0] == ' ' && s[1] == Euro {
      RemoveSpacedEuroSubsequence(s[2..]);
      assert s[2..] == s[1..][1..];
      SubsequenceOfTail(RemoveSpacedEuro(s), s[1..]);
      SubsequenceOfTail(RemoveSpacedEuro(s), s);
    } else {
      RemoveSpacedEuroSubsequence(s[1..]);
      SubsequenceCons(s[0], RemoveSpacedEuro(s[1..]), s[1..]);
      assert s == [s[0]] + s[1..];
    }
  }

  /** Every character other than ' ' and '€' survives in number. */
  lemma {:induction false} RemoveSpacedEuroKeepsOthers(s: string, d: char)
    requires d != ' ' && d != Euro
    ensures multiset(RemoveSpacedEuro(s))[d] == multiset(s)[d]
    decreases |s|
  {
    if s == [] {
    } else if |s| >= 2 && s[0] == ' ' && s[1] == Euro {
      RemoveSpacedEuroKeepsOthers(s[2..], d);
      assert s[..2] == [' ', Euro];
      CountDrop(s, 2, RemoveSpacedEuro(s[2..]), d);
    } else {
      RemoveSpacedEuroKeepsOthers(s[1..], d);
      CountKeep(s, RemoveSpacedEuro(s[1..]), d);
    }
  }

  /** Spaces and euro signs go in equal numbers, as pairs. */
  lemma {:induction false} RemoveSpacedEuroPairs(s: string)
    ensures var r := RemoveSpacedEuro(s);
      && multiset(r)[Euro] <= multiset(s)[Euro]
      && multiset(s)[' '] + multiset(r)[Euro] == multiset(r)[' '] + multiset(s)[Euro]
    decreases |s|
  {
    if s == [] {
    } else if |s| >= 2 && s[0] == ' ' && s[1] == Euro {
      RemoveSpacedEuroPairs(s[2..]);
      assert s[..2] == [' ', Euro];
      PairedRemovalDrop(s, 2, RemoveSpacedEuro(s[2..]));
    } else {
      RemoveSpacedEuroPairs(s[1..]);
      PairedRemovalKeep(s, RemoveSpacedEuro(s[1..]));
    }
  }

  /** A displayed value `<number> €` without other spaces becomes the number. */
  lemma {:induction false} RemoveSpacedEuroOfDisplayedValue(number: string)
    requires ' ' !in number
    ensures RemoveSpacedEuro(number + [' ', Euro]) == number
    decreases |number|
  {
    if number == [] {
      assert number + [' ', Euro] == [' ', Euro];
    } else {
      assert (number + [' ', Euro])[1..] == number[1..] + [' ', Euro];
      RemoveSpacedEuroOfDisplayedValue(number[1..]);
    }
  }
}

=== FILE: wrappers.dfy ===
/** Failure-carrying result types shared by the normalisers and the import pipelines. */
module Wrappers {

  /** A value that may be absent: a pandas cell holding NaN is `None`. */
  datatype Option<+T> = None | Some(value: T) {

    /** The wrapped value, or `default` when absent. */
    function GetOr(default: T): T {
      match this
      case Some(v) => v
      case None => default
    }
  }

  /** The outcome of an import: the records, or the exception that ended it. */
  datatype Result<+R, +E> = Success(value: R) | Failure(error: E) {

    predicate IsFailure() {
      Failure?
    }

    function PropagateFailure<U>(): Result<U, E>
      requires Failure?
    {
      Failure(error)
    }

    function Extract(): R
      requires Success?
    {
      value
    }
  }
}
